=== FILE: README.md ===
# A model of the funfixtures loader

funfixtures declares test fixtures as classes. A fixture class holds item classes: each item
class lists plain attribute values and zero-argument callables that compute further values,
possibly by reading attributes of items in other fixtures. Loading a fixture turns every item
into a live object through the fixture's backend hooks (`create_item_instance`,
`destroy_item_instance`, `get_primary_key`) and publishes it under the item's name. Unloading
destroys the objects again. Items are reference counted, so an item loaded twice is created
once. An item that another item's computed attribute pulls in is loaded on demand and unloaded
when the item that pulled it in goes away. A fixture class also works as a decorator that loads
around a test body and unloads even when the body raises.

The model is functional. The state of every item (`_load_count`, `_instance`,
`_items_to_unload`), the backend's store, the resolving depth (`loading_counter`) and a log of
backend calls are threaded through pure functions. The `PleaseLoadItem` protocol becomes a
result value of a computed attribute (`NeedsItem`). Python exceptions raised by the loader
become an `Err` result.

The sample entity store of the test suite (`Account` over the `DB` dictionary) is modelled as
well. It is plugged into the loader as the backend `SampleBackend.Backed`.

Modules:

- `Common`: names, item identities, values, and a few sequence facts.
- `FixtureModel`: slots, descriptors, configuration, backend, state and errors.
- `Loader`: `load_item`, `unload_item`, `_load_self`, `_unload_self`, `load`, `unload`, `__call__`.
- `LoadFacts`, `UnloadFacts`: what one load and one unload do.
- `Refcount`, `RefFacts`: the external reference count, i.e. the loads not made by pulled-in lists.
- `ItemTheorems`, `FixtureTheorems`: properties spanning several calls.
- `ItemBuild`: the build-time split of an item class into `_values` and `_deps`, and the primary-key thunk.
- `AttrLookup`: `FixtureItem_getattr` and the publication of instances.
- `SampleDb`, `SampleDbFacts`: the sample store.
- `SampleBackend`: the test backend over the sample store.
- `Teardown`: the invariant that makes a decorated call from an idle start end idle again.
- `BackedTeardown`: the same for the sample store, whose keys return to what they were.

## Model

| member | source | states |
|---|---|---|
| Loader.LoadItem | funfixtures/common.py:125-154 | A successful load is of a declared item of the calling fixture. It keeps one slot per declared item, only ever raises counts, and leaves `loading_counter` as it found it. Its full effect is stated by LoadFacts.LoadItemFacts. |
| Loader.Resolve | funfixtures/common.py:134-149 | Resolving the computed attributes only raises counts, and `loading_counter` is back where it was when the loop ends. |
| Loader.UnloadItem | funfixtures/common.py:156-170 | A successful unload is of a declared item of the calling fixture and only ever lowers counts. Its full effect is stated by UnloadFacts.UnloadItemFacts. |
| Loader.UnloadList | funfixtures/common.py:168-169 | Unloading the pulled-in list only lowers counts. |
| Loader.LoadOwn | funfixtures/common.py:104-106 | `_load_self` only raises counts. |
| Loader.UnloadOwn | funfixtures/common.py:108-110 | `_unload_self` only lowers counts. |
| Loader.LoadBases | funfixtures/common.py:113-115 | Running `_load_self` over a chain only raises counts. |
| Loader.UnloadBases | funfixtures/common.py:118-120 | Running `_unload_self` over a chain only lowers counts. |
| Loader.LoadFixture | funfixtures/common.py:112-115 | `load` only raises counts and keeps the depth. |
| Loader.UnloadFixture | funfixtures/common.py:117-120 | `unload` only lowers counts and keeps the depth. |
| Loader.Run | funfixtures/common.py:176-184 | A decorated call that gets past the loader ends in a valid state at the depth it started from. |
| LoadFacts.LoadItemFacts | funfixtures/common.py:125-154 | Every successful `load_item` is of an item of the calling fixture, raises its count by exactly one and publishes its instance. A call on an item already loaded returns the stored instance, makes no backend call and changes nothing else. A first load adds exactly one create call per newly loaded item, the last one for the item itself. That create's values are the fixed values overlaid, in `_deps` order, with the `Ready` result of each computed attribute. Each attribute is called in a view at depth `loading_counter + 1` in which the item is counted but not yet published, and every other item sits, in that view, part of the way from its slot before the call to its slot after it, as a load moves slots. The items pulled in are the ones the attributes requested, in request order. Other items only gain counts. |
| LoadFacts.FirstLoadFacts | funfixtures/common.py:128-153 | The 0→1 load leaves the item counted once and published with the instance it returns. It creates exactly the items it took from count 0. Its last backend call creates the item itself from its fixed values overlaid with the `Ready` result of each computed attribute, in order. Each attribute is called at depth `loading_counter + 1` while the item is counted but unpublished, and every other item sits, in that view, part of the way from its slot before the call to its slot after it, as a load moves slots. Its pulled-in list holds the items the attributes requested, in request order, each request made in such a view. |
| LoadFacts.ResolveFacts | funfixtures/common.py:134-149 | The attribute loop returns the values it was given overlaid, in order, with one `Ready` result per remaining attribute. Each attribute is called in a view at depth `loading_counter + 1` in which the loading item is counted but unpublished, and every other item sits part of the way from its slot when the loop started to its slot when it ended. The loop leaves the loading item's count and missing instance alone and only appends to its pulled-in list. The appended items are the ones the remaining attributes requested, in request order; each is distinct and counted once more. It creates exactly the items it took from count 0. |
| LoadFacts.ResolvePullFacts | funfixtures/common.py:143-149 | A step that honours a request for an item keeps the same guarantees as the whole loop, and the item appended next to the pulled-in list is exactly the requested one, counted once more. Creates happen only for items taken from count 0. |
| LoadFacts.OverlaidKeys | funfixtures/common.py:131-139 | The values handed to the backend carry exactly the fixed names plus the computed names. Every fixed value not overwritten by a computed one survives. |
| UnloadFacts.UnloadItemFacts | funfixtures/common.py:156-170 | Every successful `unload_item` is of an item of the calling fixture and lowers the item's count by exactly one. At a count above one it makes no backend call and leaves the store as it was. At one it first destroys the stored instance, then releases the item to its initial state, then lowers every pulled-in item at least once per time it was pulled in. Each item released is destroyed exactly once, on the instance it held. The order of the cascade is stated by UnloadFacts.UnloadListInOrder. |
| UnloadFacts.UnloadListFacts | funfixtures/common.py:168-169 | Unloading a list lowers each item at least once per occurrence and otherwise only releases items, destroying each exactly once. The order is stated by UnloadFacts.UnloadListInOrder. |
| UnloadFacts.UnloadListInOrder | funfixtures/common.py:163-169 | For distinct items each held once with nothing pulled in, unloading the list calls the backend exactly once per item, a destroy of its stored instance, in list order, and leaves every item idle. |
| RefFacts.LoadItemExt | funfixtures/common.py:125-154 | A load raises the external count of the loaded item by one and of no other item. |
| RefFacts.UnloadItemExt | funfixtures/common.py:156-170 | An unload lowers the external count of the unloaded item by one and of no other item. |
| RefFacts.UnloadListExt | funfixtures/common.py:168-169 | Unloading a list gives up one external reference per occurrence. |
| ItemTheorems.HeldRoundTrip | funfixtures/common.py:125-161 | On a loaded item, a load followed by an unload restores the state exactly, and so does an unload followed by a load when the count is at least two. The load hands back the stored instance. |
| ItemTheorems.ExternalSurvives | funfixtures/common.py:156-170 | An item loaded independently of any pulled-in list is still loaded, with the same instance, after any other item's unload, however far that unload cascades. |
| ItemTheorems.LoadUnloadBalanced | funfixtures/common.py:125-170 | A load followed by the matching unload leaves every item's external count where it was. |
| ItemTheorems.CoveredKept | funfixtures/common.py:143-170 | Every count keeps covering the references pulled-in lists hold on it, across loads and across unloads the caller holds a reference for. |
| ItemTheorems.RepeatLoad | funfixtures/common.py:128-154 | N loads raise the count by N. On an unloaded item they make exactly one backend call about it: a create whose values are the fixed values overlaid with the `Ready` result of each computed attribute, each computed in a view in which every other item sits between its slot before the first load and its slot after the last. On a loaded item they make no backend call. |
| ItemTheorems.RepeatUnload | funfixtures/common.py:159-166 | N unloads lower the count by N, and fail when the count is below N. Only the call that reaches zero makes a backend call about the item, the destroy of its stored instance, and leaves the item idle. |
| ItemTheorems.LoadThenUnload | funfixtures/common.py:125-170 | N loads then N unloads of an unloaded item make exactly two backend calls about it. The first is a create whose values are the fixed values overlaid with the `Ready` result of each computed attribute, each computed in a view in which every other item sits between its slot before the loads and its slot after them. The second is a destroy of the instance the loads returned. The item ends in its initial state. On an item already loaded, the slot and the log end as they were. |
| ItemTheorems.RequestHonouredOnce | funfixtures/common.py:143-149 | An attribute that keeps requesting the same item has its first request honoured. Once that load succeeds, the repeated request aborts with the cause the attribute gave. The only other outcome is the failure of the requested load itself. |
| FixtureTheorems.LoadAncestorsFirst | funfixtures/common.py:112-115 | `load` runs `_load_self` of the ancestors, most basic first, before the fixture's own. |
| FixtureTheorems.UnloadSelfFirst | funfixtures/common.py:117-120 | `unload` runs the fixture's own `_unload_self` first, then the ancestors', most derived first. |
| FixtureTheorems.OwnItemsReverse | funfixtures/common.py:112-120 | Walking the chain backwards touches the same items the same number of times, so what `load` takes, `unload` gives back. |
| FixtureTheorems.LoadOwnExt | funfixtures/common.py:104-106 | `_load_self` adds one external reference per declared item. |
| FixtureTheorems.UnloadOwnExt | funfixtures/common.py:108-110 | `_unload_self` gives one external reference back per declared item. |
| FixtureTheorems.LoadBasesExt | funfixtures/common.py:112-115 | `load` adds one external reference per item the chain declares. |
| FixtureTheorems.UnloadBasesExt | funfixtures/common.py:117-120 | `unload` gives back one external reference per item the chain declares. |
| FixtureTheorems.LoadUnloadExt | funfixtures/common.py:112-120 | A `load` and an `unload` of the same fixture, with anything balanced in between, leave every external count where it was. |
| FixtureTheorems.RunExt | funfixtures/common.py:176-184 | A decorated call that gets past the loader leaves every external count where it was: each decorator's `unload` ran, whether the body returned or raised. |
| FixtureTheorems.RunRaises | funfixtures/common.py:180-183 | A decorated call that gets past the loader raises exactly when its body raises. |
| FixtureTheorems.LoadOwnLive | funfixtures/common.py:104-106 | After `_load_self` every declared item is loaded and published, and every item that was before still is. |
| FixtureTheorems.LoadBasesLive | funfixtures/common.py:112-115 | After `load` every item of the chain is loaded and published. |
| FixtureTheorems.HeldLoadRaised | funfixtures/common.py:125-154 | A load of a published item succeeds and changes nothing but its count. |
| FixtureTheorems.HeldUnloadRaised | funfixtures/common.py:159-161 | An unload of an item counted at least twice succeeds and changes nothing but its count. |
| FixtureTheorems.LoadOwnHeld | funfixtures/common.py:104-106 | `_load_self` over published items only raises their counts. |
| FixtureTheorems.UnloadOwnHeld | funfixtures/common.py:108-110 | `_unload_self` over items counted more often than declared only lowers their counts. |
| FixtureTheorems.LoadBasesHeld | funfixtures/common.py:112-115 | `load` over a chain whose items are all published only raises counts. |
| FixtureTheorems.UnloadBasesHeld | funfixtures/common.py:117-120 | `unload` over a chain whose items are counted more often than declared only lowers counts. |
| FixtureTheorems.NestedSameFixture | funfixtures/common.py:176-184 | Decorating a body twice with the same fixture gives the same outcome as decorating it once. |
| FixtureTheorems.InnerDecoratorIdle | funfixtures/common.py:176-184 | Once every item of the chain is published, decorating with the fixture changes nothing. |
| ItemBuild.Build | funfixtures/common.py:78-95 | With redeclaration honoured, `_values` and `_deps` never share a name, and `_deps` holds only callables. |
| ItemBuild.BuildAsWritten | funfixtures/common.py:78-95 | The walk as written puts a name in `_values` exactly when some class of the chain declares it as a plain value, and in `_deps` exactly when some class declares it as a callable or an item reference, so a name redeclared with another kind lands in both. |
| ItemBuild.BuildIsClassView | funfixtures/common.py:81-93 | The split is that of the item class's own attribute view: a subclass overrides exactly the names it redeclares, and every other name keeps its inherited value and kind. |
| ItemBuild.AsWrittenKeepsStaleCallable | funfixtures/common.py:81-93 | As written, a name redeclared as a plain value stays in `_deps` too. At load the inherited callable's result overwrites the value the subclass declared. |
| ItemBuild.AsWrittenAgreesWhenKindStable | funfixtures/common.py:81-93 | When no name changes kind along the chain, the merge as written builds what the intended one builds. |
| ItemBuild.ToDescriptor | funfixtures/common.py:131-134 | The loader starts from exactly `_values` and visits exactly the names of `_deps`. |
| ItemBuild.CreateValuesFollowClass | funfixtures/common.py:78-151 | A first load of an item built by the intended walk hands the backend exactly the item class's public names, with every plain value it declares unchanged, whatever its computed attributes return. |
| ItemBuild.KeyThunkFollowsLoad | funfixtures/common.py:85-89 | Before the referenced item is loaded, its thunk requests the load with no cause. After a load returns an instance, the thunk yields that instance's primary key. |
| ItemBuild.KeyThunk | funfixtures/common.py:85-89 | The thunk for an item reference either requests that item or is ready. It is ready exactly when the item is counted and has an instance, and then yields the backend's primary key of that instance. |
| ItemBuild.KeyThunkReturned | funfixtures/common.py:85-89 | A key-thunk attribute that returned a value during a load referenced another item that is loaded and published by the end of the load, and the value is the primary key of that item's instance after the load. |
| ItemBuild.FirstLoadKeyValue | tests/test_common.py:114-117 | After the first load of an item, the value its one create call gives an item-reference attribute that no later attribute renames over is the primary key of the referenced item's instance, which is loaded and published. |
| AttrLookup.ReadAttr | funfixtures/common.py:22-29 | A name the item class lacks requests a load of the item exactly when resolution is under way, with the `AttributeError` as cause. Outside resolution it fails with that error. A published instance answers instead of the class. |
| AttrLookup.ReadMatchesBuild | funfixtures/common.py:22-29 | Before publication, an item answers with a plain value exactly when its build put that value in `_values`, and with a callable exactly for the names of `_deps`. |
| AttrLookup.ReadFollowsLoad | funfixtures/common.py:22-29 | A read that requests an unloaded item goes to its instance once a load of the item has returned. |
| SampleDb.EmptyDb | tests/sampledb.py:2 | The empty store has exactly two keys: the counter `_next` at 1 and an empty index `x`. |
| SampleDb.DecimalRoundTrip | tests/sampledb.py:41 | The decimal rendering of an id parses back to that id. |
| SampleDb.KeysDistinct | tests/sampledb.py:41 | Different ids give different keys. |
| SampleDbFacts.FindByXStored | tests/sampledb.py:17-19 | In a consistent store, `find_by_x` succeeds, and an object is in its answer exactly when the object is stored under its own id and its current `x` is the one asked for. It is then listed once. |
| SampleDbFacts.IndexRoundTrip | tests/sampledb.py:27-36 | Adding an unlisted object to the index appends it to the `find_by_x` answer for its `x` and changes no other answer. Removing it again succeeds and gives back every `find_by_x` answer, the keys and the stored rows. |
| SampleDbFacts.AssignIdFresh | tests/sampledb.py:39-42 | In a consistent store an object without an id gets the counter as id. That id is not yet a key and is above every integer key, the counter moves on by one and the store stays consistent. |
| SampleDbFacts.DropOldUnindexes | tests/sampledb.py:43-45 | Re-putting over a stored row first takes the stored object out of every `find_by_x` answer, keeps every other object's listings and leaves the keys alone. |
| SampleDb.RemoveFirst | tests/sampledb.py:36 | `list.remove` takes exactly one occurrence out. |
| SampleDb.RemoveFirstKeepsOrder | tests/sampledb.py:36 | `list.remove` cuts out the first occurrence of the object and leaves the others in their order. |
| SampleDb.Put | tests/sampledb.py:38-47 | A successful `put` leaves the object with an id, stores it under that id and indexes it. |
| SampleDb.Delete | tests/sampledb.py:21-25 | `delete` of an object without an id is an `AssertionError`. Otherwise it unindexes the object, removes its key and clears its id. |
| SampleDbFacts.EmptyConsistent | tests/sampledb.py:2 | The empty store satisfies the store invariant. |
| SampleDbFacts.UnassignedAbsent | tests/sampledb.py:21-47 | In a consistent store, an object without an id is neither stored nor indexed. |
| SampleDbFacts.StoredIndexed | tests/sampledb.py:38-47 | In a consistent store, a stored object carries its key as id and is listed exactly once, under its current `x`. |
| SampleDbFacts.PutFresh | tests/sampledb.py:38-47 | `put` of a new object assigns the next id and key and advances the counter. It adds exactly that key to the store and appends the object to its `x` list, leaving every other list alone. The store stays consistent. |
| SampleDbFacts.PutStored | tests/sampledb.py:43-47 | Re-putting a stored object removes its old index entry first: it ends last in its list, listed once. The keys and counter are unchanged, and the store stays consistent. |
| SampleDbFacts.DeleteStored | tests/sampledb.py:21-25 | `delete` removes exactly the object's key and its one index entry and clears its id. A second `delete` is an `AssertionError`. The store stays consistent. |
| SampleDbFacts.PutThenDelete | tests/sampledb.py:21-47 | `put` then `delete` of a new object gives back the former number of top-level keys and every `find_by_x` answer. Only the counter has moved on. |
| SampleDbFacts.PutAfterMoveFails | tests/sampledb.py:33-45 | Changing a stored object's `x` and then re-putting it raises `ValueError`, because the old entry is looked for under the new `x`. |
| SampleDbFacts.AllocConsistent | tests/sampledb.py:9-15 | Constructing a new object keeps the store consistent. |
| SampleBackend.CreateFresh | tests/support.py:10-14 | On a consistent store with no preset id, the create succeeds with the next id and a new object indexed under the values' `x`. |
| SampleBackend.StoreRoundTrip | tests/support.py:10-18 | A create then a destroy of the same entity gives back the former number of keys and every `find_by_x` answer. |
| SampleBackend.LoadPlain | funfixtures/common.py:128-153 | `load_item` of an idle item without computed attributes makes one create call with its fixed values and holds the item once. |
| SampleBackend.UnloadPlain | funfixtures/common.py:156-170 | `unload_item` of an item held once that pulled nothing in makes one destroy call on its instance, and the item is idle again. |
| SampleBackend.LoadUnloadBaseline | tests/test_common.py:76-82 | An item loaded once through the sample store is the last entity `find_by_x` returns for its `x`. Unloaded again, the item is idle, the store has its former number of keys and every `find_by_x` answers as before. |
| Teardown.RunSound | funfixtures/common.py:176-184 | A decorated call that gets past the loader keeps the teardown invariant: every count covers the references pulled-in lists hold, every counted item is published, and every item a published item pulled in is published and was created before it. |
| Teardown.NoExtAllIdle | funfixtures/common.py:156-170 | When the invariant holds and no item has an external reference, every item is idle: no pulled-in list can keep an item loaded on its own. |
| Teardown.RunFromIdle | funfixtures/common.py:176-184 | A decorated call from a state where every item is idle that gets past the loader leaves every item idle again, including every item a computed attribute pulled in. |
| BackedTeardown.RunTracks | funfixtures/common.py:176-184 | With the sample store as backend and fixture items that neither declare an `id` other than `None` nor compute one, a decorated call keeps the store consistent, every published instance stored under an id of its own, and the store's keys equal to a fixed base set plus the ids of the published instances. |
| BackedTeardown.BackedRunFromIdle | tests/support.py:21-29 | A procedure decorated with fixtures over the sample store whose body touches neither the fixtures nor the store, run from an idle start, ends with every item idle, the store consistent and exactly its former keys, so `len(db)` is back where it was. This needs fixture items that neither declare an `id` other than `None` nor compute one. |

## Left out

- The metaclass's choice of the `Entity` class (common.py:40-60) and the conversion of member classes into item descriptors (62-76): the model starts from the built descriptors and fixture chains (`Config`). The naming assertion at line 66 is not modelled.
- `compute_mro` (common.py:8-12): a fixture chain is given as its method resolution order. The item-class chain walked by the build is given as the list of class bodies from most basic to most derived.
- `FixtureItem_getattr` hands back the raw class member. A callable or item-reference member is reported as `FoundCallable` and not as a value, because the model does not represent callables or item classes as values.
- Dictionary iteration order (`_item_klasses.items()`, `_deps.iteritems()`) is fixed by the configuration as a sequence.
- A load that reaches an item whose count is raised but whose instance is not yet set (a cycle through requests) returns `Err(Reentered)`. In the source the loading depth is back at its outer value there, since common.py:137-141 raise and lower it only around the attribute call. In the item's first lifetime `_instance` was never set, so the read at common.py:154 falls through to `FixtureItem_getattr` and raises `AttributeError` (common.py:23-24). In a later lifetime common.py:165 left `_instance = None`, so `load_item` returns `None`; the attribute that made the request raises the same request on its retry, and common.py:144-145 re-raise its `AttributeError` cause. Both lifetimes end in an error, as in the model.
- Every loader error is an `Err` without a state. The source leaves counts raised or lowered part-way when an exception escapes, and the model does not say what state follows an error.
- The primary-key thunk reads the current slot of the referenced item. For an item counted but without an instance it issues a request with `AttributeError` cause (`MissingAttr(j, "_instance")`). In the source this matches the item's first lifetime, where the `_instance` read at common.py:88 raises `PleaseLoadItem` carrying that `AttributeError` (common.py:26-29). In a later lifetime `_instance` is `None` (common.py:165), so the source calls `get_primary_key(kl, None)`, which raises a plain `AttributeError` from `None.id` (common.py:201) without a request. Either way the load fails: in the model the request reaches the counted item again and ends in `Err(Reentered)`.
- Python values are reduced to integers, strings and `None`. Computed attributes are functions of the load state they observe, and everything else they could touch is left out.
- funfixtures/appengine.py is not part of this model. Only the sample store backend of the tests is modelled.
- `DB = None` before a test runs: a store without the counter or index fails with `KeyError`, `TypeError` or `AttributeError`, but the model always has a store value.
- `EMPTY_DB.copy()` is shallow, so the index dictionary is shared between tests. The model copies values.
- SampleBackend.Create: the instance is a handle holding the object and the id `put` gave it; the source reads `item_instance.id` at the time `get_primary_key` is called.
- `INDEXED_PROPS` is fixed to the single property `x`.
- Python object identity is a reference into a heap map. `list.remove` compares with `==`, which for `Account` is identity.
- Loader.LoadItem: its own contract states only validity, the direction counts move and the depth, because the full behaviour is stated by LoadFacts.LoadItemFacts and RefFacts.LoadItemExt.
- Loader.Resolve: its own contract states only validity, the direction counts move and the depth, because the full behaviour is stated by LoadFacts.ResolveFacts.
- Loader.UnloadItem: its own contract states only validity, the direction counts move and the depth, because the full behaviour is stated by UnloadFacts.UnloadItemFacts and RefFacts.UnloadItemExt.
- Loader.UnloadList: its own contract states only validity, the direction counts move and the depth, because the full behaviour is stated by UnloadFacts.UnloadListFacts.
- Loader.LoadOwn: its own contract states only validity, the direction counts move and the depth, because the full behaviour is stated by FixtureTheorems.LoadOwnExt and FixtureTheorems.LoadOwnLive.
- Loader.UnloadOwn: its own contract states only validity, the direction counts move and the depth, because the full behaviour is stated by FixtureTheorems.UnloadOwnExt.
- Loader.LoadBases: its own contract states only validity, the direction counts move and the depth, because the full behaviour is stated by FixtureTheorems.LoadBasesExt.
- Loader.UnloadBases: its own contract states only validity, the direction counts move and the depth, because the full behaviour is stated by FixtureTheorems.UnloadBasesExt.
- Loader.LoadFixture: its own contract states only validity, the direction counts move and the depth, because the full behaviour is stated by FixtureTheorems.LoadAncestorsFirst.
- Loader.UnloadFixture: its own contract states only validity, the direction counts move and the depth, because the full behaviour is stated by FixtureTheorems.UnloadSelfFirst.
- Loader.Run: its own contract states only validity, the direction counts move and the depth, because the full behaviour is stated by FixtureTheorems.RunExt and FixtureTheorems.RunRaises.
- SampleDb.Put: its own contract states only that a successful `put` stores and ids the object, because its effect on keys, counter and index is stated by SampleDbFacts.PutFresh and SampleDbFacts.PutStored.
- SampleDb.Delete: its own contract states only the error cases, the removal of the key and the cleared id, because its effect on the index is stated by SampleDbFacts.DeleteStored.
- ItemTheorems.LoadThenUnload: does not state that the items the load pulled in are released again, because that holds only from a sound state and is stated for whole decorated calls by Teardown.RunFromIdle.
- Loader.Run: the decorated function is modelled as a body that only returns or raises (`Body(raises)`), touching neither the loader state nor the store. The source runs an arbitrary `f` (common.py:181). FixtureTheorems.RunExt, FixtureTheorems.NestedSameFixture, Teardown.RunFromIdle and BackedTeardown.BackedRunFromIdle are therefore proved only for such bodies. For an `f` that loads or unloads items itself, or writes to `DB`, they promise nothing.
- BackedTeardown.RunTracks: holds only for fixture items that declare no `id` other than `None` and compute none (`IdFree`), for the reason given for BackedRunFromIdle.
- UnloadFacts.UnloadItemFacts: the order of the cascade is stated only for lists of items held once that pulled nothing in, by UnloadFacts.UnloadListInOrder. For nested cascades the contract gives the set of destroyed items and not their order.
- UnloadFacts.UnloadListFacts: as for UnloadItemFacts, the order is stated only by UnloadFacts.UnloadListInOrder for items held once that pulled nothing in.
- BackedTeardown.BackedRunFromIdle: promises the store's former keys only for fixture items that declare no `id` other than `None` and compute none. An item that sets its own `id` is `put` under that key, possibly over a row already there, and the keys then need not return.
- Instances are plain values without heap references (`I(!new)`). The sample backend's instance is a handle holding an object reference and an id, which is such a value.

## Findings

| source | as written | input that shows it | evidently intended | confidence | as-written member | corrected member |
|---|---|---|---|---|---|---|
| funfixtures/common.py:81-93 | Each class of the item's MRO adds its public members to `_values` or `_deps` by kind, and never removes the name from the other map. | A base item class with a computed `y` and a subclass declaring `y = 81`. `_deps` keeps the base's callable, and at load its result overwrites 81 (line 139). | A subclass overrides exactly what it redeclares, as Python attribute lookup on the item class does. | not executed | ItemBuild.AsWrittenKeepsStaleCallable | ItemBuild.BuildIsClassView |

=== FILE: attr_lookup.dfy ===
/** Reading an attribute of a fixture item (`FixtureItem_getattr`,
    funfixtures/common.py:22-29, together with the publication of instances
    at lines 153 and 166), written as an explicit lookup over the load state. */
module AttrLookup {
  import opened Common
  import opened FixtureModel
  import opened LoadFacts
  import opened ItemBuild

  /** The outcome of reading `Fixture.item.n`: a plain value, one of the item
      class's callables (which the model does not represent as a value), an
      `AttributeError`, or a `PleaseLoadItem` request. */
  datatype Read = Found(value: Value) | FoundCallable | Fails(fault: Fault) | Requests(item: ItemId, cause: Fault)

  /** Reads attribute `n` of whatever the fixture class exposes under item
      `j`: its instance once published (read through `field`), otherwise the
      item descriptor, which answers from its class members `cls`; a name the
      class lacks reaches `FixtureItem_getattr`, which re-raises the
      `AttributeError` when no attribute is being resolved (`depth` 0) and asks
      for `j` to be loaded otherwise. */
  function ReadAttr<I(!new)>(slots: map<ItemId, Slot<I>>, depth: nat, j: ItemId, cls: ClassBody<I>, n: Name,
                       field: (I, Name) -> Option<Value>): (r: Read)
    ensures r.Requests? <==> !Published(slots, j) && n !in cls && depth > 0
    ensures r.Requests? ==> r.item == j && r.cause == MissingAttr(j, n)
    ensures r.Fails? ==> r.fault == MissingAttr(j, n)
    ensures r.FoundCallable? <==> !Published(slots, j) && n in cls && !cls[n].Const?
  {
    if Published(slots, j) then
      match field(slots[j].instance.value, n)
      case Some(v) => Found(v)
      case None => Fails(MissingAttr(j, n))
    else if n in cls then
      match cls[n]
      case Const(v) => Found(v)
      case _ => FoundCallable
    else if depth == 0 then Fails(MissingAttr(j, n))
    else Requests(j, MissingAttr(j, n))
  }

  /** Before its instance is published, an item answers with the plain values
      its build put in `_values`, and with a callable exactly for the names in
      `_deps`. */
  lemma ReadMatchesBuild<I(!new)>(slots: map<ItemId, Slot<I>>, depth: nat, j: ItemId, chain: seq<ClassBody<I>>, n: Name,
                            field: (I, Name) -> Option<Value>, v: Value)
    requires !Published(slots, j)
    ensures ReadAttr(slots, depth, j, ClassView(chain), n, field) == Found(v)
            <==> n in Build(chain).values && Build(chain).values[n] == v
    ensures ReadAttr(slots, depth, j, ClassView(chain), n, field).FoundCallable? <==> n in Build(chain).deps
  {
    BuildIsClassView(chain);
  }

  /** A name the item class lacks: while `j` is not loaded, reading it during
      resolution asks for `j`; after a load of `j` has returned `inst`, the
      same read goes to the instance. */
  lemma ReadFollowsLoad<S, I(!new)>(st: St<S, I>, st': St<S, I>, j: ItemId, inst: I, cls: ClassBody<I>, n: Name,
                              field: (I, Name) -> Option<Value>, depth: nat)
    requires LoadSlots(st, st', j, inst) && n !in cls && depth > 0 && st.slots[j].count == 0
    requires Tidy(st)
    ensures ReadAttr(st.slots, depth, j, cls, n, field) == Requests(j, MissingAttr(j, n))
    ensures ReadAttr(st'.slots, depth, j, cls, n, field)
            == match field(inst, n) case Some(v) => Found(v) case None => Fails(MissingAttr(j, n))
  {
  }
}

=== FILE: backed_teardown.dfy ===
/** The sample store across decorated calls (tests/support.py:28-29 with
    funfixtures/common.py:125-184): while items are loaded, `DB` holds its
    former keys plus one id per published item; a decorated call made with
    every item unloaded gives `DB` back its former keys. */
module BackedTeardown {
  import opened Common
  import opened FixtureModel
  import opened Loader
  import opened LoadFacts
  import opened UnloadFacts
  import opened FixtureTheorems
  import opened SampleDb
  import opened SampleDbFacts
  import opened SampleBackend
  import opened Teardown

  /** The instance is stored in `DB` under its own id. */
  ghost predicate Filed(w: World, h: Handle) {
    h.id in w.db && w.db[h.id] == Row(h.obj)
  }

  /** Every published instance is filed. */
  ghost predicate AllFiled(w: World, slots: map<ItemId, Slot<Handle>>) {
    forall q :: q in slots && slots[q].instance.Some? ==> Filed(w, slots[q].instance.value)
  }

  /** No two published instances share an id. */
  ghost predicate DistinctIds(slots: map<ItemId, Slot<Handle>>) {
    forall q, q' :: q in slots && q' in slots && q != q' && slots[q].instance.Some? && slots[q'].instance.Some?
                    ==> slots[q].instance.value.id != slots[q'].instance.value.id
  }

  /** The ids of the published instances. */
  ghost function Ids(slots: map<ItemId, Slot<Handle>>): set<Value> {
    set q | q in slots && slots[q].instance.Some? :: slots[q].instance.value.id
  }

  /** The store is consistent, every published instance is filed under an
      id of its own, and `DB` holds exactly the keys `base` plus those ids. */
  ghost predicate Tracks(st: St<World, Handle>, base: set<Value>) {
    && Consistent(st.store)
    && AllFiled(st.store, st.slots)
    && DistinctIds(st.slots)
    && base !! Ids(st.slots)
    && st.store.db.Keys == base + Ids(st.slots)
  }

  /** No item sets an `id` of its own, neither as a class attribute nor as
      a computed one, so every create is a fresh `put`. */
  predicate IdFree(cfg: Config<Handle>) {
    forall i :: i in cfg.items ==>
      && "id" !in AttrNames(cfg.items[i].attrs)
      && ("id" in cfg.items[i].fixed ==> cfg.items[i].fixed["id"] == VNone)
  }

  /** A step that touches neither the store nor any instance keeps the
      tracking. */
  lemma TracksSame(st: St<World, Handle>, st': St<World, Handle>, base: set<Value>)
    requires Tracks(st, base) && st'.store == st.store && st'.slots.Keys == st.slots.Keys
    requires forall q :: q in st.slots ==> st'.slots[q].instance == st.slots[q].instance
    ensures Tracks(st', base)
  {
    assert Ids(st'.slots) == Ids(st.slots) by {
      forall v | v in Ids(st.slots) ensures v in Ids(st'.slots) {
        var q :| q in st.slots && st.slots[q].instance.Some? && st.slots[q].instance.value.id == v;
        assert st'.slots[q].instance.Some?;
      }
    }
  }

  // ---------------------------------------------------------------------
  // Creating and destroying

  /** The values a first load hands to the backend set no id. */
  lemma ValuesIdFree(cfg: Config<Handle>, i: ItemId, vals: map<Name, Value>, depth: nat, vs: seq<Value>, views: seq<View<Handle>>,
                     from: map<ItemId, Slot<Handle>>, to: map<ItemId, Slot<Handle>>)
    requires IdFree(cfg) && i in cfg.items
    requires OverlaidBy(cfg, i, cfg.items[i].attrs, cfg.items[i].fixed, vals, depth, vs, views, from, to)
    ensures "id" in vals ==> vals["id"] == VNone
  {
    OverlaidKeys(cfg, i, cfg.items[i].attrs, cfg.items[i].fixed, vals, depth, vs, views, from, to);
  }

  lemma IdsPublish(slots: map<ItemId, Slot<Handle>>, i: ItemId, h: Handle)
    requires i in slots && slots[i].instance.None?
    ensures Ids(slots[i := slots[i].(instance := Some(h))]) == Ids(slots) + {h.id}
  {
    var slots' := slots[i := slots[i].(instance := Some(h))];
    forall v | v in Ids(slots') ensures v in Ids(slots) + {h.id} {
      var q :| q in slots' && slots'[q].instance.Some? && slots'[q].instance.value.id == v;
      if q != i {
        assert slots[q].instance.Some?;
      }
    }
    forall v | v in Ids(slots) ensures v in Ids(slots') {
      var q :| q in slots && slots[q].instance.Some? && slots[q].instance.value.id == v;
      assert q != i && slots'[q].instance.Some?;
    }
    assert slots'[i].instance.Some?;
  }

  lemma IdsUnpublish(slots: map<ItemId, Slot<Handle>>, i: ItemId, slots': map<ItemId, Slot<Handle>>)
    requires DistinctIds(slots) && i in slots && slots[i].instance.Some?
    requires slots'.Keys == slots.Keys && slots'[i].instance.None?
    requires forall q :: q in slots && q != i ==> slots'[q].instance == slots[q].instance
    ensures Ids(slots') == Ids(slots) - {slots[i].instance.value.id}
    ensures slots[i].instance.value.id in Ids(slots)
  {
    var id := slots[i].instance.value.id;
    forall v | v in Ids(slots) - {id} ensures v in Ids(slots') {
      var q :| q in slots && slots[q].instance.Some? && slots[q].instance.value.id == v;
      assert q != i && slots'[q].instance.Some?;
    }
    forall v | v in Ids(slots') ensures v in Ids(slots) - {id} {
      var q :| q in slots' && slots'[q].instance.Some? && slots'[q].instance.value.id == v;
      assert q != i && slots[q].instance.Some?;
    }
  }

  /** Filing a new instance under a key `DB` did not hold leaves the other
      instances filed. */
  lemma FiledPublish(w: World, w': World, slots: map<ItemId, Slot<Handle>>, i: ItemId, h: Handle)
    requires Shaped(w) && AllFiled(w, slots) && Filed(w', h) && i in slots
    requires forall k :: k in w.db && k != NextKey && k != IndexKey ==> k in w'.db && w'.db[k] == w.db[k]
    ensures AllFiled(w', slots[i := slots[i].(instance := Some(h))])
  {
    forall q | q in slots && slots[q].instance.Some? && q != i
      ensures Filed(w', slots[q].instance.value)
    {
      assert Filed(w, slots[q].instance.value);
    }
  }

  /** Filed ids are `DB` keys. */
  lemma FiledIds(w: World, slots: map<ItemId, Slot<Handle>>)
    requires AllFiled(w, slots)
    ensures Ids(slots) <= w.db.Keys
  {
    forall v | v in Ids(slots) ensures v in w.db {
      var q :| q in slots && slots[q].instance.Some? && slots[q].instance.value.id == v;
      assert Filed(w, slots[q].instance.value);
    }
  }

  lemma DistinctPublish(slots: map<ItemId, Slot<Handle>>, i: ItemId, h: Handle)
    requires DistinctIds(slots) && i in slots && h.id !in Ids(slots)
    ensures DistinctIds(slots[i := slots[i].(instance := Some(h))])
  {
    var slots' := slots[i := slots[i].(instance := Some(h))];
    forall q, q' | q in slots' && q' in slots' && q != q' && slots'[q].instance.Some? && slots'[q'].instance.Some?
      ensures slots'[q].instance.value.id != slots'[q'].instance.value.id
    {
      if q == i {
        assert slots[q'].instance.value.id in Ids(slots);
      } else if q' == i {
        assert slots[q].instance.value.id in Ids(slots);
      }
    }
  }

  /** The store side of a fresh create: a consistent store with one more
      key, a new one, under which the instance is filed; every other stored
      entry is kept. */
  lemma CreateFiles(entity: FixtureId -> string, w: World, i: ItemId, values: map<Name, Value>)
    requires Consistent(w) && ("id" in values ==> values["id"] == VNone)
    ensures var c := Create(entity, w, i, values);
            && c.Created? && Consistent(c.store) && Filed(c.store, c.instance)
            && c.instance.id !in w.db && c.store.db.Keys == w.db.Keys + {c.instance.id}
            && forall k :: k in w.db && k != NextKey && k != IndexKey ==> k in c.store.db && c.store.db[k] == w.db[k]
  {
    CreateFresh(entity, w, i, values);
    var c := Create(entity, w, i, values);
    var w1 := Alloc(w, NewAccount(entity(i.fixture), values)).0;
    PutFresh(w1, c.instance.obj);
  }

  /** Publishing `i` with a fresh create files it under a new id. */
  lemma PublishTracks(entity: FixtureId -> string, st2: St<World, Handle>, i: ItemId, values: map<Name, Value>, base: set<Value>)
    requires Tracks(st2, base) && i in st2.slots && st2.slots[i].instance.None?
    requires "id" in values ==> values["id"] == VNone
    ensures var c := Create(entity, st2.store, i, values);
            c.Created?
            && Tracks(st2.(slots := st2.slots[i := st2.slots[i].(instance := Some(c.instance))],
                           store := c.store, log := st2.log + [CreateEvent(i, values)]), base)
  {
    var w := st2.store;
    CreateFiles(entity, w, i, values);
    var c := Create(entity, w, i, values);
    FiledIds(w, st2.slots);
    FiledPublish(w, c.store, st2.slots, i, c.instance);
    IdsPublish(st2.slots, i, c.instance);
    DistinctPublish(st2.slots, i, c.instance);
  }

  /** The store side of destroying a filed instance: a consistent store
      without its key; every other entry is kept. */
  lemma DeleteUnfiles(w: World, h: Handle)
    requires Consistent(w) && Filed(w, h)
    ensures Delete(w, h.obj).Success?
    ensures var w' := Delete(w, h.obj).value;
            && Consistent(w') && w'.db.Keys == w.db.Keys - {h.id}
            && forall k :: k in w'.db && k != IndexKey ==> w'.db[k] == w.db[k]
  {
    DeleteStored(w, h.obj, h.id);
  }

  lemma FiledUnpublish(w: World, w': World, slots: map<ItemId, Slot<Handle>>, i: ItemId, slots': map<ItemId, Slot<Handle>>)
    requires Shaped(w) && AllFiled(w, slots) && DistinctIds(slots) && i in slots && slots[i].instance.Some?
    requires slots'.Keys == slots.Keys && slots'[i].instance.None?
    requires forall q :: q in slots && q != i ==> slots'[q].instance == slots[q].instance
    requires w'.db.Keys == w.db.Keys - {slots[i].instance.value.id}
    requires forall k :: k in w'.db && k != IndexKey ==> w'.db[k] == w.db[k]
    ensures AllFiled(w', slots') && DistinctIds(slots')
  {
    forall q | q in slots' && slots'[q].instance.Some?
      ensures Filed(w', slots'[q].instance.value)
    {
      assert q != i;
      assert Filed(w, slots[q].instance.value);
    }
  }

  /** Destroying the instance of a published `i` and unpublishing it takes
      its id out of `DB`. */
  lemma UnpublishTracks(st: St<World, Handle>, i: ItemId, base: set<Value>, slots: map<ItemId, Slot<Handle>>)
    requires Tracks(st, base) && i in st.slots && st.slots[i].instance.Some?
    requires slots.Keys == st.slots.Keys && slots[i].instance.None?
    requires forall q :: q in st.slots && q != i ==> slots[q].instance == st.slots[q].instance
    ensures var h := st.slots[i].instance.value;
            Delete(st.store, h.obj).Success?
            && Tracks(st.(slots := slots, store := Delete(st.store, h.obj).value, log := st.log + [DestroyEvent(i, h)]), base)
  {
    var h := st.slots[i].instance.value;
    assert Filed(st.store, h);
    DeleteUnfiles(st.store, h);
    FiledUnpublish(st.store, Delete(st.store, h.obj).value, st.slots, i, slots);
    IdsUnpublish(st.slots, i, slots);
  }

  // ---------------------------------------------------------------------
  // Along the loader's recursion

  lemma {:induction false} LoadItemTracks(entity: FixtureId -> string, cfg: Config<Handle>, fix: FixtureId, i: ItemId,
                                          st: St<World, Handle>, base: set<Value>)
    requires Valid(cfg, st) && Tidy(st) && Tracks(st, base) && IdFree(cfg)
    requires LoadItem(Backed(entity), cfg, fix, i, st).Ok?
    ensures Tracks(LoadItem(Backed(entity), cfg, fix, i, st).value.0, base)
    decreases Unloaded(st), 0, 0, 0, 2
  {
    if st.slots[i].count == 0 {
      FirstLoadTracks(entity, cfg, fix, i, st, base);
    } else {
      var st' := LoadItem(Backed(entity), cfg, fix, i, st).value.0;
      TracksSame(st, st', base);
    }
  }

  lemma {:induction false} FirstLoadTracks(entity: FixtureId -> string, cfg: Config<Handle>, fix: FixtureId, i: ItemId,
                                           st: St<World, Handle>, base: set<Value>)
    requires Valid(cfg, st) && Tidy(st) && Tracks(st, base) && IdFree(cfg)
    requires LoadItem(Backed(entity), cfg, fix, i, st).Ok? && st.slots[i].count == 0
    ensures Tracks(LoadItem(Backed(entity), cfg, fix, i, st).value.0, base)
    decreases Unloaded(st), 0, 0, 0, 1
  {
    FirstLoadUnfolds(Backed(entity), cfg, fix, i, st);
    FirstLoadSteps(entity, cfg, i, st, base);
  }

  /** Marking, the attribute loop and the create of a first load, each
      keeping the tracking. */
  lemma {:induction false} FirstLoadSteps(entity: FixtureId -> string, cfg: Config<Handle>, i: ItemId,
                                          st: St<World, Handle>, base: set<Value>)
    requires Valid(cfg, st) && Tidy(st) && Tracks(st, base) && IdFree(cfg)
    requires i in cfg.items && st.slots[i].count == 0
    requires var st1 := st.(slots := st.slots[i := st.slots[i].(count := 1, pulled := [])]);
             Resolve(Backed(entity), cfg, i, 0, cfg.items[i].fixed, [], st1).Ok?
    ensures var st1 := st.(slots := st.slots[i := st.slots[i].(count := 1, pulled := [])]);
            var (st2, values) := Resolve(Backed(entity), cfg, i, 0, cfg.items[i].fixed, [], st1).value;
            var c := Backed(entity).create(st2.store, i, values);
            && c.Created?
            && Tracks(st2.(slots := st2.slots[i := st2.slots[i].(instance := Some(c.instance))],
                           store := c.store, log := st2.log + [CreateEvent(i, values)]), base)
    decreases Unloaded(st), 0, 0, 0, 0
  {
    var b := Backed(entity);
    var st1 := st.(slots := st.slots[i := st.slots[i].(count := 1, pulled := [])]);
    MarkTracks(cfg, st, st1, i, base);
    ResolveTracks(entity, cfg, i, 0, cfg.items[i].fixed, [], st1, base);
    ResolvedIdFree(entity, cfg, i, st1);
    var (st2, values) := Resolve(b, cfg, i, 0, cfg.items[i].fixed, [], st1).value;
    PublishTracks(entity, st2, i, values, base);
  }

  /** Marking an idle item as loading keeps the tracking. */
  lemma MarkTracks(cfg: Config<Handle>, st: St<World, Handle>, st1: St<World, Handle>, i: ItemId, base: set<Value>)
    requires Valid(cfg, st) && Tidy(st) && Tracks(st, base) && i in st.slots && st.slots[i].count == 0
    requires st1 == st.(slots := st.slots[i := st.slots[i].(count := 1, pulled := [])])
    ensures Valid(cfg, st1) && Tidy(st1) && Tracks(st1, base) && st1.slots[i] == Slot(1, None, [])
    ensures Unloaded(st1) < Unloaded(st)
  {
    MarkLoadingUnloaded(st, st1, i);
    MarkLoadingTidy(st, st1, i);
    assert st.slots[i] == Idle();
    TracksSame(st, st1, base);
  }

  /** The attribute loop of a first load leaves the item unpublished and
      hands the backend values that set no id. */
  lemma ResolvedIdFree(entity: FixtureId -> string, cfg: Config<Handle>, i: ItemId, st1: St<World, Handle>)
    requires Valid(cfg, st1) && Tidy(st1) && i in cfg.items && IdFree(cfg)
    requires st1.slots[i] == Slot(1, None, [])
    requires Resolve(Backed(entity), cfg, i, 0, cfg.items[i].fixed, [], st1).Ok?
    ensures var (st2, values) := Resolve(Backed(entity), cfg, i, 0, cfg.items[i].fixed, [], st1).value;
            && i in st2.slots && st2.slots[i].instance.None?
            && ("id" in values ==> values["id"] == VNone)
  {
    var vs, views, _, _ := ResolveFacts(Backed(entity), cfg, i, 0, cfg.items[i].fixed, [], st1);
    var (st2, values) := Resolve(Backed(entity), cfg, i, 0, cfg.items[i].fixed, [], st1).value;
    assert cfg.items[i].attrs[0..] == cfg.items[i].attrs;
    ValuesIdFree(cfg, i, values, st1.depth + 1, vs, views, st1.slots, st2.slots);
  }

  lemma {:induction false} ResolveTracks(entity: FixtureId -> string, cfg: Config<Handle>, i: ItemId, k: nat, values: map<Name, Value>,
                                         tried: seq<ItemId>, st: St<World, Handle>, base: set<Value>)
    requires Valid(cfg, st) && Tidy(st) && i in cfg.items && k <= |cfg.items[i].attrs|
    requires st.slots[i].count > 0 && st.slots[i].instance.None?
    requires st.slots[i].pulled == tried && Distinct(tried) && Elems(tried) <= cfg.items.Keys
    requires Tracks(st, base) && IdFree(cfg)
    requires Resolve(Backed(entity), cfg, i, k, values, tried, st).Ok?
    ensures Tracks(Resolve(Backed(entity), cfg, i, k, values, tried, st).value.0, base)
    decreases Unloaded(st), 1, |cfg.items[i].attrs| - k, |cfg.items.Keys - Elems(tried)|, 2
  {
    if k < |cfg.items[i].attrs| {
      ResolveStepTracks(entity, cfg, i, k, values, tried, st, base);
    }
  }

  lemma {:induction false} ResolveStepTracks(entity: FixtureId -> string, cfg: Config<Handle>, i: ItemId, k: nat, values: map<Name, Value>,
                                             tried: seq<ItemId>, st: St<World, Handle>, base: set<Value>)
    requires Valid(cfg, st) && Tidy(st) && i in cfg.items && k < |cfg.items[i].attrs|
    requires st.slots[i].count > 0 && st.slots[i].instance.None?
    requires st.slots[i].pulled == tried && Distinct(tried) && Elems(tried) <= cfg.items.Keys
    requires Tracks(st, base) && IdFree(cfg)
    requires Resolve(Backed(entity), cfg, i, k, values, tried, st).Ok?
    ensures Tracks(Resolve(Backed(entity), cfg, i, k, values, tried, st).value.0, base)
    decreases Unloaded(st), 1, |cfg.items[i].attrs| - k, |cfg.items.Keys - Elems(tried)|, 1
  {
    ResolveNotRaised(Backed(entity), cfg, i, k, values, tried, st);
    match cfg.items[i].attrs[k].compute(ViewOf(cfg, st, st.depth + 1))
    case Ready(v) =>
      ResolveReadyTracks(entity, cfg, i, k, values, tried, st, v, base);
    case NeedsItem(j, cause) =>
      ResolvePullTracks(entity, cfg, i, k, values, tried, st, j, base);
  }

  lemma {:induction false} ResolveReadyTracks(entity: FixtureId -> string, cfg: Config<Handle>, i: ItemId, k: nat, values: map<Name, Value>,
                                              tried: seq<ItemId>, st: St<World, Handle>, v: Value, base: set<Value>)
    requires Valid(cfg, st) && Tidy(st) && i in cfg.items && k < |cfg.items[i].attrs|
    requires st.slots[i].count > 0 && st.slots[i].instance.None?
    requires st.slots[i].pulled == tried && Distinct(tried) && Elems(tried) <= cfg.items.Keys
    requires Tracks(st, base) && IdFree(cfg)
    requires cfg.items[i].attrs[k].compute(ViewOf(cfg, st, st.depth + 1)) == Ready(v)
    requires Resolve(Backed(entity), cfg, i, k, values, tried, st).Ok?
    ensures Tracks(Resolve(Backed(entity), cfg, i, k, values, tried, st).value.0, base)
    decreases Unloaded(st), 1, |cfg.items[i].attrs| - k, |cfg.items.Keys - Elems(tried)|, 0
  {
    var _, _, _, _ := ResolveReadyFacts(Backed(entity), cfg, i, k, values, tried, st, v);
    ResolveTracks(entity, cfg, i, k + 1, values[cfg.items[i].attrs[k].name := v], tried, st, base);
  }

  lemma {:induction false} ResolvePullTracks(entity: FixtureId -> string, cfg: Config<Handle>, i: ItemId, k: nat, values: map<Name, Value>,
                                             tried: seq<ItemId>, st: St<World, Handle>, j: ItemId, base: set<Value>)
    requires Valid(cfg, st) && Tidy(st) && i in cfg.items && k < |cfg.items[i].attrs|
    requires st.slots[i].count > 0 && st.slots[i].instance.None?
    requires st.slots[i].pulled == tried && Distinct(tried) && Elems(tried) <= cfg.items.Keys
    requires Tracks(st, base) && IdFree(cfg)
    requires cfg.items[i].attrs[k].compute(ViewOf(cfg, st, st.depth + 1)).NeedsItem?
    requires cfg.items[i].attrs[k].compute(ViewOf(cfg, st, st.depth + 1)).item == j
    requires Resolve(Backed(entity), cfg, i, k, values, tried, st).Ok?
    ensures Tracks(Resolve(Backed(entity), cfg, i, k, values, tried, st).value.0, base)
    decreases Unloaded(st), 1, |cfg.items[i].attrs| - k, |cfg.items.Keys - Elems(tried)|, 0
  {
    var b := Backed(entity);
    var st1 := st.(slots := st.slots[i := st.slots[i].(pulled := st.slots[i].pulled + [j])]);
    ResolvePullUnfolds(b, cfg, i, k, values, tried, st, j);
    RecordPullTracks(st, st1, i, j, base);
    LoadItemSlots(b, cfg, j.fixture, j, st1);
    LoadItemTracks(entity, cfg, j.fixture, j, st1, base);
    var (st2, inst) := LoadItem(b, cfg, j.fixture, j, st1).value;
    PullRecorded(cfg.items.Keys, tried, st1, st2, i, j, inst);
    ResolveTracks(entity, cfg, i, k, values, tried + [j], st2, base);
  }

  /** Recording a request touches neither the store nor any instance. */
  lemma RecordPullTracks(st: St<World, Handle>, st1: St<World, Handle>, i: ItemId, j: ItemId, base: set<Value>)
    requires Tidy(st) && Tracks(st, base) && i in st.slots && st.slots[i].count > 0
    requires st1 == st.(slots := st.slots[i := st.slots[i].(pulled := st.slots[i].pulled + [j])])
    ensures Tidy(st1) && Tracks(st1, base) && Grows(st, st1) && Unloaded(st1) == Unloaded(st)
  {
    RecordPullKeepsCounts(st, i, j);
    RecordPullTidy(st, st1, i, j);
    TracksSame(st, st1, base);
  }

  /** After the requested item is loaded, the loop resumes on a smaller
      measure with the item still resolving and the request recorded once. */
  lemma PullRecorded(keys: set<ItemId>, tried: seq<ItemId>, st1: St<World, Handle>, st2: St<World, Handle>,
                     i: ItemId, j: ItemId, inst: Handle)
    requires LoadSlots(st1, st2, j, inst) && Grows(st1, st2) && i in st1.slots && i != j
    requires st1.slots[i].count > 0 && st1.slots[i].instance.None?
    requires j in keys && j !in tried && Distinct(tried) && Elems(tried) <= keys
    ensures st2.slots[i] == st1.slots[i] && Tidy(st2) && Unloaded(st2) <= Unloaded(st1)
    ensures |keys - Elems(tried + [j])| < |keys - Elems(tried)|
    ensures Distinct(tried + [j]) && Elems(tried + [j]) <= keys
  {
    LoadKeepsResolving(st1, st2, i, j, inst);
    GrowsUnloaded(st1, st2);
    UntriedShrinks(keys, tried, j);
    ElemsAppend(tried, j);
    DistinctAppend(tried, j);
  }

  lemma {:induction false} UnloadItemTracks(entity: FixtureId -> string, cfg: Config<Handle>, fix: FixtureId, i: ItemId,
                                            st: St<World, Handle>, base: set<Value>)
    requires Valid(cfg, st) && Tracks(st, base)
    requires UnloadItem(Backed(entity), cfg, fix, i, st).Ok?
    ensures Tracks(UnloadItem(Backed(entity), cfg, fix, i, st).value, base)
    decreases Held(st), 1, 0, 2
  {
    if st.slots[i].count > 1 {
      TracksSame(st, UnloadItem(Backed(entity), cfg, fix, i, st).value, base);
    } else {
      ReleaseTracks(entity, cfg, fix, i, st, base);
    }
  }

  lemma {:induction false} ReleaseTracks(entity: FixtureId -> string, cfg: Config<Handle>, fix: FixtureId, i: ItemId,
                                         st: St<World, Handle>, base: set<Value>)
    requires Valid(cfg, st) && Tracks(st, base)
    requires UnloadItem(Backed(entity), cfg, fix, i, st).Ok? && st.slots[i].count == 1
    ensures Tracks(UnloadItem(Backed(entity), cfg, fix, i, st).value, base)
    decreases Held(st), 1, 0, 1
  {
    ReleaseUnfolds(Backed(entity), cfg, fix, i, st);
    ReleaseSteps(entity, cfg, i, st, base);
  }

  /** The destroy, the unloading of the pulled-in items and the clearing of
      the list of a release, each keeping the tracking. */
  lemma {:induction false} ReleaseSteps(entity: FixtureId -> string, cfg: Config<Handle>, i: ItemId,
                                        st: St<World, Handle>, base: set<Value>)
    requires Valid(cfg, st) && Tracks(st, base)
    requires i in st.slots && st.slots[i].count == 1 && st.slots[i].instance.Some?
    requires var s := st.slots[i];
             && Backed(entity).destroy(st.store, i, s.instance.value).Some?
             && UnloadList(Backed(entity), cfg, s.pulled,
                           st.(slots := st.slots[i := s.(count := 0, instance := None)],
                               store := Backed(entity).destroy(st.store, i, s.instance.value).value,
                               log := st.log + [DestroyEvent(i, s.instance.value)])).Ok?
    ensures var s := st.slots[i];
            var st2 := UnloadList(Backed(entity), cfg, s.pulled,
                                  st.(slots := st.slots[i := s.(count := 0, instance := None)],
                                      store := Backed(entity).destroy(st.store, i, s.instance.value).value,
                                      log := st.log + [DestroyEvent(i, s.instance.value)])).value;
            Tracks(st2.(slots := st2.slots[i := st2.slots[i].(pulled := [])]), base)
    decreases Held(st), 1, 0, 0
  {
    var b := Backed(entity);
    var s := st.slots[i];
    var inst := s.instance.value;
    DestroyTracks(entity, st, i, base);
    var st1 := st.(slots := st.slots[i := s.(count := 0, instance := None)], store := b.destroy(st.store, i, inst).value,
                   log := st.log + [DestroyEvent(i, inst)]);
    UnloadListTracks(entity, cfg, s.pulled, st1, base);
    ClearTracks(UnloadList(b, cfg, s.pulled, st1).value, i, base);
  }

  lemma ClearTracks(st: St<World, Handle>, i: ItemId, base: set<Value>)
    requires Tracks(st, base) && i in st.slots
    ensures Tracks(st.(slots := st.slots[i := st.slots[i].(pulled := [])]), base)
  {
    TracksSame(st, st.(slots := st.slots[i := st.slots[i].(pulled := [])]), base);
  }

  /** The destroy and unpublishing that start a release keep the tracking. */
  lemma DestroyTracks(entity: FixtureId -> string, st: St<World, Handle>, i: ItemId, base: set<Value>)
    requires Tracks(st, base) && i in st.slots && st.slots[i].instance.Some? && st.slots[i].count == 1
    ensures var s := st.slots[i];
            var st1 := st.(slots := st.slots[i := s.(count := 0, instance := None)],
                           store := Backed(entity).destroy(st.store, i, s.instance.value).value,
                           log := st.log + [DestroyEvent(i, s.instance.value)]);
            && Backed(entity).destroy(st.store, i, s.instance.value).Some?
            && Tracks(st1, base) && Held(st1) == Held(st) - 1
  {
    var s := st.slots[i];
    UnpublishTracks(st, i, base, st.slots[i := s.(count := 0, instance := None)]);
    MarkReleasedHeld(st, st.(slots := st.slots[i := s.(count := 0, instance := None)],
                             store := Backed(entity).destroy(st.store, i, s.instance.value).value,
                             log := st.log + [DestroyEvent(i, s.instance.value)]), i);
  }

  lemma {:induction false} UnloadListTracks(entity: FixtureId -> string, cfg: Config<Handle>, items: seq<ItemId>,
                                            st: St<World, Handle>, base: set<Value>)
    requires Valid(cfg, st) && Tracks(st, base)
    requires UnloadList(Backed(entity), cfg, items, st).Ok?
    ensures Tracks(UnloadList(Backed(entity), cfg, items, st).value, base)
    decreases Held(st), 2, |items|, 0
  {
    if items != [] {
      var b := Backed(entity);
      UnloadItemTracks(entity, cfg, items[0].fixture, items[0], st, base);
      var st1 := UnloadItem(b, cfg, items[0].fixture, items[0], st).value;
      ShrinksHeld(st, st1);
      UnloadListTracks(entity, cfg, items[1..], st1, base);
    }
  }

  // ---------------------------------------------------------------------
  // Over a fixture's chain and the decorator

  lemma {:induction false} LoadOwnTracks(entity: FixtureId -> string, cfg: Config<Handle>, fix: FixtureId, items: seq<ItemId>,
                                         st: St<World, Handle>, base: set<Value>)
    requires Valid(cfg, st) && Tidy(st) && Tracks(st, base) && IdFree(cfg)
    requires LoadOwn(Backed(entity), cfg, fix, items, st).Ok?
    ensures Tracks(LoadOwn(Backed(entity), cfg, fix, items, st).value, base)
    decreases |items|
  {
    if items != [] {
      var b := Backed(entity);
      LoadItemSlots(b, cfg, fix, items[0], st);
      LoadItemTracks(entity, cfg, fix, items[0], st, base);
      LoadOwnTracks(entity, cfg, fix, items[1..], LoadItem(b, cfg, fix, items[0], st).value.0, base);
    }
  }

  lemma {:induction false} LoadBasesTracks(entity: FixtureId -> string, cfg: Config<Handle>, bases: seq<FixtureId>,
                                           st: St<World, Handle>, base: set<Value>)
    requires Valid(cfg, st) && Tidy(st) && Tracks(st, base) && IdFree(cfg)
    requires LoadBases(Backed(entity), cfg, bases, st).Ok?
    ensures Tracks(LoadBases(Backed(entity), cfg, bases, st).value, base)
    decreases |bases|
  {
    if bases != [] {
      var b := Backed(entity);
      if bases[0] !in cfg.fixtures {
        LoadBasesTracks(entity, cfg, bases[1..], st, base);
      } else {
        var own := cfg.fixtures[bases[0]].own;
        LoadOwnTracks(entity, cfg, bases[0], own, st, base);
        LoadOwnExt(b, cfg, bases[0], own, st);
        LoadBasesTracks(entity, cfg, bases[1..], LoadOwn(b, cfg, bases[0], own, st).value, base);
      }
    }
  }

  lemma {:induction false} UnloadOwnTracks(entity: FixtureId -> string, cfg: Config<Handle>, fix: FixtureId, items: seq<ItemId>,
                                           st: St<World, Handle>, base: set<Value>)
    requires Valid(cfg, st) && Tracks(st, base)
    requires UnloadOwn(Backed(entity), cfg, fix, items, st).Ok?
    ensures Tracks(UnloadOwn(Backed(entity), cfg, fix, items, st).value, base)
    decreases |items|
  {
    if items != [] {
      var b := Backed(entity);
      UnloadItemTracks(entity, cfg, fix, items[0], st, base);
      UnloadOwnTracks(entity, cfg, fix, items[1..], UnloadItem(b, cfg, fix, items[0], st).value, base);
    }
  }

  lemma {:induction false} UnloadBasesTracks(entity: FixtureId -> string, cfg: Config<Handle>, bases: seq<FixtureId>,
                                             st: St<World, Handle>, base: set<Value>)
    requires Valid(cfg, st) && Tracks(st, base)
    requires UnloadBases(Backed(entity), cfg, bases, st).Ok?
    ensures Tracks(UnloadBases(Backed(entity), cfg, bases, st).value, base)
    decreases |bases|
  {
    if bases != [] {
      var b := Backed(entity);
      if bases[0] !in cfg.fixtures {
        UnloadBasesTracks(entity, cfg, bases[1..], st, base);
      } else {
        var own := cfg.fixtures[bases[0]].own;
        UnloadOwnTracks(entity, cfg, bases[0], own, st, base);
        UnloadBasesTracks(entity, cfg, bases[1..], UnloadOwn(b, cfg, bases[0], own, st).value, base);
      }
    }
  }

  lemma {:induction false} RunTracks(entity: FixtureId -> string, cfg: Config<Handle>, p: Proc, st: St<World, Handle>, base: set<Value>)
    requires Valid(cfg, st) && Tidy(st) && Tracks(st, base) && IdFree(cfg) && Declared(cfg, p)
    ensures !Run(Backed(entity), cfg, p, st).Failed? ==> Tracks(Run(Backed(entity), cfg, p, st).st, base)
    decreases p
  {
    var b := Backed(entity);
    match p
    case Body(_) =>
    case Decorated(fix, inner) =>
      if LoadFixture(b, cfg, fix, st).Ok? {
        var st1 := LoadFixture(b, cfg, fix, st).value;
        LoadBasesTracks(entity, cfg, Reverse(cfg.fixtures[fix].mro), st, base);
        LoadBasesExt(b, cfg, Reverse(cfg.fixtures[fix].mro), st);
        RunTracks(entity, cfg, inner, st1, base);
        var o := Run(b, cfg, inner, st1);
        if !o.Failed? && UnloadFixture(b, cfg, fix, o.st).Ok? {
          UnloadBasesTracks(entity, cfg, cfg.fixtures[fix].mro, o.st, base);
        }
      }
  }

  /** A decorated call on the sample store, made with every item unloaded
      and with items that set no id of their own, that gets past the
      loader: every item is unloaded again, the store is consistent and
      `DB` has exactly its former keys, so `len(DB)` is back where it was. */
  lemma BackedRunFromIdle(entity: FixtureId -> string, cfg: Config<Handle>, p: Proc, st: St<World, Handle>)
    requires Valid(cfg, st) && Declared(cfg, p) && IdFree(cfg) && Consistent(st.store)
    requires forall q :: q in st.slots ==> st.slots[q] == Idle()
    ensures var o := Run(Backed(entity), cfg, p, st);
            !o.Failed? ==>
              && (forall q :: q in o.st.slots ==> o.st.slots[q] == Idle())
              && Consistent(o.st.store)
              && o.st.store.db.Keys == st.store.db.Keys
              && |o.st.store.db.Keys| == |st.store.db.Keys|
  {
    var b := Backed(entity);
    var base := st.store.db.Keys;
    assert Ids(st.slots) == {};
    RunTracks(entity, cfg, p, st, base);
    RunFromIdle(b, cfg, p, st);
    var o := Run(b, cfg, p, st);
    if !o.Failed? {
      assert Ids(o.st.slots) == {};
    }
  }
}

=== FILE: common.dfy ===
/** Vocabulary shared by the fixture loader and the sample store: names,
    item identities, attribute values and a few sequence helpers. */
module Common {

  /** An attribute or item name. */
  type Name = string

  /** Names a fixture class. */
  type FixtureId = string

  /** An item is identified by the fixture class that declares it and its own
      name inside that class; the fixture part plays the role of `_fixture`. */
  datatype ItemId = ItemId(fixture: FixtureId, name: Name)

  datatype Option<+T> = None | Some(value: T)

  /** The attribute values the fixtures and the store exchange. `VNone` is
      the language's `None`. */
  datatype Value = VInt(n: int) | VStr(s: string) | VNone

  /** Names starting with an underscore are skipped by the fixture machinery. */
  predicate Private(n: Name) {
    |n| > 0 && n[0] == '_'
  }

  function Elems<T>(s: seq<T>): set<T> {
    set x | x in s
  }

  predicate Distinct<T(==)>(s: seq<T>) {
    forall p, q :: 0 <= p < q < |s| ==> s[p] != s[q]
  }

  function Reverse<T>(s: seq<T>): (r: seq<T>)
    ensures |r| == |s|
    ensures forall p :: 0 <= p < |s| ==> r[p] == s[|s| - 1 - p]
  {
    if s == [] then [] else Reverse(s[1..]) + [s[0]]
  }

  /** Number of occurrences of `x` in `s`. */
  function Occurrences<T(==)>(s: seq<T>, x: T): nat {
    multiset(s)[x]
  }

  lemma ElemsAppend<T>(s: seq<T>, x: T)
    ensures Elems(s + [x]) == Elems(s) + {x}
  {
    assert forall y :: y in s + [x] <==> y in s || y == x;
  }

  lemma DistinctAppend<T>(s: seq<T>, x: T)
    requires Distinct(s) && x !in s
    ensures Distinct(s + [x])
  {
  }

  /** Two lists without repeats and without common elements concatenate to
      a list without repeats. */
  lemma DisjointDistinct<T>(a: seq<T>, b: seq<T>)
    requires Distinct(a) && Distinct(b) && Elems(a) !! Elems(b)
    ensures Distinct(a + b) && Elems(a + b) == Elems(a) + Elems(b)
  {
    var e := a + b;
    forall p, q | 0 <= p < q < |e| ensures e[p] != e[q] {
      if q >= |a| && p < |a| {
        assert e[p] in Elems(a) && e[q] in Elems(b);
      }
    }
  }

  lemma SubsetCard<T>(a: set<T>, b: set<T>)
    requires a <= b
    ensures |a| <= |b|
  {
    assert b == a + (b - a);
  }

  lemma RemoveOneCard<T>(a: set<T>, x: T)
    requires x in a
    ensures |a - {x}| == |a| - 1
  {
  }
}

=== FILE: fixture_model.dfy ===
/** The data the fixture loader works on: item descriptors, per-item load
    state, the view a computed attribute sees, the backend interface and the
    loader's error kinds (funfixtures/common.py). */
module FixtureModel {
  import opened Common

  /** What an attribute access can raise. `NoCause` is the `None` cause the
      primary-key thunk attaches to its load request. */
  datatype Fault = MissingAttr(item: ItemId, name: Name) | NoCause | UserFault(msg: string)

  /** The outcome of one call of a computed attribute: a value, a request to
      load another item first (the `PleaseLoadItem` exception), or any other
      exception. */
  datatype DepResult =
    | Ready(value: Value)
    | NeedsItem(item: ItemId, cause: Fault)
    | Raised(fault: Fault)

  /** Runtime state of one item: `_load_count`, `_instance` and
      `_items_to_unload`. An instance is published under the item's name
      exactly when it is present here. */
  datatype Slot<I> = Slot(count: nat, instance: Option<I>, pulled: seq<ItemId>)

  /** The state of a never-loaded (or fully unloaded) item. */
  function Idle<I(!new)>(): Slot<I> {
    Slot(0, None, [])
  }

  /** What a computed attribute can observe while it runs: every item's load
      state, the resolving depth (`loading_counter`) and every descriptor's
      fixed values (its class attributes). */
  datatype View<I> = View(slots: map<ItemId, Slot<I>>, depth: nat, fixed: map<ItemId, map<Name, Value>>)

  /** A computed attribute: a zero-argument callable, here a function of the
      view it runs in. */
  type Dep<!I> = View<I> -> DepResult

  datatype Attr<!I> = Attr(name: Name, compute: Dep<I>)

  /** An item after the build-time merge: `_values` and `_deps` (the latter
      in its fixed iteration order). */
  datatype Descriptor<!I> = Descriptor(fixed: map<Name, Value>, attrs: seq<Attr<I>>)

  /** A fixture class: its method resolution order (itself first) and the
      items it declares directly (`_item_klasses`, in iteration order). */
  datatype FixtureDef = FixtureDef(mro: seq<FixtureId>, own: seq<ItemId>)

  datatype Config<!I> = Config(items: map<ItemId, Descriptor<I>>, fixtures: map<FixtureId, FixtureDef>)

  datatype Created<S, I> = Created(store: S, instance: I) | CreateRaised

  /** The backend hooks of a fixture class: `create_item_instance`,
      `destroy_item_instance` (None when it raises) and `get_primary_key`.
      They receive the item, whose identity names the fixture class, so a
      class without an implementation is a `create` that raises. */
  datatype Backend<!S, !I> = Backend(
    create: (S, ItemId, map<Name, Value>) -> Created<S, I>,
    destroy: (S, ItemId, I) -> Option<S>,
    primaryKey: (ItemId, I) -> Value)

  /** One backend call, as recorded in the state's log. */
  datatype Event<I> = CreateEvent(item: ItemId, values: map<Name, Value>) | DestroyEvent(item: ItemId, instance: I)

  /** Loader state: every item's slot, the backend's store, the resolving
      depth and the log of backend calls made so far. */
  datatype St<S, I> = St(slots: map<ItemId, Slot<I>>, store: S, depth: nat, log: seq<Event<I>>)

  datatype Error =
    | WrongFixture(item: ItemId, fixture: FixtureId)
    | UnknownItem(item: ItemId)
    | AttrFailed(item: ItemId, attr: Name, fault: Fault)
    | Repeated(item: ItemId, attr: Name, requested: ItemId, cause: Fault)
    | Reentered(item: ItemId)
    | CreateFailed(item: ItemId)
    | DestroyFailed(item: ItemId)
    | TooManyUnloads(item: ItemId)
    | NotLoaded(item: ItemId)

  datatype Res<T> = Ok(value: T) | Err(error: Error)

  /** The state holds exactly one slot per declared item. */
  predicate Valid<S, I(!new)>(cfg: Config<I>, st: St<S, I>) {
    st.slots.Keys == cfg.items.Keys
  }

  /** The class attributes of every declared item. */
  function Classes<I(!new)>(cfg: Config<I>): map<ItemId, map<Name, Value>> {
    map k | k in cfg.items :: cfg.items[k].fixed
  }

  /** The view a computed attribute called at resolving depth `depth` gets. */
  function ViewOf<S, I(!new)>(cfg: Config<I>, st: St<S, I>, depth: nat): View<I> {
    View(st.slots, depth, Classes(cfg))
  }

  function AttrNames<I(!new)>(attrs: seq<Attr<I>>): (r: seq<Name>)
    ensures |r| == |attrs|
    ensures forall p :: 0 <= p < |attrs| ==> r[p] == attrs[p].name
  {
    if attrs == [] then [] else [attrs[0].name] + AttrNames(attrs[1..])
  }

  /** An item whose instance is present is published: reading it yields the
      instance, not the descriptor. */
  predicate Published<I(!new)>(slots: map<ItemId, Slot<I>>, k: ItemId) {
    k in slots && slots[k].instance.Some?
  }

  /** Items not loaded at all; the load recursion's measure. */
  function Unloaded<S, I(!new)>(st: St<S, I>): nat {
    |set k | k in st.slots && st.slots[k].count == 0|
  }

  /** Items held at least once; the unload recursion's measure. */
  function Held<S, I(!new)>(st: St<S, I>): nat {
    |set k | k in st.slots && st.slots[k].count > 0|
  }

  /** No item's count went down and no item appeared or vanished. */
  predicate Grows<S, I(!new)>(st: St<S, I>, st': St<S, I>) {
    && st'.slots.Keys == st.slots.Keys
    && forall k :: k in st.slots ==> st'.slots[k].count >= st.slots[k].count
  }

  /** No item's count went up and no item appeared or vanished. */
  predicate Shrinks<S, I(!new)>(st: St<S, I>, st': St<S, I>) {
    && st'.slots.Keys == st.slots.Keys
    && forall k :: k in st.slots ==> st'.slots[k].count <= st.slots[k].count
  }

  lemma GrowsUnloaded<S, I(!new)>(st: St<S, I>, st': St<S, I>)
    requires Grows(st, st')
    ensures Unloaded(st') <= Unloaded(st)
  {
    SubsetCard(set k | k in st'.slots && st'.slots[k].count == 0,
               set k | k in st.slots && st.slots[k].count == 0);
  }

  lemma ShrinksHeld<S, I(!new)>(st: St<S, I>, st': St<S, I>)
    requires Shrinks(st, st')
    ensures Held(st') <= Held(st)
  {
    SubsetCard(set k | k in st'.slots && st'.slots[k].count > 0,
               set k | k in st.slots && st.slots[k].count > 0);
  }

  /** Taking one item out of the count-0 set shrinks the load measure. */
  lemma MarkLoadingUnloaded<S, I(!new)>(st: St<S, I>, st': St<S, I>, i: ItemId)
    requires i in st.slots && st.slots[i].count == 0
    requires st'.slots.Keys == st.slots.Keys && st'.slots[i].count == 1
    requires forall k :: k in st.slots && k != i ==> st'.slots[k].count == st.slots[k].count
    ensures Unloaded(st') == Unloaded(st) - 1
  {
    var z := set k | k in st.slots && st.slots[k].count == 0;
    var z' := set k | k in st'.slots && st'.slots[k].count == 0;
    assert z' == z - {i};
    RemoveOneCard(z, i);
  }

  /** Putting one item into the count-0 set shrinks the unload measure. */
  lemma MarkReleasedHeld<S, I(!new)>(st: St<S, I>, st': St<S, I>, i: ItemId)
    requires i in st.slots && st.slots[i].count == 1
    requires st'.slots.Keys == st.slots.Keys && st'.slots[i].count == 0
    requires forall k :: k in st.slots && k != i ==> st'.slots[k].count == st.slots[k].count
    ensures Held(st') == Held(st) - 1
  {
    var h := set k | k in st.slots && st.slots[k].count > 0;
    var h' := set k | k in st'.slots && st'.slots[k].count > 0;
    assert h' == h - {i};
    RemoveOneCard(h, i);
  }
}

=== FILE: fixture_theorems.dfy ===
/** Properties of the mass `load` / `unload` over a fixture's inheritance
    chain and of the decorator (funfixtures/common.py:104-120, 176-184). */
module FixtureTheorems {
  import opened Common
  import opened FixtureModel
  import opened Loader
  import opened LoadFacts
  import opened UnloadFacts
  import opened RefCount
  import opened RefFacts

  /** The items declared directly by the fixture classes of `bases`, class by
      class in the order given; other classes contribute nothing. */
  function OwnItems<I(!new)>(cfg: Config<I>, bases: seq<FixtureId>): seq<ItemId>
    decreases |bases|
  {
    if bases == [] then []
    else (if bases[0] in cfg.fixtures then cfg.fixtures[bases[0]].own else []) + OwnItems(cfg, bases[1..])
  }

  /** What the class machinery guarantees: a class comes first in its own
      method resolution order, and the items a fixture class declares are
      declared items that belong to it. */
  predicate WellFormed<I(!new)>(cfg: Config<I>) {
    forall f :: f in cfg.fixtures ==> Owns(cfg, f)
  }

  predicate Owns<I(!new)>(cfg: Config<I>, f: FixtureId)
    requires f in cfg.fixtures
  {
    && |cfg.fixtures[f].mro| >= 1 && cfg.fixtures[f].mro[0] == f
    && forall q :: q in cfg.fixtures[f].own ==> q in cfg.items && q.fixture == f
  }

  lemma {:induction false} OwnItemsAppend<I(!new)>(cfg: Config<I>, a: seq<FixtureId>, b: seq<FixtureId>)
    ensures OwnItems(cfg, a + b) == OwnItems(cfg, a) + OwnItems(cfg, b)
    decreases |a|
  {
    if a == [] {
      assert a + b == b;
    } else {
      assert (a + b)[0] == a[0];
      assert (a + b)[1..] == a[1..] + b;
      OwnItemsAppend(cfg, a[1..], b);
    }
  }

  /** Walking the chain backwards loads the same items the same number of
      times: what `load` takes `unload` gives back. */
  lemma {:induction false} OwnItemsReverse<I(!new)>(cfg: Config<I>, bases: seq<FixtureId>)
    ensures multiset(OwnItems(cfg, Reverse(bases))) == multiset(OwnItems(cfg, bases))
    decreases |bases|
  {
    if bases != [] {
      OwnItemsReverse(cfg, bases[1..]);
      OwnItemsAppend(cfg, Reverse(bases[1..]), [bases[0]]);
      assert [bases[0]][1..] == [];
    }
  }

  // ---------------------------------------------------------------------
  // Order of the walk over the chain

  lemma {:induction false} LoadBasesAppend<S, I(!new)>(b: Backend<S, I>, cfg: Config<I>, x: seq<FixtureId>, y: seq<FixtureId>, st: St<S, I>)
    requires Valid(cfg, st)
    ensures LoadBases(b, cfg, x + y, st)
            == match LoadBases(b, cfg, x, st)
               case Err(e) => Err(e)
               case Ok(st1) => LoadBases(b, cfg, y, st1)
    decreases |x|
  {
    if x == [] {
      assert x + y == y;
    } else {
      assert (x + y)[0] == x[0];
      assert (x + y)[1..] == x[1..] + y;
      if x[0] !in cfg.fixtures {
        LoadBasesAppend(b, cfg, x[1..], y, st);
      } else if LoadOwn(b, cfg, x[0], cfg.fixtures[x[0]].own, st).Ok? {
        LoadBasesAppend(b, cfg, x[1..], y, LoadOwn(b, cfg, x[0], cfg.fixtures[x[0]].own, st).value);
      }
    }
  }

  lemma {:induction false} UnloadBasesAppend<S, I(!new)>(b: Backend<S, I>, cfg: Config<I>, x: seq<FixtureId>, y: seq<FixtureId>, st: St<S, I>)
    requires Valid(cfg, st)
    ensures UnloadBases(b, cfg, x + y, st)
            == match UnloadBases(b, cfg, x, st)
               case Err(e) => Err(e)
               case Ok(st1) => UnloadBases(b, cfg, y, st1)
    decreases |x|
  {
    if x == [] {
      assert x + y == y;
    } else {
      assert (x + y)[0] == x[0];
      assert (x + y)[1..] == x[1..] + y;
      if x[0] !in cfg.fixtures {
        UnloadBasesAppend(b, cfg, x[1..], y, st);
      } else if UnloadOwn(b, cfg, x[0], cfg.fixtures[x[0]].own, st).Ok? {
        UnloadBasesAppend(b, cfg, x[1..], y, UnloadOwn(b, cfg, x[0], cfg.fixtures[x[0]].own, st).value);
      }
    }
  }

  /** `load` loads everything the ancestors declare before the fixture's own
      items. The order comes from `LoadFixture` walking `Reverse(mro)`, whose
      last class is the fixture itself; this lemma splits that walk there. */
  lemma LoadAncestorsFirst<S, I(!new)>(b: Backend<S, I>, cfg: Config<I>, fix: FixtureId, st: St<S, I>)
    requires Valid(cfg, st) && fix in cfg.fixtures && Owns(cfg, fix)
    ensures var mro := cfg.fixtures[fix].mro;
            LoadFixture(b, cfg, fix, st)
            == match LoadBases(b, cfg, Reverse(mro[1..]), st)
               case Err(e) => Err(e)
               case Ok(st1) => LoadOwn(b, cfg, fix, cfg.fixtures[fix].own, st1)
  {
    var mro := cfg.fixtures[fix].mro;
    assert Reverse(mro) == Reverse(mro[1..]) + [fix];
    LoadBasesAppend(b, cfg, Reverse(mro[1..]), [fix], st);
  }

  /** `unload` unloads the fixture's own items before anything its ancestors
      declare. The order comes from `UnloadFixture` walking `mro` itself,
      whose first class is the fixture; this lemma splits that walk there. */
  lemma UnloadSelfFirst<S, I(!new)>(b: Backend<S, I>, cfg: Config<I>, fix: FixtureId, st: St<S, I>)
    requires Valid(cfg, st) && fix in cfg.fixtures && Owns(cfg, fix)
    ensures var mro := cfg.fixtures[fix].mro;
            UnloadFixture(b, cfg, fix, st)
            == match UnloadOwn(b, cfg, fix, cfg.fixtures[fix].own, st)
               case Err(e) => Err(e)
               case Ok(st1) => UnloadBases(b, cfg, mro[1..], st1)
  {
    var mro := cfg.fixtures[fix].mro;
    assert mro == [fix] + mro[1..];
    UnloadBasesAppend(b, cfg, [fix], mro[1..], st);
  }

  // ---------------------------------------------------------------------
  // External references over the chain

  /** The external part of every item rose by the number of its occurrences
      in `items`. */
  ghost predicate ExtRaised<S, I(!new)>(st: St<S, I>, st': St<S, I>, items: seq<ItemId>) {
    && st'.slots.Keys == st.slots.Keys
    && forall q :: q in st.slots ==> Ext(st', q) == Ext(st, q) + Occurrences(items, q)
  }

  lemma ExtRaisedCompose<S, I(!new)>(st: St<S, I>, st1: St<S, I>, st2: St<S, I>, x: seq<ItemId>, y: seq<ItemId>)
    requires ExtRaised(st, st1, x) && ExtRaised(st1, st2, y)
    ensures ExtRaised(st, st2, x + y)
  {
    assert multiset(x + y) == multiset(x) + multiset(y);
  }

  lemma ExtDroppedCompose<S, I(!new)>(st: St<S, I>, st1: St<S, I>, st2: St<S, I>, x: seq<ItemId>, y: seq<ItemId>)
    requires ExtDropped(st, st1, x) && ExtDropped(st1, st2, y)
    ensures ExtDropped(st, st2, x + y)
  {
    assert multiset(x + y) == multiset(x) + multiset(y);
  }

  lemma ExtRaisedStep<S, I(!new)>(st: St<S, I>, st1: St<S, I>, st2: St<S, I>, items: seq<ItemId>)
    requires items != [] && ExtMoved(st, st1, items[0], 1) && ExtRaised(st1, st2, items[1..])
    ensures ExtRaised(st, st2, items)
  {
    assert items == [items[0]] + items[1..];
    assert multiset(items) == multiset{items[0]} + multiset(items[1..]);
  }

  lemma ExtDroppedStep<S, I(!new)>(st: St<S, I>, st1: St<S, I>, st2: St<S, I>, items: seq<ItemId>)
    requires items != [] && ExtMoved(st, st1, items[0], -1) && ExtDropped(st1, st2, items[1..])
    ensures ExtDropped(st, st2, items)
  {
    assert items == [items[0]] + items[1..];
    assert multiset(items) == multiset{items[0]} + multiset(items[1..]);
  }

  /** `_load_self` adds one external reference per declared item. */
  lemma {:induction false} LoadOwnExt<S, I(!new)>(b: Backend<S, I>, cfg: Config<I>, fix: FixtureId, items: seq<ItemId>, st: St<S, I>)
    requires Valid(cfg, st) && Tidy(st)
    requires LoadOwn(b, cfg, fix, items, st).Ok?
    ensures Tidy(LoadOwn(b, cfg, fix, items, st).value)
    ensures ExtRaised(st, LoadOwn(b, cfg, fix, items, st).value, items)
    decreases |items|
  {
    if items != [] {
      var i := items[0];
      LoadItemSlots(b, cfg, fix, i, st);
      LoadItemExt(b, cfg, fix, i, st);
      var st1 := LoadItem(b, cfg, fix, i, st).value.0;
      LoadOwnExt(b, cfg, fix, items[1..], st1);
      ExtRaisedStep(st, st1, LoadOwn(b, cfg, fix, items[1..], st1).value, items);
    }
  }

  /** `_unload_self` gives one external reference back per declared item. */
  lemma {:induction false} UnloadOwnExt<S, I(!new)>(b: Backend<S, I>, cfg: Config<I>, fix: FixtureId, items: seq<ItemId>, st: St<S, I>)
    requires Valid(cfg, st)
    requires UnloadOwn(b, cfg, fix, items, st).Ok?
    ensures Tidy(st) ==> Tidy(UnloadOwn(b, cfg, fix, items, st).value)
    ensures ExtDropped(st, UnloadOwn(b, cfg, fix, items, st).value, items)
    decreases |items|
  {
    if items != [] {
      var i := items[0];
      UnloadItemFacts(b, cfg, fix, i, st);
      UnloadItemExt(b, cfg, fix, i, st);
      var st1 := UnloadItem(b, cfg, fix, i, st).value;
      if Tidy(st) {
        UnloadKeepsTidy(st, st1);
      }
      UnloadOwnExt(b, cfg, fix, items[1..], st1);
      ExtDroppedStep(st, st1, UnloadOwn(b, cfg, fix, items[1..], st1).value, items);
    }
  }

  lemma {:induction false} LoadBasesExt<S, I(!new)>(b: Backend<S, I>, cfg: Config<I>, bases: seq<FixtureId>, st: St<S, I>)
    requires Valid(cfg, st) && Tidy(st)
    requires LoadBases(b, cfg, bases, st).Ok?
    ensures Tidy(LoadBases(b, cfg, bases, st).value)
    ensures ExtRaised(st, LoadBases(b, cfg, bases, st).value, OwnItems(cfg, bases))
    decreases |bases|
  {
    if bases != [] {
      if bases[0] !in cfg.fixtures {
        LoadBasesExt(b, cfg, bases[1..], st);
        assert OwnItems(cfg, bases) == [] + OwnItems(cfg, bases[1..]);
      } else {
        var own := cfg.fixtures[bases[0]].own;
        LoadOwnExt(b, cfg, bases[0], own, st);
        var st1 := LoadOwn(b, cfg, bases[0], own, st).value;
        LoadBasesExt(b, cfg, bases[1..], st1);
        ExtRaisedCompose(st, st1, LoadBases(b, cfg, bases, st).value, own, OwnItems(cfg, bases[1..]));
      }
    }
  }

  lemma {:induction false} UnloadBasesExt<S, I(!new)>(b: Backend<S, I>, cfg: Config<I>, bases: seq<FixtureId>, st: St<S, I>)
    requires Valid(cfg, st)
    requires UnloadBases(b, cfg, bases, st).Ok?
    ensures Tidy(st) ==> Tidy(UnloadBases(b, cfg, bases, st).value)
    ensures ExtDropped(st, UnloadBases(b, cfg, bases, st).value, OwnItems(cfg, bases))
    decreases |bases|
  {
    if bases != [] {
      if bases[0] !in cfg.fixtures {
        UnloadBasesExt(b, cfg, bases[1..], st);
        assert OwnItems(cfg, bases) == [] + OwnItems(cfg, bases[1..]);
      } else {
        var own := cfg.fixtures[bases[0]].own;
        UnloadOwnExt(b, cfg, bases[0], own, st);
        var st1 := UnloadOwn(b, cfg, bases[0], own, st).value;
        UnloadBasesExt(b, cfg, bases[1..], st1);
        ExtDroppedCompose(st, st1, UnloadBases(b, cfg, bases, st).value, own, OwnItems(cfg, bases[1..]));
      }
    }
  }

  /** A `load` and an `unload` of the same fixture give back every external
      reference the load took. */
  lemma LoadUnloadExt<S, I(!new)>(fix: FixtureId, cfg: Config<I>, st: St<S, I>, st1: St<S, I>, st2: St<S, I>, st3: St<S, I>)
    requires fix in cfg.fixtures
    requires ExtRaised(st, st1, OwnItems(cfg, Reverse(cfg.fixtures[fix].mro)))
    requires ExtKept(st1, st2)
    requires ExtDropped(st2, st3, OwnItems(cfg, cfg.fixtures[fix].mro))
    ensures ExtKept(st, st3)
  {
    OwnItemsReverse(cfg, cfg.fixtures[fix].mro);
  }

  // ---------------------------------------------------------------------
  // The decorator

  /** Whether the innermost body raises. */
  function Raises(p: Proc): bool {
    match p
    case Body(raises) => raises
    case Decorated(_, inner) => Raises(inner)
  }

  /** A decorated call that gets past the loader leaves every external
      reference where it was: each decorator's `unload` ran, whether the
      body returned or raised. */
  lemma {:induction false} RunExt<S, I(!new)>(b: Backend<S, I>, cfg: Config<I>, p: Proc, st: St<S, I>)
    requires Valid(cfg, st) && Tidy(st) && Declared(cfg, p)
    ensures !Run(b, cfg, p, st).Failed? ==> ExtKept(st, Run(b, cfg, p, st).st) && Tidy(Run(b, cfg, p, st).st)
    decreases p
  {
    match p
    case Body(_) =>
    case Decorated(fix, inner) =>
      if LoadFixture(b, cfg, fix, st).Ok? {
        var st1 := LoadFixture(b, cfg, fix, st).value;
        LoadBasesExt(b, cfg, Reverse(cfg.fixtures[fix].mro), st);
        RunExt(b, cfg, inner, st1);
        var o := Run(b, cfg, inner, st1);
        if !o.Failed? && UnloadFixture(b, cfg, fix, o.st).Ok? {
          UnloadBasesExt(b, cfg, cfg.fixtures[fix].mro, o.st);
          LoadUnloadExt(fix, cfg, st, st1, o.st, UnloadFixture(b, cfg, fix, o.st).value);
        }
      }
  }

  /** A decorated call that gets past the loader ends the way its body
      does: the decorator neither swallows nor invents an exception. */
  lemma {:induction false} RunRaises<S, I(!new)>(b: Backend<S, I>, cfg: Config<I>, p: Proc, st: St<S, I>)
    requires Valid(cfg, st) && Declared(cfg, p)
    ensures !Run(b, cfg, p, st).Failed? ==> (Run(b, cfg, p, st).Threw? <==> Raises(p))
    decreases p
  {
    match p
    case Body(_) =>
    case Decorated(fix, inner) =>
      if LoadFixture(b, cfg, fix, st).Ok? {
        RunRaises(b, cfg, inner, LoadFixture(b, cfg, fix, st).value);
      }
  }

  // ---------------------------------------------------------------------
  // Decorating twice with the same fixture

  /** An item counted and published. */
  ghost predicate Live<S, I(!new)>(st: St<S, I>, q: ItemId) {
    q in st.slots && st.slots[q].count >= 1 && st.slots[q].instance.Some?
  }

  /** Only the counts moved, each by the number of occurrences in `items`. */
  ghost predicate Raised<S, I(!new)>(st: St<S, I>, st': St<S, I>, items: seq<ItemId>) {
    && st'.slots.Keys == st.slots.Keys
    && st'.store == st.store && st'.log == st.log && st'.depth == st.depth
    && forall q :: q in st.slots ==> st'.slots[q] == st.slots[q].(count := st.slots[q].count + Occurrences(items, q))
  }

  lemma RaisedCompose<S, I(!new)>(st: St<S, I>, st1: St<S, I>, st2: St<S, I>, x: seq<ItemId>, y: seq<ItemId>)
    requires Raised(st, st1, x) && Raised(st1, st2, y)
    ensures Raised(st, st2, x + y)
  {
    assert multiset(x + y) == multiset(x) + multiset(y);
  }

  lemma RaisedNothing<S, I(!new)>(st: St<S, I>, st': St<S, I>, items: seq<ItemId>)
    requires Raised(st, st', items) && multiset(items) == multiset{}
    ensures st' == st
  {
    assert st'.slots == st.slots;
  }

  /** Two states raised to the same state by the same multiset of items are
      the same state. */
  lemma RaisedSame<S, I(!new)>(st: St<S, I>, st': St<S, I>, st2: St<S, I>, x: seq<ItemId>, y: seq<ItemId>)
    requires Raised(st, st2, x) && Raised(st', st2, y) && multiset(x) == multiset(y)
    ensures st' == st
  {
    assert st'.slots == st.slots;
  }

  /** A load keeps live items live and makes the loaded one live. */
  lemma LoadItemLive<S, I(!new)>(st: St<S, I>, st': St<S, I>, i: ItemId, inst: I)
    requires LoadSlots(st, st', i, inst)
    ensures Live(st', i)
    ensures forall q :: Live(st, q) ==> Live(st', q)
  {
    forall q | Live(st, q) && q != i
      ensures Live(st', q)
    {
      assert KeptOnLoad(st.slots[q], st'.slots[q]);
    }
  }

  /** After `_load_self` every declared item is live, and so is every item
      that was live before. */
  lemma {:induction false} LoadOwnLive<S, I(!new)>(b: Backend<S, I>, cfg: Config<I>, fix: FixtureId, items: seq<ItemId>, st: St<S, I>)
    requires Valid(cfg, st) && Tidy(st)
    requires LoadOwn(b, cfg, fix, items, st).Ok?
    ensures Tidy(LoadOwn(b, cfg, fix, items, st).value)
    ensures forall q :: q in items ==> Live(LoadOwn(b, cfg, fix, items, st).value, q)
    ensures forall q :: Live(st, q) ==> Live(LoadOwn(b, cfg, fix, items, st).value, q)
    decreases |items|
  {
    if items != [] {
      var i := items[0];
      LoadItemSlots(b, cfg, fix, i, st);
      var (st1, inst) := LoadItem(b, cfg, fix, i, st).value;
      LoadItemLive(st, st1, i, inst);
      LoadOwnLive(b, cfg, fix, items[1..], st1);
      assert forall q :: q in items ==> q == i || q in items[1..];
    }
  }

  lemma {:induction false} LoadBasesLive<S, I(!new)>(b: Backend<S, I>, cfg: Config<I>, bases: seq<FixtureId>, st: St<S, I>)
    requires Valid(cfg, st) && Tidy(st)
    requires LoadBases(b, cfg, bases, st).Ok?
    ensures Tidy(LoadBases(b, cfg, bases, st).value)
    ensures forall q :: q in OwnItems(cfg, bases) ==> Live(LoadBases(b, cfg, bases, st).value, q)
    ensures forall q :: Live(st, q) ==> Live(LoadBases(b, cfg, bases, st).value, q)
    decreases |bases|
  {
    if bases != [] {
      if bases[0] !in cfg.fixtures {
        LoadBasesLive(b, cfg, bases[1..], st);
      } else {
        var own := cfg.fixtures[bases[0]].own;
        LoadOwnLive(b, cfg, bases[0], own, st);
        LoadBasesLive(b, cfg, bases[1..], LoadOwn(b, cfg, bases[0], own, st).value);
      }
    }
  }

  /** Every item of `items` is a declared item of fixture class `fix`. */
  predicate Declares<I(!new)>(cfg: Config<I>, fix: FixtureId, items: seq<ItemId>) {
    forall q :: q in items ==> q in cfg.items && q.fixture == fix
  }

  /** Every item of `items` is counted more often than it occurs there. */
  ghost predicate Spare<S, I(!new)>(st: St<S, I>, items: seq<ItemId>) {
    forall q :: q in items ==> q in st.slots && st.slots[q].count > Occurrences(items, q)
  }

  lemma RaisedStep<S, I(!new)>(st: St<S, I>, st1: St<S, I>, st2: St<S, I>, items: seq<ItemId>)
    requires items != [] && Raised(st, st1, [items[0]]) && Raised(st1, st2, items[1..])
    ensures Raised(st, st2, items)
  {
    assert items == [items[0]] + items[1..];
    RaisedCompose(st, st1, st2, [items[0]], items[1..]);
  }

  lemma LoweredStep<S, I(!new)>(st: St<S, I>, st1: St<S, I>, st2: St<S, I>, items: seq<ItemId>)
    requires items != [] && Raised(st1, st, [items[0]]) && Raised(st2, st1, items[1..])
    ensures Raised(st2, st, items)
  {
    RaisedCompose(st2, st1, st, items[1..], [items[0]]);
    assert multiset(items[1..] + [items[0]]) == multiset(items) by {
      assert items == [items[0]] + items[1..];
    }
  }

  lemma DeclaresTail<I(!new)>(cfg: Config<I>, fix: FixtureId, items: seq<ItemId>)
    requires items != [] && Declares(cfg, fix, items)
    ensures items[0] in cfg.items && items[0].fixture == fix && Declares(cfg, fix, items[1..])
  {
    assert forall q :: q in items[1..] ==> q in items;
  }

  lemma LiveTail<S, I(!new)>(st: St<S, I>, st1: St<S, I>, items: seq<ItemId>)
    requires items != [] && forall q :: q in items ==> Live(st, q)
    requires forall q :: Live(st, q) ==> Live(st1, q)
    ensures Live(st, items[0]) && forall q :: q in items[1..] ==> Live(st1, q)
  {
    assert forall q :: q in items[1..] ==> q in items;
  }

  /** Taking one occurrence of the first item off the counts keeps the rest
      spare. */
  lemma SpareTail<S, I(!new)>(st: St<S, I>, st1: St<S, I>, items: seq<ItemId>)
    requires items != [] && Spare(st, items) && Raised(st1, st, [items[0]])
    ensures items[0] in st.slots && st.slots[items[0]].count >= 2
    ensures Spare(st1, items[1..])
  {
    assert items == [items[0]] + items[1..];
    assert multiset(items) == multiset{items[0]} + multiset(items[1..]);
    forall q | q in items[1..]
      ensures q in st1.slots && st1.slots[q].count > Occurrences(items[1..], q)
    {
      assert q in items;
    }
  }

  /** A load of a live item only raises its count. */
  lemma HeldLoadRaised<S, I(!new)>(b: Backend<S, I>, cfg: Config<I>, fix: FixtureId, i: ItemId, st: St<S, I>)
    requires Valid(cfg, st) && i in cfg.items && i.fixture == fix && Live(st, i)
    ensures LoadItem(b, cfg, fix, i, st).Ok?
    ensures Raised(st, LoadItem(b, cfg, fix, i, st).value.0, [i])
    ensures forall q :: Live(st, q) ==> Live(LoadItem(b, cfg, fix, i, st).value.0, q)
  {
  }

  /** An unload of an item counted at least twice only lowers its count. */
  lemma HeldUnloadRaised<S, I(!new)>(b: Backend<S, I>, cfg: Config<I>, fix: FixtureId, i: ItemId, st: St<S, I>)
    requires Valid(cfg, st) && i in cfg.items && i.fixture == fix && st.slots[i].count >= 2
    ensures UnloadItem(b, cfg, fix, i, st).Ok?
    ensures Raised(UnloadItem(b, cfg, fix, i, st).value, st, [i])
  {
  }

  /** `_load_self` over live items of the class only raises their counts. */
  lemma {:induction false} LoadOwnHeld<S, I(!new)>(b: Backend<S, I>, cfg: Config<I>, fix: FixtureId, items: seq<ItemId>, st: St<S, I>)
    requires Valid(cfg, st) && Declares(cfg, fix, items)
    requires forall q :: q in items ==> Live(st, q)
    ensures LoadOwn(b, cfg, fix, items, st).Ok?
    ensures Raised(st, LoadOwn(b, cfg, fix, items, st).value, items)
    decreases |items|
  {
    if items != [] {
      var i := items[0];
      DeclaresTail(cfg, fix, items);
      assert Live(st, i);
      HeldLoadRaised(b, cfg, fix, i, st);
      var st1 := LoadItem(b, cfg, fix, i, st).value.0;
      LiveTail(st, st1, items);
      LoadOwnHeld(b, cfg, fix, items[1..], st1);
      RaisedStep(st, st1, LoadOwn(b, cfg, fix, items[1..], st1).value, items);
    }
  }

  /** `_unload_self` over items counted more often than the class declares
      them only lowers their counts. */
  lemma {:induction false} UnloadOwnHeld<S, I(!new)>(b: Backend<S, I>, cfg: Config<I>, fix: FixtureId, items: seq<ItemId>, st: St<S, I>)
    requires Valid(cfg, st) && Declares(cfg, fix, items) && Spare(st, items)
    ensures UnloadOwn(b, cfg, fix, items, st).Ok?
    ensures Raised(UnloadOwn(b, cfg, fix, items, st).value, st, items)
    decreases |items|
  {
    if items != [] {
      var i := items[0];
      DeclaresTail(cfg, fix, items);
      assert i in items;
      assert st.slots[i].count >= 2 by {
        assert multiset(items)[i] >= 1;
      }
      HeldUnloadRaised(b, cfg, fix, i, st);
      var st1 := UnloadItem(b, cfg, fix, i, st).value;
      SpareTail(st, st1, items);
      UnloadOwnHeld(b, cfg, fix, items[1..], st1);
      LoweredStep(st, st1, UnloadOwn(b, cfg, fix, items[1..], st1).value, items);
    }
  }

  lemma BasesTail<S, I(!new)>(cfg: Config<I>, bases: seq<FixtureId>, st: St<S, I>)
    requires bases != [] && WellFormed(cfg)
    ensures OwnItems(cfg, bases)
            == (if bases[0] in cfg.fixtures then cfg.fixtures[bases[0]].own else []) + OwnItems(cfg, bases[1..])
    ensures bases[0] in cfg.fixtures ==> Declares(cfg, bases[0], cfg.fixtures[bases[0]].own)
  {
    if bases[0] in cfg.fixtures {
      assert Owns(cfg, bases[0]);
    }
  }

  lemma LiveSplit<S, I(!new)>(st: St<S, I>, x: seq<ItemId>, y: seq<ItemId>)
    requires forall q :: q in x + y ==> Live(st, q)
    ensures forall q :: q in x ==> Live(st, q)
    ensures forall q :: q in y ==> Live(st, q)
  {
  }

  lemma RaisedLive<S, I(!new)>(st: St<S, I>, st1: St<S, I>, x: seq<ItemId>, y: seq<ItemId>)
    requires Raised(st, st1, x) && forall q :: q in y ==> Live(st, q)
    ensures forall q :: q in y ==> Live(st1, q)
  {
  }

  lemma SpareHead<S, I(!new)>(st: St<S, I>, x: seq<ItemId>, y: seq<ItemId>)
    requires Spare(st, x + y)
    ensures Spare(st, x)
  {
    assert multiset(x + y) == multiset(x) + multiset(y);
    forall q | q in x
      ensures q in st.slots && st.slots[q].count > Occurrences(x, q)
    {
      assert q in x + y;
    }
  }

  lemma SpareSplit<S, I(!new)>(st: St<S, I>, st1: St<S, I>, x: seq<ItemId>, y: seq<ItemId>)
    requires Spare(st, x + y) && Raised(st1, st, x)
    ensures Spare(st1, y)
  {
    assert multiset(x + y) == multiset(x) + multiset(y);
    forall q | q in y
      ensures q in st1.slots && st1.slots[q].count > Occurrences(y, q)
    {
      assert q in x + y;
    }
  }

  lemma LoweredSplit<S, I(!new)>(st: St<S, I>, st1: St<S, I>, st2: St<S, I>, x: seq<ItemId>, y: seq<ItemId>)
    requires Raised(st1, st, x) && Raised(st2, st1, y)
    ensures Raised(st2, st, x + y)
  {
    RaisedCompose(st2, st1, st, y, x);
    assert multiset(y + x) == multiset(x + y);
  }

  lemma {:induction false} LoadBasesHeld<S, I(!new)>(b: Backend<S, I>, cfg: Config<I>, bases: seq<FixtureId>, st: St<S, I>)
    requires Valid(cfg, st) && WellFormed(cfg)
    requires forall q :: q in OwnItems(cfg, bases) ==> Live(st, q)
    ensures LoadBases(b, cfg, bases, st).Ok?
    ensures Raised(st, LoadBases(b, cfg, bases, st).value, OwnItems(cfg, bases))
    decreases |bases|
  {
    if bases != [] {
      BasesTail(cfg, bases, st);
      if bases[0] !in cfg.fixtures {
        LoadBasesHeld(b, cfg, bases[1..], st);
      } else {
        var own := cfg.fixtures[bases[0]].own;
        LiveSplit(st, own, OwnItems(cfg, bases[1..]));
        LoadOwnHeld(b, cfg, bases[0], own, st);
        var st1 := LoadOwn(b, cfg, bases[0], own, st).value;
        RaisedLive(st, st1, own, OwnItems(cfg, bases[1..]));
        LoadBasesHeld(b, cfg, bases[1..], st1);
        RaisedCompose(st, st1, LoadBases(b, cfg, bases[1..], st1).value, own, OwnItems(cfg, bases[1..]));
      }
    }
  }

  lemma {:induction false} UnloadBasesHeld<S, I(!new)>(b: Backend<S, I>, cfg: Config<I>, bases: seq<FixtureId>, st: St<S, I>)
    requires Valid(cfg, st) && WellFormed(cfg) && Spare(st, OwnItems(cfg, bases))
    ensures UnloadBases(b, cfg, bases, st).Ok?
    ensures Raised(UnloadBases(b, cfg, bases, st).value, st, OwnItems(cfg, bases))
    decreases |bases|
  {
    if bases != [] {
      BasesTail(cfg, bases, st);
      if bases[0] !in cfg.fixtures {
        UnloadBasesHeld(b, cfg, bases[1..], st);
      } else {
        var own := cfg.fixtures[bases[0]].own;
        var rest := OwnItems(cfg, bases[1..]);
        SpareHead(st, own, rest);
        UnloadOwnHeld(b, cfg, bases[0], own, st);
        var st1 := UnloadOwn(b, cfg, bases[0], own, st).value;
        SpareSplit(st, st1, own, rest);
        UnloadBasesHeld(b, cfg, bases[1..], st1);
        LoweredSplit(st, st1, UnloadBases(b, cfg, bases[1..], st1).value, own, rest);
      }
    }
  }

  /** Decorating a body twice with the same fixture is the same as decorating
      it once: the inner `load` finds every item loaded and only counts, and
      the inner `unload` only uncounts, so neither calls the backend. */
  lemma NestedSameFixture<S, I(!new)>(b: Backend<S, I>, cfg: Config<I>, fix: FixtureId, raises: bool, st: St<S, I>)
    requires Valid(cfg, st) && Tidy(st) && WellFormed(cfg) && fix in cfg.fixtures
    ensures Run(b, cfg, Decorated(fix, Decorated(fix, Body(raises))), st)
            == Run(b, cfg, Decorated(fix, Body(raises)), st)
  {
    if LoadFixture(b, cfg, fix, st).Ok? {
      LoadBasesLive(b, cfg, Reverse(cfg.fixtures[fix].mro), st);
      InnerDecoratorIdle(b, cfg, fix, raises, LoadFixture(b, cfg, fix, st).value);
    }
  }

  /** Once every item of the chain is live, decorating with the fixture
      changes nothing. */
  lemma InnerDecoratorIdle<S, I(!new)>(b: Backend<S, I>, cfg: Config<I>, fix: FixtureId, raises: bool, st1: St<S, I>)
    requires Valid(cfg, st1) && WellFormed(cfg) && fix in cfg.fixtures
    requires forall q :: q in OwnItems(cfg, Reverse(cfg.fixtures[fix].mro)) ==> Live(st1, q)
    ensures Run(b, cfg, Decorated(fix, Body(raises)), st1) == Run(b, cfg, Body(raises), st1)
  {
    var mro := cfg.fixtures[fix].mro;
    LoadBasesHeld(b, cfg, Reverse(mro), st1);
    var st2 := LoadFixture(b, cfg, fix, st1).value;
    TwiceSpare(cfg, mro, st1, st2);
    UnloadBasesHeld(b, cfg, mro, st2);
    OwnItemsReverse(cfg, mro);
    RaisedSame(st1, UnloadFixture(b, cfg, fix, st2).value, st2, OwnItems(cfg, Reverse(mro)), OwnItems(cfg, mro));
  }

  /** After a second `load` every item of the chain is counted more often
      than the chain declares it. */
  lemma TwiceSpare<S, I(!new)>(cfg: Config<I>, mro: seq<FixtureId>, st1: St<S, I>, st2: St<S, I>)
    requires forall q :: q in OwnItems(cfg, Reverse(mro)) ==> Live(st1, q)
    requires Raised(st1, st2, OwnItems(cfg, Reverse(mro)))
    ensures Spare(st2, OwnItems(cfg, mro))
  {
    OwnItemsReverse(cfg, mro);
    forall q | q in OwnItems(cfg, mro)
      ensures q in st2.slots && st2.slots[q].count > Occurrences(OwnItems(cfg, mro), q)
    {
      assert q in multiset(OwnItems(cfg, Reverse(mro)));
      assert Live(st1, q);
    }
  }
}

=== FILE: item_build.dfy ===
/** Build time of a fixture item (funfixtures/common.py:78-97): the walk over
    the item class's inheritance chain that splits its public members into
    plain values (`_values`) and callables (`_deps`), with references to other
    fixture items turned into primary-key thunks (lines 85-89). */
module ItemBuild {
  import opened Common
  import opened FixtureModel
  import opened LoadFacts
  import opened Loader
  import ItemTheorems

  /** A public member of an item class body: a plain value, a zero-argument
      callable, or a reference to another fixture item. */
  datatype Member<!I> = Const(value: Value) | Computed(compute: Dep<I>) | Ref(target: ItemId)

  /** The members one class body declares itself (`klass.__dict__`). */
  type ClassBody<!I> = map<Name, Member<I>>

  /** `_values` and `_deps` of an item. */
  datatype Built<!I> = Built(values: map<Name, Value>, deps: map<Name, Member<I>>)

  /** The public constants of one class body. */
  function Consts<I(!new)>(body: ClassBody<I>): (r: map<Name, Value>)
    ensures forall k :: k in r <==> k in body && !Private(k) && body[k].Const?
    ensures forall k :: k in r ==> r[k] == body[k].value
  {
    map k | k in body && !Private(k) && body[k].Const? :: body[k].value
  }

  /** The public callables (computed attributes and item references) of one
      class body. */
  function Callables<I(!new)>(body: ClassBody<I>): (r: map<Name, Member<I>>)
    ensures forall k :: k in r <==> k in body && !Private(k) && !body[k].Const?
    ensures forall k :: k in r ==> r[k] == body[k]
  {
    map k | k in body && !Private(k) && !body[k].Const? :: body[k]
  }

  /** The public members of one class body. */
  function Public<I(!new)>(body: ClassBody<I>): (r: ClassBody<I>)
    ensures forall k :: k in r <==> k in body && !Private(k)
    ensures forall k :: k in r ==> r[k] == body[k]
  {
    map k | k in body && !Private(k) :: body[k]
  }

  /** What attribute lookup on the item class finds for each public name: the
      member of the most specific class of `chain` (listed from least to most
      specific) that declares it. */
  function ClassView<I(!new)>(chain: seq<ClassBody<I>>): ClassBody<I>
    decreases |chain|
  {
    if chain == [] then map[] else ClassView(chain[..|chain| - 1]) + Public(chain[|chain| - 1])
  }

  /** Splits a class view: constants to `_values`, callables to `_deps`. */
  function Split<I(!new)>(view: ClassBody<I>): (r: Built<I>)
    ensures forall k :: k in r.values <==> k in view && view[k].Const?
    ensures forall k :: k in r.deps <==> k in view && !view[k].Const?
    ensures forall k :: k in r.values ==> r.values[k] == view[k].value
    ensures forall k :: k in r.deps ==> r.deps[k] == view[k]
  {
    Built(map k | k in view && view[k].Const? :: view[k].value, map k | k in view && !view[k].Const? :: view[k])
  }

  // ---------------------------------------------------------------------
  // The walk as written

  /** One class of the walk as the source writes it: each public member is
      stored in the map of its kind and nothing is removed from the other. */
  function StepAsWritten<I(!new)>(b: Built<I>, body: ClassBody<I>): Built<I> {
    Built(b.values + Consts(body), b.deps + Callables(body))
  }

  /** Some class of `chain` declares the public name `k` as a plain value
      (`plain`) or as a callable (`!plain`). */
  ghost predicate DeclaresAs<I(!new)>(chain: seq<ClassBody<I>>, k: Name, plain: bool) {
    exists p :: 0 <= p < |chain| && k in chain[p] && !Private(k) && chain[p][k].Const? == plain
  }

  lemma DeclaresAsSplit<I(!new)>(chain: seq<ClassBody<I>>, k: Name, plain: bool)
    requires chain != []
    ensures var last := chain[|chain| - 1];
            DeclaresAs(chain, k, plain)
            <==> DeclaresAs(chain[..|chain| - 1], k, plain) || (k in last && !Private(k) && last[k].Const? == plain)
  {
    var prefix := chain[..|chain| - 1];
    if DeclaresAs(chain, k, plain) {
      var p :| 0 <= p < |chain| && k in chain[p] && !Private(k) && chain[p][k].Const? == plain;
      if p < |chain| - 1 {
        assert prefix[p] == chain[p];
      }
    }
    if DeclaresAs(prefix, k, plain) {
      var p :| 0 <= p < |prefix| && k in prefix[p] && !Private(k) && prefix[p][k].Const? == plain;
      assert chain[p] == prefix[p];
    }
  }

  /** The walk as written never forgets a name: `_values` holds every public
      name some class declares as a plain value and `_deps` every public
      name some class declares as a callable, so a name redeclared with the
      other kind ends up in both. */
  function BuildAsWritten<I(!new)>(chain: seq<ClassBody<I>>): (r: Built<I>)
    ensures forall k :: k in r.values <==> DeclaresAs(chain, k, true)
    ensures forall k :: k in r.deps <==> DeclaresAs(chain, k, false)
    decreases |chain|
  {
    if chain == [] then Built(map[], map[])
    else
      var r := StepAsWritten(BuildAsWritten(chain[..|chain| - 1]), chain[|chain| - 1]);
      assert forall k :: (k in r.values <==> DeclaresAs(chain, k, true)) && (k in r.deps <==> DeclaresAs(chain, k, false)) by {
        forall k
          ensures k in r.values <==> DeclaresAs(chain, k, true)
          ensures k in r.deps <==> DeclaresAs(chain, k, false)
        {
          DeclaresAsSplit(chain, k, true);
          DeclaresAsSplit(chain, k, false);
        }
      }
      r
  }

  /** A subclass that redeclares an inherited computed attribute as a plain
      value keeps the inherited callable in `_deps`, and since `load_item`
      overwrites `_values` with every computed result, the callable's result
      wins over the value the subclass declared. */
  lemma AsWrittenKeepsStaleCallable<I(!new)>(f: Dep<I>, v: Value)
    requires v != VInt(81)
    ensures var chain := [map["y" := Computed(f)], map["y" := Const(VInt(81))]];
            && ClassView(chain)["y"] == Const(VInt(81))
            && BuildAsWritten(chain).values == map["y" := VInt(81)]
            && BuildAsWritten(chain).deps == map["y" := Computed(f)]
            && Overlay([Attr("y", f)], [v], BuildAsWritten(chain).values) == map["y" := v]
  {
    var chain: seq<ClassBody<I>> := [map["y" := Computed(f)], map["y" := Const(VInt(81))]];
    StaleChainView(f);
    StaleChainBuilt(f);
    assert BuildAsWritten(chain).values == map["y" := VInt(81)];
  }

  lemma StaleChainView<I(!new)>(f: Dep<I>)
    ensures ClassView([map["y" := Computed(f)], map["y" := Const(VInt(81))]])["y"] == Const(VInt(81))
  {
    var chain: seq<ClassBody<I>> := [map["y" := Computed(f)], map["y" := Const(VInt(81))]];
    assert chain[..1] == [map["y" := Computed(f)]];
    assert chain[..1][..0] == [];
    assert !Private("y");
    assert ClassView(chain) == ClassView(chain[..1]) + Public(chain[1]);
    assert Public(chain[1]) == map["y" := Const(VInt(81))];
  }

  lemma StaleChainBuilt<I(!new)>(f: Dep<I>)
    ensures BuildAsWritten([map["y" := Computed(f)], map["y" := Const(VInt(81))]])
            == Built(map["y" := VInt(81)], map["y" := Computed(f)])
  {
    var c0: ClassBody<I> := map["y" := Computed(f)];
    var c1: ClassBody<I> := map["y" := Const(VInt(81))];
    AsWrittenTwo(c0, c1);
    assert !Private("y");
    assert Consts(c0) == map[];
    assert Callables(c0) == map["y" := Computed(f)];
    assert Consts(c1) == map["y" := VInt(81)];
    assert Callables(c1) == map[];
  }

  /** The walk as written over a chain of two classes. */
  lemma AsWrittenTwo<I(!new)>(c0: ClassBody<I>, c1: ClassBody<I>)
    ensures BuildAsWritten([c0, c1]) == StepAsWritten(StepAsWritten(Built(map[], map[]), c0), c1)
  {
    var none: seq<ClassBody<I>> := [];
    AsWrittenSnoc(none, c0);
    AsWrittenSnoc([c0], c1);
    assert none + [c0] == [c0] && [c0] + [c1] == [c0, c1];
  }

  lemma AsWrittenSnoc<I(!new)>(chain: seq<ClassBody<I>>, c: ClassBody<I>)
    ensures BuildAsWritten(chain + [c]) == StepAsWritten(BuildAsWritten(chain), c)
  {
    assert (chain + [c])[..|chain|] == chain;
  }

  // ---------------------------------------------------------------------
  // The walk as intended

  /** One class of the walk with redeclaration honoured: a member replaces an
      inherited one of either kind. */
  function Step<I(!new)>(b: Built<I>, body: ClassBody<I>): Built<I> {
    Built((b.values - Callables(body).Keys) + Consts(body), (b.deps - Consts(body).Keys) + Callables(body))
  }

  function Build<I(!new)>(chain: seq<ClassBody<I>>): (r: Built<I>)
    ensures r.values.Keys !! r.deps.Keys
    ensures forall k :: k in r.deps ==> !r.deps[k].Const?
    decreases |chain|
  {
    if chain == [] then Built(map[], map[])
    else Step(Build(chain[..|chain| - 1]), chain[|chain| - 1])
  }

  lemma StepSplit<I(!new)>(view: ClassBody<I>, body: ClassBody<I>)
    ensures Step(Split(view), body) == Split(view + Public(body))
  {
    StepSplitValues(view, body);
    StepSplitDeps(view, body);
  }

  lemma StepSplitValues<I(!new)>(view: ClassBody<I>, body: ClassBody<I>)
    ensures Step(Split(view), body).values == Split(view + Public(body)).values
  {
    var l := Step(Split(view), body).values;
    var r := Split(view + Public(body)).values;
    var pub := Public(body);
    forall k
      ensures k in l <==> k in r
      ensures k in l ==> l[k] == r[k]
    {
      if k in pub {
        assert (view + pub)[k] == body[k];
      } else {
        assert k in view ==> (view + pub)[k] == view[k];
      }
    }
  }

  lemma StepSplitDeps<I(!new)>(view: ClassBody<I>, body: ClassBody<I>)
    ensures Step(Split(view), body).deps == Split(view + Public(body)).deps
  {
    var l := Step(Split(view), body).deps;
    var r := Split(view + Public(body)).deps;
    var pub := Public(body);
    forall k
      ensures k in l <==> k in r
      ensures k in l ==> l[k] == r[k]
    {
      if k in pub {
        assert (view + pub)[k] == body[k];
      } else {
        assert k in view ==> (view + pub)[k] == view[k];
      }
    }
  }

  /** The built item agrees with attribute lookup on the item class: a name
      is a plain value exactly when the most specific class declaring it
      declares a plain value, so a subclass overrides only what it
      redeclares. */
  lemma {:induction false} BuildIsClassView<I(!new)>(chain: seq<ClassBody<I>>)
    ensures Build(chain) == Split(ClassView(chain))
    decreases |chain|
  {
    if chain == [] {
      assert Split(ClassView(chain)) == Built(map[], map[]);
    } else {
      BuildIsClassView(chain[..|chain| - 1]);
      StepSplit(ClassView(chain[..|chain| - 1]), chain[|chain| - 1]);
    }
  }

  /** No public name changes kind along the chain. */
  predicate KindStable<I(!new)>(chain: seq<ClassBody<I>>) {
    forall p, q, k :: 0 <= p < q < |chain| && k in chain[p] && k in chain[q] ==> chain[p][k].Const? == chain[q][k].Const?
  }

  /** Every name of the class view comes from some class of the chain. */
  lemma {:induction false} ClassViewFrom<I(!new)>(chain: seq<ClassBody<I>>, k: Name)
    requires k in ClassView(chain)
    ensures exists p :: 0 <= p < |chain| && k in chain[p] && chain[p][k] == ClassView(chain)[k]
    decreases |chain|
  {
    var last := |chain| - 1;
    if k !in Public(chain[last]) {
      ClassViewFrom(chain[..last], k);
      var p :| 0 <= p < |chain[..last]| && k in chain[..last][p] && chain[..last][p][k] == ClassView(chain[..last])[k];
      assert chain[p] == chain[..last][p];
    } else {
      assert chain[last][k] == ClassView(chain)[k];
    }
  }

  /** The walk as written is only wrong when a name changes kind: when none
      does, it builds what the intended walk builds. */
  lemma {:induction false} AsWrittenAgreesWhenKindStable<I(!new)>(chain: seq<ClassBody<I>>)
    requires KindStable(chain)
    ensures BuildAsWritten(chain) == Build(chain)
    decreases |chain|
  {
    if chain != [] {
      var prefix: seq<ClassBody<I>> := chain[..|chain| - 1];
      var body: ClassBody<I> := chain[|chain| - 1];
      KindStableSplit(chain);
      AsWrittenAgreesWhenKindStable(prefix);
      NoKindChange(prefix, body);
      StepsAgree(Build(prefix), body);
    }
  }

  /** The classes before the last one agree on kinds among themselves and
      with the last one. */
  lemma KindStableSplit<I(!new)>(chain: seq<ClassBody<I>>)
    requires chain != [] && KindStable(chain)
    ensures KindStable(chain[..|chain| - 1])
    ensures forall p, k :: 0 <= p < |chain| - 1 && k in chain[p] && k in chain[|chain| - 1] ==>
              chain[..|chain| - 1][p][k].Const? == chain[|chain| - 1][k].Const?
  {
    var prefix: seq<ClassBody<I>> := chain[..|chain| - 1];
    forall p: int, q: int, k: Name | 0 <= p < q < |prefix| && k in prefix[p] && k in prefix[q]
      ensures prefix[p][k].Const? == prefix[q][k].Const?
    {
      assert prefix[p] == chain[p] && prefix[q] == chain[q];
    }
  }

  /** A class that declares no name with another kind than the classes before
      it finds nothing of the other kind to remove. */
  lemma NoKindChange<I(!new)>(prefix: seq<ClassBody<I>>, body: ClassBody<I>)
    requires forall p, k :: 0 <= p < |prefix| && k in prefix[p] && k in body ==> prefix[p][k].Const? == body[k].Const?
    ensures Callables(body).Keys !! Build(prefix).values.Keys
    ensures Consts(body).Keys !! Build(prefix).deps.Keys
  {
    BuildIsClassView(prefix);
    forall k | k in Callables(body) && k in Build(prefix).values
      ensures false
    {
      ClassViewFrom(prefix, k);
    }
    forall k | k in Consts(body) && k in Build(prefix).deps
      ensures false
    {
      ClassViewFrom(prefix, k);
    }
  }

  lemma StepsAgree<I(!new)>(b: Built<I>, body: ClassBody<I>)
    requires Callables(body).Keys !! b.values.Keys && Consts(body).Keys !! b.deps.Keys
    ensures StepAsWritten(b, body) == Step(b, body)
  {
    assert b.values - Callables(body).Keys == b.values;
    assert b.deps - Consts(body).Keys == b.deps;
  }

  // ---------------------------------------------------------------------
  // From the built item to the loader's descriptor

  /** The thunk the build puts in place of a reference to item `j`: while `j`
      is not loaded it asks for `j` to be loaded (with no cause); once it is,
      it yields the backend's primary key of `j`'s instance. An item counted
      but still resolving has no instance yet: reading it fails the same way
      a missing attribute does during resolution. */
  function KeyThunk<I(!new)>(pk: (ItemId, I) -> Value, j: ItemId): (r: Dep<I>)
    ensures forall v: View<I> :: r(v).NeedsItem? || r(v).Ready?
    ensures forall v: View<I> :: r(v).Ready? <==> j in v.slots && v.slots[j].count > 0 && v.slots[j].instance.Some?
    ensures forall v: View<I> :: r(v).Ready? ==> r(v).value == pk(j, v.slots[j].instance.value)
    ensures forall v: View<I> :: r(v).NeedsItem? ==> r(v).item == j
  {
    (v: View<I>) =>
      if j !in v.slots || v.slots[j].count == 0 then NeedsItem(j, NoCause)
      else match v.slots[j].instance
        case Some(inst) => Ready(pk(j, inst))
        case None => NeedsItem(j, MissingAttr(j, "_instance"))
  }

  /** The callable the loader calls for a member of `_deps`. */
  function DepOf<I(!new)>(m: Member<I>, pk: (ItemId, I) -> Value): Dep<I>
    requires !m.Const?
  {
    match m
    case Computed(f) => f
    case Ref(j) => KeyThunk(pk, j)
  }

  /** The loader's descriptor of a built item whose `_deps` are visited in
      the order `order`. */
  function ToDescriptor<I(!new)>(b: Built<I>, order: seq<Name>, pk: (ItemId, I) -> Value): (d: Descriptor<I>)
    requires Distinct(order) && Elems(order) == b.deps.Keys
    requires forall k :: k in b.deps ==> !b.deps[k].Const?
    ensures d.fixed == b.values
    ensures AttrNames(d.attrs) == order
  {
    assert forall p :: 0 <= p < |order| ==> order[p] in Elems(order);
    var attrs := seq(|order|, p requires 0 <= p < |order| => Attr(order[p], DepOf(b.deps[order[p]], pk)));
    assert AttrNames(attrs) == order;
    Descriptor(b.values, attrs)
  }

  /** The values a first load hands to the backend for an item built by the
      intended walk carry exactly the item class's public names, with every
      plain value the class declares unchanged. */
  lemma CreateValuesFollowClass<I(!new)>(chain: seq<ClassBody<I>>, order: seq<Name>, pk: (ItemId, I) -> Value,
                                   cfg: Config<I>, i: ItemId, vals: map<Name, Value>, depth: nat,
                                   vs: seq<Value>, views: seq<View<I>>, from: map<ItemId, Slot<I>>, to: map<ItemId, Slot<I>>)
    requires Distinct(order) && Elems(order) == Build(chain).deps.Keys
    requires OverlaidBy(cfg, i, ToDescriptor(Build(chain), order, pk).attrs, Build(chain).values, vals, depth, vs, views, from, to)
    ensures vals.Keys == ClassView(chain).Keys
    ensures forall k :: k in ClassView(chain) && ClassView(chain)[k].Const? ==> vals[k] == ClassView(chain)[k].value
  {
    BuildIsClassView(chain);
    var d := ToDescriptor(Build(chain), order, pk);
    OverlaidKeys(cfg, i, d.attrs, Build(chain).values, vals, depth, vs, views, from, to);
    assert forall k :: k in Elems(AttrNames(d.attrs)) <==> k in Build(chain).deps;
  }

  /** Once a load of `j` has returned `inst`, the thunk referring to `j`
      yields the primary key of `inst`; before `j` is counted it asks for
      the load. */
  lemma KeyThunkFollowsLoad<S, I(!new)>(pk: (ItemId, I) -> Value, j: ItemId, st: St<S, I>, st': St<S, I>, inst: I,
                                  cfg: Config<I>, depth: nat)
    requires LoadSlots(st, st', j, inst)
    ensures st.slots[j].count == 0 ==> KeyThunk(pk, j)(ViewOf(cfg, st, depth)) == NeedsItem(j, NoCause)
    ensures KeyThunk(pk, j)(ViewOf(cfg, st', depth)) == Ready(pk(j, inst))
  {
  }

  /** An attribute that is the thunk for item `j` returned, in the view it
      was called in, the primary key of `j`'s instance; `j` is not the item
      being resolved, and at the end state it is still counted with that same
      instance. */
  lemma KeyThunkReturned<I(!new)>(pk: (ItemId, I) -> Value, j: ItemId, cfg: Config<I>, i: ItemId, attrs: seq<Attr<I>>,
                                  vs: seq<Value>, views: seq<View<I>>, depth: nat,
                                  from: map<ItemId, Slot<I>>, to: map<ItemId, Slot<I>>, p: nat)
    requires Returned(cfg, i, attrs, vs, views, depth) && Framed(i, views, from, to)
    requires p < |attrs| && attrs[p].compute == KeyThunk(pk, j)
    ensures j != i && j in to && to[j].count > 0 && to[j].instance.Some?
    ensures vs[p] == pk(j, to[j].instance.value)
  {
    FramedAt(i, views, from, to, p);
    var v := views[p];
    assert ResolvingView(cfg, i, v, depth) && attrs[p].compute(v) == Ready(vs[p]);
    assert j in v.slots && v.slots[j].count > 0 && v.slots[j].instance.Some?;
    assert KeptOnLoad(v.slots[j], to[j]);
  }

  /** The value a first load of `i` hands to the backend under the name of a
      reference to item `j` is the primary key of the instance `j` holds once
      the load is over, unless a later attribute overwrites that name. This
      is what lets an item refer to another item's id. */
  lemma FirstLoadKeyValue<S, I(!new)>(b: Backend<S, I>, cfg: Config<I>, i: ItemId, st: St<S, I>,
                                      pk: (ItemId, I) -> Value, j: ItemId, p: nat)
    requires Valid(cfg, st) && Tidy(st) && i in cfg.items && st.slots[i].count == 0
    requires LoadItem(b, cfg, i.fixture, i, st).Ok?
    requires p < |cfg.items[i].attrs| && cfg.items[i].attrs[p].compute == KeyThunk(pk, j)
    requires forall q :: p < q < |cfg.items[i].attrs| ==> cfg.items[i].attrs[q].name != cfg.items[i].attrs[p].name
    ensures var st' := LoadItem(b, cfg, i.fixture, i, st).value.0;
            && st.log <= st'.log
            && var a := ItemTheorems.About(st'.log[|st.log|..], i);
            && |a| == 1 && a[0].CreateEvent?
            && j != i && j in st'.slots && st'.slots[j].count > 0 && st'.slots[j].instance.Some?
            && cfg.items[i].attrs[p].name in a[0].values
            && a[0].values[cfg.items[i].attrs[p].name] == pk(j, st'.slots[j].instance.value)
  {
    var st' := LoadItem(b, cfg, i.fixture, i, st).value.0;
    var vs, views := ItemTheorems.FirstLoadOverlaid(b, cfg, i, st);
    var a := ItemTheorems.About(st'.log[|st.log|..], i);
    KeyThunkReturned(pk, j, cfg, i, cfg.items[i].attrs, vs, views, st.depth + 1, st.slots, st'.slots, p);
    OverlayAt(cfg.items[i].attrs, vs, cfg.items[i].fixed, p);
  }
}

=== FILE: item_theorems.dfy ===
/** Consequences for callers of `load_item` and `unload_item`
    (funfixtures/common.py:125-170): balanced calls undo each other, an item
    loaded from outside survives the unwinding of the items that pulled it in,
    and N loads followed by N unloads make exactly one create/destroy pair. */
module ItemTheorems {
  import opened Common
  import opened FixtureModel
  import opened Loader
  import opened LoadFacts
  import opened UnloadFacts
  import opened RefCount
  import opened RefFacts

  /** On an item that is loaded and published, a further `load_item` and the
      matching `unload_item` leave the state exactly as it was, in either
      order, and the load hands back the stored instance. */
  lemma HeldRoundTrip<S, I(!new)>(b: Backend<S, I>, cfg: Config<I>, i: ItemId, st: St<S, I>)
    requires Valid(cfg, st) && i in cfg.items
    requires st.slots[i].count >= 1 && st.slots[i].instance.Some?
    ensures LoadItem(b, cfg, i.fixture, i, st).Ok?
    ensures LoadItem(b, cfg, i.fixture, i, st).value.1 == st.slots[i].instance.value
    ensures UnloadItem(b, cfg, i.fixture, i, LoadItem(b, cfg, i.fixture, i, st).value.0) == Ok(st)
    ensures st.slots[i].count >= 2 ==>
              && UnloadItem(b, cfg, i.fixture, i, st).Ok?
              && LoadItem(b, cfg, i.fixture, i, UnloadItem(b, cfg, i.fixture, i, st).value)
                 == Ok((st, st.slots[i].instance.value))
  {
    var s := st.slots[i];
    assert st.slots[i := s.(count := s.count + 1)][i := s] == st.slots;
    if s.count >= 2 {
      assert st.slots[i := s.(count := s.count - 1)][i := s] == st.slots;
    }
  }

  /** An item whose count includes a load made from outside (not only
      references from pulled-in lists) is still loaded, with the same
      instance, after any other item is unloaded, however far that unload
      cascades. */
  lemma ExternalSurvives<S, I(!new)>(b: Backend<S, I>, cfg: Config<I>, fix: FixtureId, i: ItemId, q: ItemId, st: St<S, I>)
    requires Valid(cfg, st) && q in st.slots && q != i && Ext(st, q) >= 1
    requires UnloadItem(b, cfg, fix, i, st).Ok?
    ensures UnloadItem(b, cfg, fix, i, st).value.slots[q].count >= 1
    ensures UnloadItem(b, cfg, fix, i, st).value.slots[q].instance == st.slots[q].instance
  {
    var st' := UnloadItem(b, cfg, fix, i, st).value;
    UnloadItemExt(b, cfg, fix, i, st);
    UnloadItemFacts(b, cfg, fix, i, st);
    assert Ext(st', q) == Ext(st, q);
    assert KeptOnUnload(st.slots[q], st'.slots[q]);
  }

  /** A `load_item` followed by the matching `unload_item` leaves every
      item's external count where it was. */
  lemma LoadUnloadBalanced<S, I(!new)>(b: Backend<S, I>, cfg: Config<I>, fix: FixtureId, i: ItemId, st: St<S, I>)
    requires Valid(cfg, st) && Tidy(st)
    requires LoadItem(b, cfg, fix, i, st).Ok?
    requires UnloadItem(b, cfg, fix, i, LoadItem(b, cfg, fix, i, st).value.0).Ok?
    ensures ExtKept(st, UnloadItem(b, cfg, fix, i, LoadItem(b, cfg, fix, i, st).value.0).value)
  {
    var st1 := LoadItem(b, cfg, fix, i, st).value.0;
    LoadItemExt(b, cfg, fix, i, st);
    UnloadItemExt(b, cfg, fix, i, st1);
    ExtMovedCompose(st, st1, UnloadItem(b, cfg, fix, i, st1).value, i, 1, -1);
  }

  /** Loads keep every count covering the pool's references, and so does an
      unload the caller holds a reference for. */
  lemma CoveredKept<S, I(!new)>(b: Backend<S, I>, cfg: Config<I>, fix: FixtureId, i: ItemId, st: St<S, I>)
    requires Valid(cfg, st) && Tidy(st) && Covered(st)
    ensures LoadItem(b, cfg, fix, i, st).Ok? ==> Covered(LoadItem(b, cfg, fix, i, st).value.0)
    ensures UnloadItem(b, cfg, fix, i, st).Ok? && Ext(st, i) >= 1 ==> Covered(UnloadItem(b, cfg, fix, i, st).value)
  {
    if LoadItem(b, cfg, fix, i, st).Ok? {
      LoadItemExt(b, cfg, fix, i, st);
    }
    if UnloadItem(b, cfg, fix, i, st).Ok? {
      UnloadItemExt(b, cfg, fix, i, st);
    }
  }

  /** The backend calls about item `i`, in order. */
  function About<I(!new)>(d: seq<Event<I>>, i: ItemId): (r: seq<Event<I>>)
    ensures forall p :: 0 <= p < |r| ==> r[p].item == i && r[p] in d
  {
    if d == [] then []
    else (if d[0].item == i then [d[0]] else []) + About(d[1..], i)
  }

  lemma {:induction false} AboutAppend<I(!new)>(a: seq<Event<I>>, b: seq<Event<I>>, i: ItemId)
    ensures About(a + b, i) == About(a, i) + About(b, i)
    decreases |a|
  {
    if a != [] {
      assert (a + b)[0] == a[0];
      assert (a + b)[1..] == a[1..] + b;
      AboutAppend(a[1..], b, i);
      var h := if a[0].item == i then [a[0]] else [];
      assert About(a + b, i) == h + About(a[1..] + b, i);
      assert About(a, i) == h + About(a[1..], i);
    } else {
      assert a + b == b;
    }
  }

  /** In a log whose calls are about distinct items, the calls about `i` are
      the one at the position where `i` occurs. */
  lemma {:induction false} AboutDistinct<I(!new)>(d: seq<Event<I>>, i: ItemId, p: nat)
    requires Distinct(EventItems(d)) && p < |d| && d[p].item == i
    ensures About(d, i) == [d[p]]
    decreases |d|
  {
    assert EventItems(d[1..]) == EventItems(d)[1..];
    if p == 0 {
      AboutAbsent(d[1..], i);
    } else {
      AboutDistinct(d[1..], i, p - 1);
    }
  }

  lemma {:induction false} AboutAbsent<I(!new)>(d: seq<Event<I>>, i: ItemId)
    requires i !in EventItems(d)
    ensures About(d, i) == []
    decreases |d|
  {
    if d != [] {
      assert EventItems(d[1..]) == EventItems(d)[1..];
      AboutAbsent(d[1..], i);
    }
  }

  /** `load_item` called `n >= 1` times in a row on one item; yields the
      state after the last call and the instance it returned. Only the first
      call on an unloaded item creates, with values computed in views that
      lie between `st` and the final state; the others return the stored
      instance and raise the count of `i` alone. */
  method RepeatLoad<S, I(!new)>(b: Backend<S, I>, cfg: Config<I>, i: ItemId, n: nat, st: St<S, I>)
      returns (r: Res<(St<S, I>, I)>)
    requires Valid(cfg, st) && Tidy(st) && i in cfg.items && n >= 1
    ensures r.Ok? ==> var (st', inst) := r.value;
              && Valid(cfg, st') && Tidy(st') && st.log <= st'.log
              && st'.slots[i].count == st.slots[i].count + n && st'.slots[i].instance == Some(inst)
    ensures r.Ok? && st.slots[i].count > 0 ==> var (st', inst) := r.value;
              && st'.log == st.log && st.slots[i].instance == Some(inst)
              && st'.slots[i] == st.slots[i].(count := st.slots[i].count + n)
    ensures r.Ok? && st.slots[i].count == 0 ==>
              var a := About(r.value.0.log[|st.log|..], i);
              && |a| == 1 && a[0].CreateEvent?
              && Overlaid(cfg, i, cfg.items[i].attrs, cfg.items[i].fixed, a[0].values, st.depth + 1, st.slots, r.value.0.slots)
  {
    var first := LoadItem(b, cfg, i.fixture, i, st);
    if first.Err? {
      return Err(first.error);
    }
    var (cur, inst) := first.value;
    LoadOnce(b, cfg, i, st);
    ghost var vs: seq<Value>, views: seq<View<I>> := [], [];
    if st.slots[i].count == 0 {
      vs, views := FirstLoadOverlaid(b, cfg, i, st);
    }
    var more := LoadMore(b, cfg, i, n - 1, cur);
    if more.Err? {
      return Err(more.error);
    }
    RepeatLoadResult(cfg, i, n, st, cur, inst, more.value);
    if st.slots[i].count == 0 {
      RepeatLoadCreate(cfg, i, n, st, cur, more.value, vs, views);
    }
    return Ok((more.value, inst));
  }

  /** The result of `RepeatLoad` from what the first load did and the
      `n - 1` loads that only raised the count. */
  lemma RepeatLoadResult<S, I(!new)>(cfg: Config<I>, i: ItemId, n: nat, st: St<S, I>, cur: St<S, I>, inst: I, fin: St<S, I>)
    requires i in cfg.items && n >= 1 && i in st.slots
    requires Valid(cfg, cur) && Tidy(cur) && st.log <= cur.log
    requires cur.slots[i].count == st.slots[i].count + 1 && cur.slots[i].instance == Some(inst)
    requires st.slots[i].count > 0 ==>
               cur == st.(slots := st.slots[i := st.slots[i].(count := st.slots[i].count + 1)]) && st.slots[i].instance == Some(inst)
    requires fin == cur.(slots := cur.slots[i := cur.slots[i].(count := cur.slots[i].count + n - 1)])
    ensures && Valid(cfg, fin) && Tidy(fin) && st.log <= fin.log
            && fin.slots[i].count == st.slots[i].count + n && fin.slots[i].instance == Some(inst)
    ensures st.slots[i].count > 0 ==>
              && fin.log == st.log && st.slots[i].instance == Some(inst)
              && fin.slots[i] == st.slots[i].(count := st.slots[i].count + n)
  {
  }

  /** The create of the first load is the only backend call about `i`, and
      its views lie between `st` and the state after the last load. */
  lemma RepeatLoadCreate<S, I(!new)>(cfg: Config<I>, i: ItemId, n: nat, st: St<S, I>, cur: St<S, I>, fin: St<S, I>,
                                     vs: seq<Value>, views: seq<View<I>>)
    requires i in cfg.items && n >= 1 && i in st.slots && i in cur.slots && st.log <= cur.log
    requires var a := About(cur.log[|st.log|..], i);
             && |a| == 1 && a[0].CreateEvent?
             && OverlaidBy(cfg, i, cfg.items[i].attrs, cfg.items[i].fixed, a[0].values, st.depth + 1, vs, views, st.slots, cur.slots)
    requires fin == cur.(slots := cur.slots[i := cur.slots[i].(count := cur.slots[i].count + n - 1)])
    ensures var a := About(fin.log[|st.log|..], i);
            && |a| == 1 && a[0].CreateEvent?
            && Overlaid(cfg, i, cfg.items[i].attrs, cfg.items[i].fixed, a[0].values, st.depth + 1, st.slots, fin.slots)
  {
    RepeatLoadViews(cfg, i, About(cur.log[|st.log|..], i)[0].values, st.depth + 1, vs, views, st.slots, cur.slots, fin.slots);
  }

  /** `load_item` called `m` more times on an item already held: each call
      raises its count by one and changes nothing else. */
  method LoadMore<S, I(!new)>(b: Backend<S, I>, cfg: Config<I>, i: ItemId, m: nat, st: St<S, I>)
      returns (r: Res<St<S, I>>)
    requires Valid(cfg, st) && Tidy(st) && i in st.slots && st.slots[i].count > 0
    ensures r.Ok? ==> r.value == st.(slots := st.slots[i := st.slots[i].(count := st.slots[i].count + m)])
  {
    var cur := st;
    var k := 0;
    while k < m
      invariant 0 <= k <= m
      invariant cur == st.(slots := st.slots[i := st.slots[i].(count := st.slots[i].count + k)])
      invariant Valid(cfg, cur) && Tidy(cur)
    {
      var next := LoadItem(b, cfg, i.fixture, i, cur);
      if next.Err? {
        return Err(next.error);
      }
      LoadAgain(b, cfg, i, cur);
      cur := next.value.0;
      k := k + 1;
    }
    return Ok(cur);
  }

  /** What the first of the repeated loads leaves for the others. */
  lemma LoadOnce<S, I(!new)>(b: Backend<S, I>, cfg: Config<I>, i: ItemId, st: St<S, I>)
    requires Valid(cfg, st) && Tidy(st) && i in st.slots
    requires LoadItem(b, cfg, i.fixture, i, st).Ok?
    ensures var (st', inst) := LoadItem(b, cfg, i.fixture, i, st).value;
            && Valid(cfg, st') && Tidy(st') && st.log <= st'.log
            && st'.slots[i].count == st.slots[i].count + 1 && st'.slots[i].instance == Some(inst)
            && (st.slots[i].count > 0 ==> st' == st.(slots := st.slots[i := st.slots[i].(count := st.slots[i].count + 1)])
                                          && st.slots[i].instance == Some(inst))
  {
    LoadItemSlots(b, cfg, i.fixture, i, st);
  }

  /** A load of an item already held only raises its count. */
  lemma LoadAgain<S, I(!new)>(b: Backend<S, I>, cfg: Config<I>, i: ItemId, st: St<S, I>)
    requires Valid(cfg, st) && Tidy(st) && i in st.slots && st.slots[i].count > 0
    requires LoadItem(b, cfg, i.fixture, i, st).Ok?
    ensures var (st', inst) := LoadItem(b, cfg, i.fixture, i, st).value;
            && st' == st.(slots := st.slots[i := st.slots[i].(count := st.slots[i].count + 1)])
            && st.slots[i].instance == Some(inst) && Tidy(st')
  {
    LoadItemSlots(b, cfg, i.fixture, i, st);
  }

  /** The one backend call about `i` that a first load makes. */
  lemma FirstLoadOverlaid<S, I(!new)>(b: Backend<S, I>, cfg: Config<I>, i: ItemId, st: St<S, I>)
      returns (vs: seq<Value>, views: seq<View<I>>)
    requires Valid(cfg, st) && Tidy(st) && i in cfg.items && st.slots[i].count == 0
    requires LoadItem(b, cfg, i.fixture, i, st).Ok?
    ensures var st' := LoadItem(b, cfg, i.fixture, i, st).value.0;
            && st.log <= st'.log
            && var a := About(st'.log[|st.log|..], i);
            && |a| == 1 && a[0].CreateEvent?
            && OverlaidBy(cfg, i, cfg.items[i].attrs, cfg.items[i].fixed, a[0].values, st.depth + 1, vs, views, st.slots, st'.slots)
  {
    var at, rviews;
    vs, views, at, rviews := LoadItemFacts(b, cfg, i.fixture, i, st);
    FirstCreateAbout(cfg, i, st, LoadItem(b, cfg, i.fixture, i, st).value.0);
  }

  /** Loads that only raise the count of `i` keep the views of its first
      load between the start and the new end. */
  lemma RepeatLoadViews<I(!new)>(cfg: Config<I>, i: ItemId, vals: map<Name, Value>, depth: nat, vs: seq<Value>, views: seq<View<I>>,
                                 from: map<ItemId, Slot<I>>, to: map<ItemId, Slot<I>>, to': map<ItemId, Slot<I>>)
    requires i in cfg.items && i in from && i in to && to'.Keys == to.Keys
    requires forall q :: q in to && q != i ==> to'[q] == to[q]
    requires OverlaidBy(cfg, i, cfg.items[i].attrs, cfg.items[i].fixed, vals, depth, vs, views, from, to)
    ensures OverlaidBy(cfg, i, cfg.items[i].attrs, cfg.items[i].fixed, vals, depth, vs, views, from, to')
  {
    SlotsKeptAt(i, from, from[i]);
    assert to' == to[i := to'[i]];
    SlotsKeptAt(i, to, to'[i]);
    OverlaidReframe(cfg, i, cfg.items[i].attrs, cfg.items[i].fixed, vals, depth, vs, views, from, to, from, to');
  }

  /** The first load of an unloaded item makes exactly one backend call about
      it: the create whose values overlay the fixed ones. */
  lemma FirstCreateAbout<S, I(!new)>(cfg: Config<I>, i: ItemId, st: St<S, I>, st': St<S, I>)
    requires i in st.slots && st.slots[i].count == 0 && i in st'.slots && st'.slots[i].count > 0
    requires CreatesExactly(st, st')
    requires |st'.log| > 0 && st'.log[|st'.log| - 1].CreateEvent? && st'.log[|st'.log| - 1].item == i
    ensures var a := About(st'.log[|st.log|..], i);
            |a| == 1 && a[0] == st'.log[|st'.log| - 1]
  {
    var d := st'.log[|st.log|..];
    assert i in NewlyLoaded(st, st');
    assert |d| > 0;
    assert d[|d| - 1] == st'.log[|st'.log| - 1];
    AboutDistinct(d, i, |d| - 1);
  }

  /** `unload_item` called `n >= 1` times in a row on one item. While the
      count stays positive nothing but the count moves; the call that brings
      it to zero makes exactly one backend call about the item, the destroy
      of its stored instance, and leaves the item in its initial state. */
  method RepeatUnload<S, I(!new)>(b: Backend<S, I>, cfg: Config<I>, i: ItemId, n: nat, st: St<S, I>)
      returns (r: Res<St<S, I>>)
    requires Valid(cfg, st) && n >= 1
    ensures r.Ok? ==>
              && Valid(cfg, r.value) && st.log <= r.value.log
              && i in st.slots && st.slots[i].count >= n && r.value.slots[i].count == st.slots[i].count - n
    ensures r.Ok? && st.slots[i].count > n ==>
              && r.value.log == st.log && r.value.slots[i] == st.slots[i].(count := st.slots[i].count - n)
    ensures r.Ok? && st.slots[i].count == n ==>
              && st.slots[i].instance.Some? && r.value.slots[i] == Idle()
              && About(r.value.log[|st.log|..], i) == [DestroyEvent(i, st.slots[i].instance.value)]
  {
    var cur := st;
    var k := 0;
    while k < n
      invariant 0 <= k <= n
      invariant Valid(cfg, cur) && st.log <= cur.log
      invariant k > 0 ==> i in st.slots && i in cur.slots && cur.slots[i].count + k == st.slots[i].count
      invariant k == 0 ==> cur == st
      invariant k > 0 && cur.slots[i].count > 0 ==>
                  cur.log == st.log && cur.slots[i] == st.slots[i].(count := st.slots[i].count - k)
      invariant k > 0 && cur.slots[i].count == 0 ==>
                  && st.slots[i].instance.Some? && cur.slots[i] == Idle()
                  && About(cur.log[|st.log|..], i) == [DestroyEvent(i, st.slots[i].instance.value)]
    {
      var next := UnloadItem(b, cfg, i.fixture, i, cur);
      if next.Err? {
        return Err(next.error);
      }
      UnloadItemFacts(b, cfg, i.fixture, i, cur);
      assert KeptOnUnload(cur.slots[i], next.value.slots[i]);
      if cur.slots[i].count == 1 {
        LastDestroyAbout(i, st, cur, next.value);
      }
      cur := next.value;
      k := k + 1;
    }
    return Ok(cur);
  }

  /** The unload that brings an item to zero adds exactly one backend call
      about it, right after an unchanged log. */
  lemma LastDestroyAbout<S, I(!new)>(i: ItemId, st: St<S, I>, cur: St<S, I>, st': St<S, I>)
    requires cur.log == st.log && DestroysExactly(cur, st')
    requires |st'.log| > |cur.log| && st'.log[|cur.log|].item == i
    ensures About(st'.log[|st.log|..], i) == [st'.log[|cur.log|]]
  {
    AboutDistinct(st'.log[|st.log|..], i, 0);
  }

  /** N calls of `load_item` on an item at count 0 followed by N calls of
      `unload_item` make exactly two backend calls about it: the create, with
      its fixed values overlaid by its computed ones, then the destroy of the
      instance the loads returned; the item ends in its initial state. On an
      item already loaded the same calls leave its slot and the log as they
      were. `peak` is the state between the loads and the unloads. */
  method LoadThenUnload<S, I(!new)>(b: Backend<S, I>, cfg: Config<I>, i: ItemId, n: nat, st: St<S, I>)
      returns (r: Res<(St<S, I>, I)>, ghost peak: St<S, I>)
    requires Valid(cfg, st) && Tidy(st) && i in cfg.items && n >= 1
    ensures r.Ok? ==> i in st.slots && i in r.value.0.slots && st.log <= r.value.0.log && r.value.0.slots[i] == st.slots[i]
    ensures r.Ok? && st.slots[i].count > 0 ==> r.value.0.log == st.log
    ensures r.Ok? && st.slots[i].count == 0 ==>
              var a := About(r.value.0.log[|st.log|..], i);
              && |a| == 2
              && a[0].CreateEvent? && a[1] == DestroyEvent(i, r.value.1)
              && Overlaid(cfg, i, cfg.items[i].attrs, cfg.items[i].fixed, a[0].values, st.depth + 1, st.slots, peak.slots)
              && i in peak.slots && peak.slots[i].count == n && peak.slots[i].instance == Some(r.value.1)
  {
    peak := st;
    var loaded := RepeatLoad(b, cfg, i, n, st);
    if loaded.Err? {
      return Err(loaded.error), peak;
    }
    var (mid, inst) := loaded.value;
    peak := mid;
    var unloaded := RepeatUnload(b, cfg, i, n, mid);
    if unloaded.Err? {
      return Err(unloaded.error), peak;
    }
    var st' := unloaded.value;
    assert st'.log[|st.log|..] == mid.log[|st.log|..] + st'.log[|mid.log|..];
    AboutAppend(mid.log[|st.log|..], st'.log[|mid.log|..], i);
    return Ok((st', inst)), peak;
  }

  /** An attribute that keeps asking for the same item `j` however often it
      is called: its first request is honoured (the item is recorded among
      the pulled-in ones and loaded) and, once that load succeeds, the second
      identical request aborts `load_item` with the cause the attribute gave.
      The only other outcome is the failure of loading `j` itself. */
  lemma RequestHonouredOnce<S, I(!new)>(b: Backend<S, I>, cfg: Config<I>, i: ItemId, k: nat, values: map<Name, Value>,
                                  tried: seq<ItemId>, st: St<S, I>, j: ItemId, c: Fault)
    requires Valid(cfg, st) && i in cfg.items && k < |cfg.items[i].attrs|
    requires forall v :: cfg.items[i].attrs[k].compute(v) == NeedsItem(j, c)
    ensures var r := Resolve(b, cfg, i, k, values, tried, st);
            var st1 := st.(slots := st.slots[i := st.slots[i].(pulled := st.slots[i].pulled + [j])]);
            && r.Err?
            && (j in tried || LoadItem(b, cfg, j.fixture, j, st1).Ok? ==> r.error == Repeated(i, cfg.items[i].attrs[k].name, j, c))
            && (j !in tried && LoadItem(b, cfg, j.fixture, j, st1).Err? ==> r.error == LoadItem(b, cfg, j.fixture, j, st1).error)
  {
    var a := cfg.items[i].attrs[k];
    assert a.compute(ViewOf(cfg, st, st.depth + 1)) == NeedsItem(j, c);
    if j !in tried {
      var st1 := st.(slots := st.slots[i := st.slots[i].(pulled := st.slots[i].pulled + [j])]);
      match LoadItem(b, cfg, j.fixture, j, st1)
      case Err(_) =>
      case Ok((st2, _)) =>
        assert a.compute(ViewOf(cfg, st2, st2.depth + 1)) == NeedsItem(j, c);
    }
  }
}

=== FILE: load_facts.dfy ===
/** What `load_item` guarantees (funfixtures/common.py:125-154), proved by
    induction along the loader's own recursion. */
module LoadFacts {
  import opened Common
  import opened FixtureModel
  import opened Loader

  /** Unloaded items sit in their initial state: no instance, nothing pulled in. */
  ghost predicate Tidy<S, I(!new)>(st: St<S, I>) {
    forall k :: k in st.slots && st.slots[k].count == 0 ==> st.slots[k] == Idle()
  }

  /** How a load may change the slot of an item other than the one being
      loaded: its count never drops; an item already held keeps its instance
      and pulled-in list; one still resolving is not touched; one left at zero
      is not touched; one newly loaded is published. */
  ghost predicate KeptOnLoad<I(!new)>(s: Slot<I>, s': Slot<I>) {
    && s'.count >= s.count
    && (s.count > 0 ==> s'.instance == s.instance && s'.pulled == s.pulled)
    && (s.count > 0 && s.instance.None? ==> s' == s)
    && (s'.count == 0 ==> s' == s)
    && (s.count == 0 && s'.count > 0 ==> s'.instance.Some?)
  }

  ghost predicate OthersKeptOnLoad<S, I(!new)>(st: St<S, I>, st': St<S, I>, i: ItemId)
    requires st'.slots.Keys == st.slots.Keys
  {
    forall k :: k in st.slots && k != i ==> KeptOnLoad(st.slots[k], st'.slots[k])
  }

  lemma KeptOnLoadTrans<I(!new)>(s: Slot<I>, s': Slot<I>, s'': Slot<I>)
    requires KeptOnLoad(s, s') && KeptOnLoad(s', s'')
    ensures KeptOnLoad(s, s'')
  {
  }

  lemma OthersKeptTrans<S, I(!new)>(st: St<S, I>, st': St<S, I>, st'': St<S, I>, i: ItemId)
    requires st'.slots.Keys == st.slots.Keys && st''.slots.Keys == st.slots.Keys
    requires OthersKeptOnLoad(st, st', i) && OthersKeptOnLoad(st', st'', i)
    ensures OthersKeptOnLoad(st, st'', i)
  {
    forall k | k in st.slots && k != i
      ensures KeptOnLoad(st.slots[k], st''.slots[k])
    {
      KeptOnLoadTrans(st.slots[k], st'.slots[k], st''.slots[k]);
    }
  }

  /** The items the given backend calls were about, in call order. */
  function EventItems<I(!new)>(log: seq<Event<I>>): (r: seq<ItemId>)
    ensures |r| == |log| && forall p :: 0 <= p < |log| ==> r[p] == log[p].item
  {
    seq(|log|, p requires 0 <= p < |log| => log[p].item)
  }

  /** The log grew by `create_item_instance` calls only, one for each item
      this step took from count 0 to a positive count and for no other. */
  ghost predicate CreatesExactly<S, I(!new)>(st: St<S, I>, st': St<S, I>) {
    && st.log <= st'.log
    && var d := st'.log[|st.log|..];
    && (forall p :: 0 <= p < |d| ==> d[p].CreateEvent?)
    && Distinct(EventItems(d))
    && Elems(EventItems(d)) == NewlyLoaded(st, st')
  }

  ghost function NewlyLoaded<S, I(!new)>(st: St<S, I>, st': St<S, I>): set<ItemId> {
    set k | k in st.slots && k in st'.slots && st.slots[k].count == 0 && st'.slots[k].count > 0
  }

  lemma EventItemsAppend<I(!new)>(a: seq<Event<I>>, b: seq<Event<I>>)
    ensures EventItems(a + b) == EventItems(a) + EventItems(b)
  {
  }

  lemma CreatesCompose<S, I(!new)>(st: St<S, I>, st': St<S, I>, st'': St<S, I>)
    requires Grows(st, st') && Grows(st', st'')
    requires CreatesExactly(st, st') && CreatesExactly(st', st'')
    ensures CreatesExactly(st, st'')
  {
    var d1 := st'.log[|st.log|..];
    var d2 := st''.log[|st'.log|..];
    assert st''.log[|st.log|..] == d1 + d2;
    EventItemsAppend(d1, d2);
    var n1 := NewlyLoaded(st, st');
    var n2 := NewlyLoaded(st', st'');
    assert n1 !! n2;
    assert NewlyLoaded(st, st'') == n1 + n2;
    assert Elems(EventItems(d1) + EventItems(d2)) == Elems(EventItems(d1)) + Elems(EventItems(d2));
    var e := EventItems(d1) + EventItems(d2);
    forall p, q | 0 <= p < q < |e| ensures e[p] != e[q] {
      if q >= |d1| && p < |d1| {
        assert e[p] in Elems(EventItems(d1)) && e[q] in Elems(EventItems(d2));
      }
    }
  }

  /** A step that moves no count and calls no backend creates nothing. */
  lemma CreatesNothing<S, I(!new)>(st: St<S, I>, st': St<S, I>)
    requires Grows(st, st') && Grows(st', st) && st'.log == st.log
    ensures CreatesExactly(st, st')
  {
    assert NewlyLoaded(st, st') == {};
    assert st'.log[|st.log|..] == [];
  }

  /** `base` updated, attribute by attribute in order, with the values `vs`. */
  function Overlay<I(!new)>(attrs: seq<Attr<I>>, vs: seq<Value>, base: map<Name, Value>): map<Name, Value>
    requires |vs| == |attrs|
    decreases |attrs|
  {
    if attrs == [] then base else Overlay(attrs[1..], vs[1..], base[attrs[0].name := vs[0]])
  }

  /** Every item other than `i` went from its slot in `from` to its slot in
      `to` the way a load moves it. */
  ghost predicate SlotsKept<I(!new)>(i: ItemId, from: map<ItemId, Slot<I>>, to: map<ItemId, Slot<I>>) {
    && to.Keys == from.Keys
    && forall q {:trigger KeptOnLoad(from[q], to[q])} :: q in from && q != i ==> KeptOnLoad(from[q], to[q])
  }

  lemma SlotsKeptTrans<I(!new)>(i: ItemId, a: map<ItemId, Slot<I>>, b: map<ItemId, Slot<I>>, c: map<ItemId, Slot<I>>)
    requires SlotsKept(i, a, b) && SlotsKept(i, b, c)
    ensures SlotsKept(i, a, c)
  {
    forall q | q in a && q != i
      ensures KeptOnLoad(a[q], c[q])
    {
      KeptOnLoadTrans(a[q], b[q], c[q]);
    }
  }

  /** Changing the slot of `i` alone keeps every other item where it was. */
  lemma SlotsKeptAt<I(!new)>(i: ItemId, a: map<ItemId, Slot<I>>, s: Slot<I>)
    requires i in a
    ensures SlotsKept(i, a, a[i := s]) && SlotsKept(i, a[i := s], a)
  {
  }

  /** `v` is a view a computed attribute of `i` is called in: at resolving
      depth `depth`, onto the class attributes of `cfg`, with `i` counted but
      not yet published. */
  ghost predicate ResolvingView<I(!new)>(cfg: Config<I>, i: ItemId, v: View<I>, depth: nat) {
    && v.depth == depth && v.fixed == Classes(cfg)
    && i in v.slots && v.slots[i].count > 0 && v.slots[i].instance.None?
  }

  /** Every item other than `i` sits in `v` part of the way from its slot in
      `from` to its slot in `to`. */
  ghost predicate Between<I(!new)>(i: ItemId, v: View<I>, from: map<ItemId, Slot<I>>, to: map<ItemId, Slot<I>>) {
    SlotsKept(i, from, v.slots) && SlotsKept(i, v.slots, to)
  }

  /** Every view of `views` is `Between` `from` and `to`. */
  ghost predicate Framed<I(!new)>(i: ItemId, views: seq<View<I>>, from: map<ItemId, Slot<I>>, to: map<ItemId, Slot<I>>)
    decreases |views|
  {
    views != [] ==> Between(i, views[0], from, to) && Framed(i, views[1..], from, to)
  }

  lemma {:induction false} FramedAt<I(!new)>(i: ItemId, views: seq<View<I>>, from: map<ItemId, Slot<I>>, to: map<ItemId, Slot<I>>, p: nat)
    requires Framed(i, views, from, to) && p < |views|
    ensures Between(i, views[p], from, to)
    decreases p
  {
    if p > 0 {
      FramedAt(i, views[1..], from, to, p - 1);
    }
  }

  lemma FramedCons<I(!new)>(i: ItemId, v: View<I>, views: seq<View<I>>, from: map<ItemId, Slot<I>>, to: map<ItemId, Slot<I>>)
    requires Between(i, v, from, to) && Framed(i, views, from, to)
    ensures Framed(i, [v] + views, from, to)
  {
    assert ([v] + views)[1..] == views;
  }

  /** Views between two states stay between when the first state is moved
      earlier or the second later. */
  lemma {:induction false} FramedReframe<I(!new)>(i: ItemId, views: seq<View<I>>, from: map<ItemId, Slot<I>>, to: map<ItemId, Slot<I>>,
                                                  from': map<ItemId, Slot<I>>, to': map<ItemId, Slot<I>>)
    requires Framed(i, views, from, to)
    requires SlotsKept(i, from', from) && SlotsKept(i, to, to')
    ensures Framed(i, views, from', to')
    decreases |views|
  {
    if views != [] {
      SlotsKeptTrans(i, from', from, views[0].slots);
      SlotsKeptTrans(i, views[0].slots, to, to');
      FramedReframe(i, views[1..], from, to, from', to');
    }
  }

  /** The view of a state of the attribute loop of `i` that ends in `to`. */
  lemma ViewOfLoading<S, I(!new)>(cfg: Config<I>, i: ItemId, st: St<S, I>, depth: nat, to: map<ItemId, Slot<I>>)
    requires i in st.slots && st.slots[i].count > 0 && st.slots[i].instance.None?
    requires SlotsKept(i, st.slots, to)
    ensures ResolvingView(cfg, i, ViewOf(cfg, st, depth), depth) && Between(i, ViewOf(cfg, st, depth), st.slots, to)
  {
  }

  /** Attribute `p` of `attrs` returned `vs[p]` when it was called in the
      resolving view `views[p]`. */
  ghost predicate Returned<I(!new)>(cfg: Config<I>, i: ItemId, attrs: seq<Attr<I>>, vs: seq<Value>, views: seq<View<I>>, depth: nat) {
    && |vs| == |attrs| && |views| == |attrs|
    && forall p :: 0 <= p < |attrs| ==>
         ResolvingView(cfg, i, views[p], depth) && attrs[p].compute(views[p]) == Ready(vs[p])
  }

  /** The items `items` were requested, in this order, by the attributes of
      `attrs` at positions `at`, which start at `k` and never go back, each
      called in the resolving view `rviews[m]` (`PleaseLoadItem`), every one
      of them between `from` and `to`. */
  ghost predicate Requested<I(!new)>(cfg: Config<I>, i: ItemId, attrs: seq<Attr<I>>, k: nat, items: seq<ItemId>,
                                     at: seq<nat>, rviews: seq<View<I>>, depth: nat,
                                     from: map<ItemId, Slot<I>>, to: map<ItemId, Slot<I>>) {
    && |at| == |items| && |rviews| == |items|
    && (forall m :: 0 <= m < |items| ==>
          && k <= at[m] < |attrs| && ResolvingView(cfg, i, rviews[m], depth)
          && attrs[at[m]].compute(rviews[m]).NeedsItem? && attrs[at[m]].compute(rviews[m]).item == items[m])
    && (forall m, m' :: 0 <= m < m' < |items| ==> at[m] <= at[m'])
    && Framed(i, rviews, from, to)
  }

  lemma RequestedLater<I(!new)>(cfg: Config<I>, i: ItemId, attrs: seq<Attr<I>>, k: nat, items: seq<ItemId>,
                                at: seq<nat>, rviews: seq<View<I>>, depth: nat,
                                from: map<ItemId, Slot<I>>, to: map<ItemId, Slot<I>>)
    requires Requested(cfg, i, attrs, k + 1, items, at, rviews, depth, from, to)
    ensures Requested(cfg, i, attrs, k, items, at, rviews, depth, from, to)
  {
  }

  /** A request by attribute `k` comes before the requests of the rest of
      the loop. */
  lemma RequestedCons<I(!new)>(cfg: Config<I>, i: ItemId, attrs: seq<Attr<I>>, k: nat, j: ItemId, view: View<I>,
                               items: seq<ItemId>, at: seq<nat>, rviews: seq<View<I>>, depth: nat,
                               from: map<ItemId, Slot<I>>, to: map<ItemId, Slot<I>>)
    requires k < |attrs| && ResolvingView(cfg, i, view, depth) && Between(i, view, from, to)
    requires attrs[k].compute(view).NeedsItem? && attrs[k].compute(view).item == j
    requires Requested(cfg, i, attrs, k, items, at, rviews, depth, from, to)
    ensures Requested(cfg, i, attrs, k, [j] + items, [k] + at, [view] + rviews, depth, from, to)
  {
    var at' := [k] + at;
    forall m, m' | 0 <= m < m' < |at'| ensures at'[m] <= at'[m'] {
      if m > 0 {
        assert at'[m] == at[m - 1] && at'[m'] == at[m' - 1];
      }
    }
    FramedCons(i, view, rviews, from, to);
  }

  lemma RequestedReframe<I(!new)>(cfg: Config<I>, i: ItemId, attrs: seq<Attr<I>>, k: nat, items: seq<ItemId>,
                                  at: seq<nat>, rviews: seq<View<I>>, depth: nat,
                                  from: map<ItemId, Slot<I>>, to: map<ItemId, Slot<I>>,
                                  from': map<ItemId, Slot<I>>, to': map<ItemId, Slot<I>>)
    requires Requested(cfg, i, attrs, k, items, at, rviews, depth, from, to)
    requires SlotsKept(i, from', from) && SlotsKept(i, to, to')
    ensures Requested(cfg, i, attrs, k, items, at, rviews, depth, from', to')
  {
    FramedReframe(i, rviews, from, to, from', to');
  }

  /** `vals` is `base` overlaid, attribute by attribute in order, with the
      values `vs` the attributes returned in `views`, each view lying between
      the slots `from` and `to` of the load of `i`: the values a first load
      hands to the backend (`values[k] = v()`). */
  ghost predicate OverlaidBy<I(!new)>(cfg: Config<I>, i: ItemId, attrs: seq<Attr<I>>, base: map<Name, Value>,
                                      vals: map<Name, Value>, depth: nat, vs: seq<Value>, views: seq<View<I>>,
                                      from: map<ItemId, Slot<I>>, to: map<ItemId, Slot<I>>) {
    Returned(cfg, i, attrs, vs, views, depth) && Framed(i, views, from, to) && vals == Overlay(attrs, vs, base)
  }

  /** Some run of the attributes, as `OverlaidBy` describes it, gave `vals`. */
  ghost predicate Overlaid<I(!new)>(cfg: Config<I>, i: ItemId, attrs: seq<Attr<I>>, base: map<Name, Value>,
                                    vals: map<Name, Value>, depth: nat, from: map<ItemId, Slot<I>>, to: map<ItemId, Slot<I>>) {
    exists vs: seq<Value>, views: seq<View<I>> :: OverlaidBy(cfg, i, attrs, base, vals, depth, vs, views, from, to)
  }

  lemma OverlaidReframe<I(!new)>(cfg: Config<I>, i: ItemId, attrs: seq<Attr<I>>, base: map<Name, Value>,
                                 vals: map<Name, Value>, depth: nat, vs: seq<Value>, views: seq<View<I>>,
                                 from: map<ItemId, Slot<I>>, to: map<ItemId, Slot<I>>,
                                 from': map<ItemId, Slot<I>>, to': map<ItemId, Slot<I>>)
    requires OverlaidBy(cfg, i, attrs, base, vals, depth, vs, views, from, to)
    requires SlotsKept(i, from', from) && SlotsKept(i, to, to')
    ensures OverlaidBy(cfg, i, attrs, base, vals, depth, vs, views, from', to')
  {
    FramedReframe(i, views, from, to, from', to');
  }

  /** An overlay keeps every fixed value whose name no attribute computes and
      adds exactly the computed names. */
  lemma {:induction false} OverlayKeys<I(!new)>(attrs: seq<Attr<I>>, vs: seq<Value>, base: map<Name, Value>)
    requires |vs| == |attrs|
    ensures Overlay(attrs, vs, base).Keys == base.Keys + Elems(AttrNames(attrs))
    ensures forall n :: n in base && n !in AttrNames(attrs) ==> Overlay(attrs, vs, base)[n] == base[n]
    decreases |attrs|
  {
    if attrs != [] {
      OverlayKeys(attrs[1..], vs[1..], base[attrs[0].name := vs[0]]);
      assert AttrNames(attrs) == [attrs[0].name] + AttrNames(attrs[1..]);
    }
  }

  /** The value an overlay holds under the name of attribute `p` is the one
      that attribute returned, when no later attribute has the same name. */
  lemma {:induction false} OverlayAt<I(!new)>(attrs: seq<Attr<I>>, vs: seq<Value>, base: map<Name, Value>, p: nat)
    requires |vs| == |attrs| && p < |attrs|
    requires forall q :: p < q < |attrs| ==> attrs[q].name != attrs[p].name
    ensures attrs[p].name in Overlay(attrs, vs, base) && Overlay(attrs, vs, base)[attrs[p].name] == vs[p]
    decreases |attrs|
  {
    var rest := Overlay(attrs[1..], vs[1..], base[attrs[0].name := vs[0]]);
    if p == 0 {
      OverlayKeys(attrs[1..], vs[1..], base[attrs[0].name := vs[0]]);
      assert attrs[0].name !in AttrNames(attrs[1..]) by {
        forall q | 0 <= q < |attrs[1..]| ensures AttrNames(attrs[1..])[q] != attrs[0].name {
          assert attrs[1..][q] == attrs[q + 1];
        }
      }
    } else {
      forall q | p - 1 < q < |attrs[1..]| ensures attrs[1..][q].name != attrs[1..][p - 1].name {
        assert attrs[1..][q] == attrs[q + 1];
      }
      OverlayAt(attrs[1..], vs[1..], base[attrs[0].name := vs[0]], p - 1);
    }
  }

  lemma OverlaidKeys<I(!new)>(cfg: Config<I>, i: ItemId, attrs: seq<Attr<I>>, base: map<Name, Value>,
                              vals: map<Name, Value>, depth: nat, vs: seq<Value>, views: seq<View<I>>,
                              from: map<ItemId, Slot<I>>, to: map<ItemId, Slot<I>>)
    requires OverlaidBy(cfg, i, attrs, base, vals, depth, vs, views, from, to)
    ensures vals.Keys == base.Keys + Elems(AttrNames(attrs))
    ensures forall n :: n in base && n !in AttrNames(attrs) ==> vals[n] == base[n]
  {
    OverlayKeys(attrs, vs, base);
  }

  /** Attribute `k` returning `v` in `view` extends an overlay of the rest. */
  lemma OverlaidCons<I(!new)>(cfg: Config<I>, i: ItemId, attrs: seq<Attr<I>>, k: nat, view: View<I>, v: Value,
                              values: map<Name, Value>, vals: map<Name, Value>, vs: seq<Value>, views: seq<View<I>>,
                              from: map<ItemId, Slot<I>>, to: map<ItemId, Slot<I>>)
    requires k < |attrs| && attrs[k].compute(view) == Ready(v)
    requires ResolvingView(cfg, i, view, view.depth) && Between(i, view, from, to)
    requires OverlaidBy(cfg, i, attrs[k + 1..], values[attrs[k].name := v], vals, view.depth, vs, views, from, to)
    ensures OverlaidBy(cfg, i, attrs[k..], values, vals, view.depth, [v] + vs, [view] + views, from, to)
  {
    assert attrs[k..][1..] == attrs[k + 1..];
    assert ([v] + vs)[1..] == vs;
    assert vals == Overlay(attrs[k..], [v] + vs, values);
    forall p | 0 <= p < |attrs[k..]|
      ensures ResolvingView(cfg, i, ([view] + views)[p], view.depth)
      ensures attrs[k..][p].compute(([view] + views)[p]) == Ready(([v] + vs)[p])
    {
      if p > 0 {
        assert attrs[k..][p] == attrs[k + 1..][p - 1];
      }
    }
    FramedCons(i, view, views, from, to);
  }

  /** How one `load_item` call on `i` that returned `inst` changes the slots. */
  ghost predicate LoadSlots<S, I(!new)>(st: St<S, I>, st': St<S, I>, i: ItemId, inst: I) {
    && i in st.slots && Grows(st, st') && Tidy(st')
    && var s := st.slots[i];
    && st'.slots[i].count == s.count + 1
    && st'.slots[i].instance == Some(inst)
    && (s.count > 0 ==> s.instance == Some(inst) && st' == st.(slots := st.slots[i := s.(count := s.count + 1)]))
    && OthersKeptOnLoad(st, st', i)
  }

  /** How the attribute loop of item `i`, entered with the requests `tried`
      already honoured, changes the slots. */
  ghost predicate PullSlots<S, I(!new)>(st: St<S, I>, st': St<S, I>, i: ItemId, tried: seq<ItemId>) {
    && i in st.slots && Grows(st, st') && Tidy(st')
    && var pulled := st'.slots[i].pulled;
    && st'.slots[i] == st.slots[i].(pulled := pulled)
    && tried <= pulled && Distinct(pulled) && Elems(pulled) <= st.slots.Keys
    && (forall p :: |tried| <= p < |pulled| ==> st'.slots[pulled[p]].count > st.slots[pulled[p]].count)
    && OthersKeptOnLoad(st, st', i)
  }

  /** Every `load_item` call raises the count by exactly one and leaves the
      item published. A call on an item that is already loaded changes nothing
      but the count and returns the stored instance, so no backend call
      happens. Otherwise the backend is called once for every item taken from
      count 0, the last call being for `i` itself with its fixed values
      overlaid by the values of its computed attributes, each computed in a
      view where every other item lies between its slot before and after the
      call; the items `i` pulled in are the ones its attributes requested, in
      request order. */
  lemma {:induction false} LoadItemFacts<S, I(!new)>(b: Backend<S, I>, cfg: Config<I>, fix: FixtureId, i: ItemId, st: St<S, I>)
      returns (vs: seq<Value>, views: seq<View<I>>, at: seq<nat>, rviews: seq<View<I>>)
    requires Valid(cfg, st) && Tidy(st)
    requires LoadItem(b, cfg, fix, i, st).Ok?
    ensures i.fixture == fix
    ensures var (st', inst) := LoadItem(b, cfg, fix, i, st).value;
            LoadSlots(st, st', i, inst) && CreatesExactly(st, st')
    ensures var st' := LoadItem(b, cfg, fix, i, st).value.0;
            st.slots[i].count == 0 ==> i in cfg.items && i in st'.slots && FirstLoaded(cfg, i, st, st', vs, views, at, rviews)
    decreases Unloaded(st), 0, 0, 0, 1
  {
    if st.slots[i].count == 0 {
      vs, views, at, rviews := FirstLoadFacts(b, cfg, fix, i, st);
    } else {
      vs, views, at, rviews := [], [], [], [];
    }
  }

  /** The part of `LoadItemFacts` a request inside the attribute loop needs. */
  lemma {:induction false} LoadItemSlots<S, I(!new)>(b: Backend<S, I>, cfg: Config<I>, fix: FixtureId, i: ItemId, st: St<S, I>)
    requires Valid(cfg, st) && Tidy(st)
    requires LoadItem(b, cfg, fix, i, st).Ok?
    ensures var (st', inst) := LoadItem(b, cfg, fix, i, st).value;
            LoadSlots(st, st', i, inst) && CreatesExactly(st, st')
    decreases Unloaded(st), 0, 0, 0, 2
  {
    var _, _, _, _ := LoadItemFacts(b, cfg, fix, i, st);
  }

  /** `load_item` on an item at count 0: mark it, run its attribute loop,
      create its instance. */
  lemma {:induction false} FirstLoadFacts<S, I(!new)>(b: Backend<S, I>, cfg: Config<I>, fix: FixtureId, i: ItemId, st: St<S, I>)
      returns (vs: seq<Value>, views: seq<View<I>>, at: seq<nat>, rviews: seq<View<I>>)
    requires Valid(cfg, st) && Tidy(st)
    requires LoadItem(b, cfg, fix, i, st).Ok? && st.slots[i].count == 0
    ensures i in cfg.items
    ensures var (st', inst) := LoadItem(b, cfg, fix, i, st).value;
            && LoadSlots(st, st', i, inst) && CreatesExactly(st, st')
            && FirstLoaded(cfg, i, st, st', vs, views, at, rviews)
    decreases Unloaded(st), 0, 0, 0, 0
  {
    var s := st.slots[i];
    var st1 := st.(slots := st.slots[i := s.(count := 1, pulled := [])]);
    FirstLoadUnfolds(b, cfg, fix, i, st);
    MarkLoadingUnloaded(st, st1, i);
    MarkLoadingTidy(st, st1, i);
    vs, views, at, rviews := ResolveFacts(b, cfg, i, 0, cfg.items[i].fixed, [], st1);
    var (st2, values) := Resolve(b, cfg, i, 0, cfg.items[i].fixed, [], st1).value;
    var c := b.create(st2.store, i, values);
    FirstLoadStep(i, values, c.store, c.instance, st, st1, st2);
    FirstLoadDone(cfg, i, values, c.store, c.instance, [], st, st1, st2, vs, views, at, rviews);
  }

  /** What a first load of `i` from `st` that ended in `st'` did besides
      moving the slots: its last backend call was for `i` itself, with values
      overlaid as `OverlaidBy` says, and it pulled in the items its
      attributes requested, in request order. */
  ghost predicate FirstLoaded<S, I(!new)>(cfg: Config<I>, i: ItemId, st: St<S, I>, st': St<S, I>,
                                          vs: seq<Value>, views: seq<View<I>>, at: seq<nat>, rviews: seq<View<I>>)
    requires i in cfg.items && i in st'.slots
  {
    && |st'.log| > 0 && st'.log[|st'.log| - 1].CreateEvent? && st'.log[|st'.log| - 1].item == i
    && OverlaidBy(cfg, i, cfg.items[i].attrs, cfg.items[i].fixed, st'.log[|st'.log| - 1].values, st.depth + 1,
                  vs, views, st.slots, st'.slots)
    && Requested(cfg, i, cfg.items[i].attrs, 0, st'.slots[i].pulled, at, rviews, st.depth + 1, st.slots, st'.slots)
  }

  /** A first load that marked `i`, ran its attribute loop from `st1` to
      `st2` and created `inst` is a `FirstLoaded` step. */
  lemma FirstLoadDone<S, I(!new)>(cfg: Config<I>, i: ItemId, values: map<Name, Value>, store: S, inst: I, tried: seq<ItemId>,
                                  st: St<S, I>, st1: St<S, I>, st2: St<S, I>,
                                  vs: seq<Value>, views: seq<View<I>>, at: seq<nat>, rviews: seq<View<I>>)
    requires i in cfg.items && i in st.slots && i in st2.slots && tried == []
    requires st1 == st.(slots := st.slots[i := st.slots[i].(count := 1, pulled := [])])
    requires OverlaidBy(cfg, i, cfg.items[i].attrs[0..], cfg.items[i].fixed, values, st1.depth + 1, vs, views, st1.slots, st2.slots)
    requires Requested(cfg, i, cfg.items[i].attrs, 0, st2.slots[i].pulled[|tried|..], at, rviews, st1.depth + 1, st1.slots, st2.slots)
    ensures var st3 := st2.(slots := st2.slots[i := st2.slots[i].(instance := Some(inst))],
                            store := store, log := st2.log + [CreateEvent(i, values)]);
            FirstLoaded(cfg, i, st, st3, vs, views, at, rviews)
  {
    var st3 := st2.(slots := st2.slots[i := st2.slots[i].(instance := Some(inst))],
                    store := store, log := st2.log + [CreateEvent(i, values)]);
    assert st3.log[|st3.log| - 1].values == values;
    assert st2.slots[i].pulled[|tried|..] == st2.slots[i].pulled[0..];
    FirstLoadViews(cfg, i, st.slots, st1.slots, st2.slots, st3.slots, inst, st.depth + 1, values, vs, views, at, rviews);
  }

  /** The views of the attribute loop of a first load lie between the slots
      before the load and the slots after its instance is published. */
  lemma FirstLoadViews<I(!new)>(cfg: Config<I>, i: ItemId, from: map<ItemId, Slot<I>>, from1: map<ItemId, Slot<I>>,
                                to2: map<ItemId, Slot<I>>, to: map<ItemId, Slot<I>>, inst: I, depth: nat, values: map<Name, Value>,
                                vs: seq<Value>, views: seq<View<I>>, at: seq<nat>, rviews: seq<View<I>>)
    requires i in cfg.items && i in from && i in to2
    requires from1 == from[i := from[i].(count := 1, pulled := [])]
    requires OverlaidBy(cfg, i, cfg.items[i].attrs[0..], cfg.items[i].fixed, values, depth, vs, views, from1, to2)
    requires Requested(cfg, i, cfg.items[i].attrs, 0, to2[i].pulled[0..], at, rviews, depth, from1, to2)
    requires to == to2[i := to2[i].(instance := Some(inst))]
    ensures OverlaidBy(cfg, i, cfg.items[i].attrs, cfg.items[i].fixed, values, depth, vs, views, from, to)
    ensures Requested(cfg, i, cfg.items[i].attrs, 0, to[i].pulled, at, rviews, depth, from, to)
  {
    var attrs := cfg.items[i].attrs;
    assert attrs[0..] == attrs;
    SlotsKeptAt(i, from, from[i].(count := 1, pulled := []));
    SlotsKeptAt(i, to2, to2[i].(instance := Some(inst)));
    OverlaidReframe(cfg, i, attrs, cfg.items[i].fixed, values, depth, vs, views, from1, to2, from, to);
    RequestedReframe(cfg, i, attrs, 0, to2[i].pulled[0..], at, rviews, depth, from1, to2, from, to);
    assert to2[i].pulled[0..] == to[i].pulled;
  }

  lemma MarkLoadingTidy<S, I(!new)>(st: St<S, I>, st1: St<S, I>, i: ItemId)
    requires Tidy(st) && i in st.slots && st.slots[i].count == 0
    requires st1 == st.(slots := st.slots[i := st.slots[i].(count := 1, pulled := [])])
    ensures Tidy(st1) && st1.slots[i] == Slot(1, None, [])
  {
  }

  /** Chains marking, the attribute loop and the creation of a first load. */
  lemma FirstLoadStep<S, I(!new)>(i: ItemId, values: map<Name, Value>, store: S, inst: I, st: St<S, I>, st1: St<S, I>, st2: St<S, I>)
    requires Tidy(st) && i in st.slots && st.slots[i].count == 0
    requires st1 == st.(slots := st.slots[i := st.slots[i].(count := 1, pulled := [])])
    requires PullSlots(st1, st2, i, []) && CreatesExactly(st1, st2)
    ensures var st3 := st2.(slots := st2.slots[i := st2.slots[i].(instance := Some(inst))],
                            store := store, log := st2.log + [CreateEvent(i, values)]);
            && LoadSlots(st, st3, i, inst) && CreatesExactly(st, st3)
            && st3.log[|st3.log| - 1] == CreateEvent(i, values)
  {
    var st3 := st2.(slots := st2.slots[i := st2.slots[i].(instance := Some(inst))],
                    store := store, log := st2.log + [CreateEvent(i, values)]);
    FirstLoadSlots(i, inst, st, st1, st2, st3);
    FirstLoadCreates(i, values, st, st1, st2, st3);
  }

  /** The successful path of a first load, step by step. */
  lemma FirstLoadUnfolds<S, I(!new)>(b: Backend<S, I>, cfg: Config<I>, fix: FixtureId, i: ItemId, st: St<S, I>)
    requires Valid(cfg, st)
    requires LoadItem(b, cfg, fix, i, st).Ok? && st.slots[i].count == 0
    ensures i in cfg.items
    ensures var st1 := st.(slots := st.slots[i := st.slots[i].(count := 1, pulled := [])]);
            && Resolve(b, cfg, i, 0, cfg.items[i].fixed, [], st1).Ok?
            && var (st2, values) := Resolve(b, cfg, i, 0, cfg.items[i].fixed, [], st1).value;
            && b.create(st2.store, i, values).Created?
            && var c := b.create(st2.store, i, values);
            && LoadItem(b, cfg, fix, i, st).value
               == (st2.(slots := st2.slots[i := st2.slots[i].(instance := Some(c.instance))],
                        store := c.store, log := st2.log + [CreateEvent(i, values)]), c.instance)
  {
  }

  /** The slots after a first load: the item is marked as loading, its
      attribute loop runs, and it is published with the created instance. */
  lemma FirstLoadSlots<S, I(!new)>(i: ItemId, inst: I, st: St<S, I>, st1: St<S, I>, st2: St<S, I>, st3: St<S, I>)
    requires Tidy(st) && i in st.slots && st.slots[i].count == 0
    requires st1 == st.(slots := st.slots[i := st.slots[i].(count := 1, pulled := [])])
    requires PullSlots(st1, st2, i, [])
    requires st3.slots == st2.slots[i := st2.slots[i].(instance := Some(inst))]
    ensures LoadSlots(st, st3, i, inst)
  {
    assert st.slots[i] == Idle();
    assert OthersKeptOnLoad(st, st1, i);
    assert OthersKeptOnLoad(st2, st3, i);
    OthersKeptTrans(st, st1, st2, i);
    OthersKeptTrans(st, st2, st3, i);
  }

  /** The log after a first load: what the attribute loop created, then `i`. */
  lemma FirstLoadCreates<S, I(!new)>(i: ItemId, values: map<Name, Value>, st: St<S, I>, st1: St<S, I>, st2: St<S, I>, st3: St<S, I>)
    requires i in st.slots && st.slots[i].count == 0
    requires st1.slots == st.slots[i := st.slots[i].(count := 1, pulled := [])] && st1.log == st.log
    requires Grows(st1, st2) && CreatesExactly(st1, st2)
    requires st3.slots.Keys == st2.slots.Keys && st3.slots[i].count == st2.slots[i].count
    requires forall k :: k in st2.slots ==> st3.slots[k].count == st2.slots[k].count
    requires st3.log == st2.log + [CreateEvent(i, values)]
    ensures CreatesExactly(st, st3)
  {
    var d := st2.log[|st1.log|..];
    assert st3.log[|st.log|..] == d + [CreateEvent(i, values)];
    EventItemsAppend(d, [CreateEvent(i, values)]);
    assert EventItems<I>([CreateEvent(i, values)]) == [i];
    assert i !in Elems(EventItems(d));
    assert NewlyLoaded(st, st3) == NewlyLoaded(st1, st2) + {i};
    ElemsAppend(EventItems(d), i);
    DistinctAppend(EventItems(d), i);
  }

  /** The attribute loop keeps the loading item's count and (absent)
      instance, only appends the items it pulls in, each distinct and each
      now loaded once more, treats every other item as a load does, and
      overlays the values it was given with one value per remaining
      attribute, each computed in a view between the loop's start and end;
      the items it appends are the ones the remaining attributes requested,
      in request order. */
  lemma {:induction false} ResolveFacts<S, I(!new)>(b: Backend<S, I>, cfg: Config<I>, i: ItemId, k: nat, values: map<Name, Value>,
                                              tried: seq<ItemId>, st: St<S, I>)
      returns (vs: seq<Value>, views: seq<View<I>>, at: seq<nat>, rviews: seq<View<I>>)
    requires Valid(cfg, st) && Tidy(st) && i in cfg.items && k <= |cfg.items[i].attrs|
    requires st.slots[i].count > 0 && st.slots[i].instance.None?
    requires st.slots[i].pulled == tried && Distinct(tried) && Elems(tried) <= cfg.items.Keys
    requires Resolve(b, cfg, i, k, values, tried, st).Ok?
    ensures var (st', vals) := Resolve(b, cfg, i, k, values, tried, st).value;
            LoopResult(cfg, i, k, values, tried, st, st', vals, vs, views, at, rviews)
    decreases Unloaded(st), 1, |cfg.items[i].attrs| - k, |cfg.items.Keys - Elems(tried)|, 2
  {
    if k == |cfg.items[i].attrs| {
      LoopEnd(cfg, i, k, values, tried, st);
      vs, views, at, rviews := [], [], [], [];
    } else {
      vs, views, at, rviews := ResolveStepFacts(b, cfg, i, k, values, tried, st);
    }
  }

  /** One attribute of the loop: it is ready, or it requests an item. */
  lemma {:induction false} ResolveStepFacts<S, I(!new)>(b: Backend<S, I>, cfg: Config<I>, i: ItemId, k: nat, values: map<Name, Value>,
                                                  tried: seq<ItemId>, st: St<S, I>)
      returns (vs: seq<Value>, views: seq<View<I>>, at: seq<nat>, rviews: seq<View<I>>)
    requires Valid(cfg, st) && Tidy(st) && i in cfg.items && k < |cfg.items[i].attrs|
    requires st.slots[i].count > 0 && st.slots[i].instance.None?
    requires st.slots[i].pulled == tried && Distinct(tried) && Elems(tried) <= cfg.items.Keys
    requires Resolve(b, cfg, i, k, values, tried, st).Ok?
    ensures var (st', vals) := Resolve(b, cfg, i, k, values, tried, st).value;
            LoopResult(cfg, i, k, values, tried, st, st', vals, vs, views, at, rviews)
    decreases Unloaded(st), 1, |cfg.items[i].attrs| - k, |cfg.items.Keys - Elems(tried)|, 1
  {
    ResolveNotRaised(b, cfg, i, k, values, tried, st);
    match cfg.items[i].attrs[k].compute(ViewOf(cfg, st, st.depth + 1))
    case Ready(v) =>
      vs, views, at, rviews := ResolveReadyFacts(b, cfg, i, k, values, tried, st, v);
    case NeedsItem(j, cause) =>
      vs, views, at, rviews := ResolvePullFacts(b, cfg, i, k, values, tried, st, j);
  }

  /** A ready attribute: the rest of the loop, with its value and view put in front. */
  lemma {:induction false} ResolveReadyFacts<S, I(!new)>(b: Backend<S, I>, cfg: Config<I>, i: ItemId, k: nat, values: map<Name, Value>,
                                                   tried: seq<ItemId>, st: St<S, I>, v: Value)
      returns (vs: seq<Value>, views: seq<View<I>>, at: seq<nat>, rviews: seq<View<I>>)
    requires Valid(cfg, st) && Tidy(st) && i in cfg.items && k < |cfg.items[i].attrs|
    requires st.slots[i].count > 0 && st.slots[i].instance.None?
    requires st.slots[i].pulled == tried && Distinct(tried) && Elems(tried) <= cfg.items.Keys
    requires cfg.items[i].attrs[k].compute(ViewOf(cfg, st, st.depth + 1)) == Ready(v)
    requires Resolve(b, cfg, i, k, values, tried, st).Ok?
    ensures var (st', vals) := Resolve(b, cfg, i, k, values, tried, st).value;
            LoopResult(cfg, i, k, values, tried, st, st', vals, vs, views, at, rviews)
    ensures Resolve(b, cfg, i, k + 1, values[cfg.items[i].attrs[k].name := v], tried, st) == Resolve(b, cfg, i, k, values, tried, st)
    decreases Unloaded(st), 1, |cfg.items[i].attrs| - k, |cfg.items.Keys - Elems(tried)|, 0
  {
    var a := cfg.items[i].attrs[k];
    vs, views, at, rviews := ResolveFacts(b, cfg, i, k + 1, values[a.name := v], tried, st);
    var (st', vals) := Resolve(b, cfg, i, k + 1, values[a.name := v], tried, st).value;
    ResolveReadyStep(cfg, i, k, tried, st, st', v, values, vals, vs, views, at, rviews);
    vs, views := [v] + vs, [ViewOf(cfg, st, st.depth + 1)] + views;
  }

  /** A ready attribute adds its value and view in front of the rest of the
      loop, and its own view lies between the loop's start and end. */
  lemma ResolveReadyStep<S, I(!new)>(cfg: Config<I>, i: ItemId, k: nat, tried: seq<ItemId>, st: St<S, I>, st': St<S, I>,
                                     v: Value, values: map<Name, Value>, vals: map<Name, Value>, vs: seq<Value>, views: seq<View<I>>,
                                     at: seq<nat>, rviews: seq<View<I>>)
    requires i in cfg.items && k < |cfg.items[i].attrs| && i in st.slots && st.slots[i].count > 0 && st.slots[i].instance.None?
    requires cfg.items[i].attrs[k].compute(ViewOf(cfg, st, st.depth + 1)) == Ready(v)
    requires LoopResult(cfg, i, k + 1, values[cfg.items[i].attrs[k].name := v], tried, st, st', vals, vs, views, at, rviews)
    ensures LoopResult(cfg, i, k, values, tried, st, st', vals, [v] + vs, [ViewOf(cfg, st, st.depth + 1)] + views, at, rviews)
  {
    var attrs := cfg.items[i].attrs;
    var d := st.depth + 1;
    PullSlotsKept(st, st', i, tried);
    ViewOfLoading(cfg, i, st, d, st'.slots);
    OverlaidCons(cfg, i, attrs, k, ViewOf(cfg, st, d), v, values, vals, vs, views, st.slots, st'.slots);
    RequestedLater(cfg, i, attrs, k, st'.slots[i].pulled[|tried|..], at, rviews, d, st.slots, st'.slots);
  }

  /** An attribute loop with no attribute left returns what it was given. */
  lemma LoopEnd<S, I(!new)>(cfg: Config<I>, i: ItemId, k: nat, values: map<Name, Value>, tried: seq<ItemId>, st: St<S, I>)
    requires Tidy(st) && i in cfg.items && k == |cfg.items[i].attrs| && i in st.slots
    requires st.slots[i].pulled == tried && Distinct(tried) && Elems(tried) <= st.slots.Keys
    ensures LoopResult(cfg, i, k, values, tried, st, st, values, [], [], [], [])
  {
    CreatesNothing(st, st);
    assert cfg.items[i].attrs[k..] == [];
    assert st.slots[i].pulled[|tried|..] == [];
  }

  /** The slots of a finished attribute loop are a possible end of a load's
      views. */
  lemma PullSlotsKept<S, I(!new)>(st: St<S, I>, st': St<S, I>, i: ItemId, tried: seq<ItemId>)
    requires PullSlots(st, st', i, tried)
    ensures SlotsKept(i, st.slots, st'.slots)
  {
  }

  /** What the attribute loop of `i` from attribute `k` on, entered in `st`
      with the requests `tried` already honoured, did when it ended in `st'`
      with the values `vals`: see `ResolveFacts`. */
  ghost predicate LoopResult<S, I(!new)>(cfg: Config<I>, i: ItemId, k: nat, values: map<Name, Value>, tried: seq<ItemId>,
                                         st: St<S, I>, st': St<S, I>, vals: map<Name, Value>, vs: seq<Value>, views: seq<View<I>>,
                                         at: seq<nat>, rviews: seq<View<I>>)
    requires i in cfg.items && k <= |cfg.items[i].attrs|
  {
    && PullSlots(st, st', i, tried) && CreatesExactly(st, st')
    && OverlaidBy(cfg, i, cfg.items[i].attrs[k..], values, vals, st.depth + 1, vs, views, st.slots, st'.slots)
    && Requested(cfg, i, cfg.items[i].attrs, k, st'.slots[i].pulled[|tried|..], at, rviews, st.depth + 1, st.slots, st'.slots)
  }

  /** The step of the attribute loop that honours a request for item `j`. */
  lemma {:induction false} ResolvePullFacts<S, I(!new)>(b: Backend<S, I>, cfg: Config<I>, i: ItemId, k: nat, values: map<Name, Value>,
                                                  tried: seq<ItemId>, st: St<S, I>, j: ItemId)
      returns (vs: seq<Value>, views: seq<View<I>>, at: seq<nat>, rviews: seq<View<I>>)
    requires Valid(cfg, st) && Tidy(st) && i in cfg.items && k < |cfg.items[i].attrs|
    requires st.slots[i].count > 0 && st.slots[i].instance.None?
    requires st.slots[i].pulled == tried && Distinct(tried) && Elems(tried) <= cfg.items.Keys
    requires cfg.items[i].attrs[k].compute(ViewOf(cfg, st, st.depth + 1)).NeedsItem?
    requires cfg.items[i].attrs[k].compute(ViewOf(cfg, st, st.depth + 1)).item == j
    requires Resolve(b, cfg, i, k, values, tried, st).Ok?
    ensures var (st', vals) := Resolve(b, cfg, i, k, values, tried, st).value;
            && LoopResult(cfg, i, k, values, tried, st, st', vals, vs, views, at, rviews)
            && |st'.slots[i].pulled| > |tried| && st'.slots[i].pulled[|tried|] == j
    decreases Unloaded(st), 1, |cfg.items[i].attrs| - k, |cfg.items.Keys - Elems(tried)|, 0
  {
    var st1 := st.(slots := st.slots[i := st.slots[i].(pulled := st.slots[i].pulled + [j])]);
    ResolvePullUnfolds(b, cfg, i, k, values, tried, st, j);
    RecordPullKeepsCounts(st, i, j);
    RecordPullTidy(st, st1, i, j);
    LoadItemSlots(b, cfg, j.fixture, j, st1);
    var (st2, inst) := LoadItem(b, cfg, j.fixture, j, st1).value;
    LoadKeepsResolving(st1, st2, i, j, inst);
    GrowsUnloaded(st1, st2);
    UntriedShrinks(cfg.items.Keys, tried, j);
    ElemsAppend(tried, j);
    DistinctAppend(tried, j);
    var rat, rrviews;
    vs, views, rat, rrviews := ResolveFacts(b, cfg, i, k, values, tried + [j], st2);
    var (st', vals) := Resolve(b, cfg, i, k, values, tried + [j], st2).value;
    PullTail(cfg, i, k, j, inst, tried, st, st1, st2, st', vals, vs, views, values, rat, rrviews);
    at, rviews := [k] + rat, [ViewOf(cfg, st, st.depth + 1)] + rrviews;
    LoopResultOf(cfg, i, k, values, tried, st, st', vals, vs, views, at, rviews);
  }

  /** The result of the loop resumed after a request for `j`, seen from
      before the request, with the request put in front. */
  lemma PullTail<S, I(!new)>(cfg: Config<I>, i: ItemId, k: nat, j: ItemId, inst: I, tried: seq<ItemId>,
                             st: St<S, I>, st1: St<S, I>, st2: St<S, I>, st': St<S, I>, vals: map<Name, Value>,
                             vs: seq<Value>, views: seq<View<I>>, values: map<Name, Value>, at: seq<nat>, rviews: seq<View<I>>)
    requires i in cfg.items && k < |cfg.items[i].attrs| && i in st.slots && j in st.slots && j !in tried && j != i
    requires Tidy(st) && Tidy(st1)
    requires st.slots[i].count > 0 && st.slots[i].instance.None? && st.slots[i].pulled == tried
    requires cfg.items[i].attrs[k].compute(ViewOf(cfg, st, st.depth + 1)).NeedsItem?
    requires cfg.items[i].attrs[k].compute(ViewOf(cfg, st, st.depth + 1)).item == j
    requires st1 == st.(slots := st.slots[i := st.slots[i].(pulled := tried + [j])])
    requires LoadSlots(st1, st2, j, inst) && CreatesExactly(st1, st2) && st2.depth == st.depth
    requires LoopResult(cfg, i, k, values, tried + [j], st2, st', vals, vs, views, at, rviews)
    ensures PullSlots(st, st', i, tried) && CreatesExactly(st, st')
    ensures OverlaidBy(cfg, i, cfg.items[i].attrs[k..], values, vals, st.depth + 1, vs, views, st.slots, st'.slots)
    ensures Requested(cfg, i, cfg.items[i].attrs, k, st'.slots[i].pulled[|tried|..], [k] + at,
                      [ViewOf(cfg, st, st.depth + 1)] + rviews, st.depth + 1, st.slots, st'.slots)
    ensures |st'.slots[i].pulled| > |tried| && st'.slots[i].pulled[|tried|] == j
  {
    PullStepSlots(i, tried, j, inst, st, st1, st2, st');
    PullViews(cfg, i, k, j, tried, st, st2.slots, st'.slots, vals, vs, views, values, at, rviews, st2.depth + 1, |tried + [j]|);
  }

  lemma LoopResultOf<S, I(!new)>(cfg: Config<I>, i: ItemId, k: nat, values: map<Name, Value>, tried: seq<ItemId>,
                                 st: St<S, I>, st': St<S, I>, vals: map<Name, Value>, vs: seq<Value>, views: seq<View<I>>,
                                 at: seq<nat>, rviews: seq<View<I>>)
    requires i in cfg.items && k <= |cfg.items[i].attrs|
    requires PullSlots(st, st', i, tried) && CreatesExactly(st, st')
    requires OverlaidBy(cfg, i, cfg.items[i].attrs[k..], values, vals, st.depth + 1, vs, views, st.slots, st'.slots)
    requires Requested(cfg, i, cfg.items[i].attrs, k, st'.slots[i].pulled[|tried|..], at, rviews, st.depth + 1, st.slots, st'.slots)
    ensures LoopResult(cfg, i, k, values, tried, st, st', vals, vs, views, at, rviews)
  {
  }

  lemma PullStepSlots<S, I(!new)>(i: ItemId, tried: seq<ItemId>, j: ItemId, inst: I,
                                  st: St<S, I>, st1: St<S, I>, st2: St<S, I>, st': St<S, I>)
    requires i in st.slots && j in st.slots && j !in tried && j != i
    requires Tidy(st)
    requires st.slots[i].count > 0 && st.slots[i].instance.None? && st.slots[i].pulled == tried
    requires st1 == st.(slots := st.slots[i := st.slots[i].(pulled := tried + [j])])
    requires LoadSlots(st1, st2, j, inst) && CreatesExactly(st1, st2)
    requires PullSlots(st2, st', i, tried + [j]) && CreatesExactly(st2, st')
    ensures PullSlots(st, st', i, tried) && CreatesExactly(st, st')
    ensures |st'.slots[i].pulled| > |tried| && st'.slots[i].pulled[|tried|] == j
    ensures SlotsKept(i, st.slots, st2.slots) && SlotsKept(i, st.slots, st'.slots)
  {
    PullSlotsCompose(i, tried, j, inst, st, st1, st2, st');
    CreatesNothing(st, st1);
    CreatesCompose(st, st1, st2);
    CreatesCompose(st, st2, st');
    PullSlotsKept(st, st', i, tried);
  }

  /** Reframes the rest of the loop after a honoured request to start where
      the request was made, and puts the request in front. The rest of the
      loop is given at its own depth `d` and from pulled-in position `n`,
      which are those of the request. */
  lemma PullViews<S, I(!new)>(cfg: Config<I>, i: ItemId, k: nat, j: ItemId, tried: seq<ItemId>, st: St<S, I>,
                              mid: map<ItemId, Slot<I>>, to: map<ItemId, Slot<I>>, vals: map<Name, Value>, vs: seq<Value>, views: seq<View<I>>,
                              values: map<Name, Value>, at: seq<nat>, rviews: seq<View<I>>, d: nat, n: nat)
    requires i in cfg.items && k < |cfg.items[i].attrs| && i in st.slots && st.slots[i].count > 0 && st.slots[i].instance.None?
    requires cfg.items[i].attrs[k].compute(ViewOf(cfg, st, st.depth + 1)).NeedsItem?
    requires cfg.items[i].attrs[k].compute(ViewOf(cfg, st, st.depth + 1)).item == j
    requires SlotsKept(i, st.slots, mid) && SlotsKept(i, st.slots, to)
    requires i in to && |to[i].pulled| > |tried| && to[i].pulled[|tried|] == j
    requires d == st.depth + 1 && n == |tried| + 1
    requires OverlaidBy(cfg, i, cfg.items[i].attrs[k..], values, vals, d, vs, views, mid, to)
    requires Requested(cfg, i, cfg.items[i].attrs, k, to[i].pulled[n..], at, rviews, d, mid, to)
    ensures OverlaidBy(cfg, i, cfg.items[i].attrs[k..], values, vals, st.depth + 1, vs, views, st.slots, to)
    ensures Requested(cfg, i, cfg.items[i].attrs, k, to[i].pulled[|tried|..], [k] + at,
                      [ViewOf(cfg, st, st.depth + 1)] + rviews, st.depth + 1, st.slots, to)
  {
    var attrs := cfg.items[i].attrs;
    var d := st.depth + 1;
    SlotsKeptAt(i, to, to[i]);
    OverlaidReframe(cfg, i, attrs[k..], values, vals, d, vs, views, mid, to, st.slots, to);
    RequestedReframe(cfg, i, attrs, k, to[i].pulled[|tried| + 1..], at, rviews, d, mid, to, st.slots, to);
    ViewOfLoading(cfg, i, st, d, to);
    RequestedCons(cfg, i, attrs, k, j, ViewOf(cfg, st, d), to[i].pulled[|tried| + 1..], at, rviews, d, st.slots, to);
    assert [j] + to[i].pulled[|tried| + 1..] == to[i].pulled[|tried|..];
  }

  lemma RecordPullTidy<S, I(!new)>(st: St<S, I>, st1: St<S, I>, i: ItemId, j: ItemId)
    requires Tidy(st) && i in st.slots && st.slots[i].count > 0
    requires st1 == st.(slots := st.slots[i := st.slots[i].(pulled := st.slots[i].pulled + [j])])
    ensures Tidy(st1)
  {
  }

  /** Loading another item leaves an item that is still resolving alone. */
  lemma LoadKeepsResolving<S, I(!new)>(st1: St<S, I>, st2: St<S, I>, i: ItemId, j: ItemId, inst: I)
    requires LoadSlots(st1, st2, j, inst) && i in st1.slots && i != j
    requires st1.slots[i].count > 0 && st1.slots[i].instance.None?
    ensures st2.slots[i] == st1.slots[i] && Tidy(st2)
  {
    assert KeptOnLoad(st1.slots[i], st2.slots[i]);
  }

  /** A loop that succeeds met no attribute that raised. */
  lemma ResolveNotRaised<S, I(!new)>(b: Backend<S, I>, cfg: Config<I>, i: ItemId, k: nat, values: map<Name, Value>,
                                     tried: seq<ItemId>, st: St<S, I>)
    requires Valid(cfg, st) && i in cfg.items && k < |cfg.items[i].attrs|
    requires Resolve(b, cfg, i, k, values, tried, st).Ok?
    ensures !cfg.items[i].attrs[k].compute(ViewOf(cfg, st, st.depth + 1)).Raised?
  {
  }

  /** A honoured request is a load of `j` followed by a retry. */
  lemma ResolvePullUnfolds<S, I(!new)>(b: Backend<S, I>, cfg: Config<I>, i: ItemId, k: nat, values: map<Name, Value>,
                                 tried: seq<ItemId>, st: St<S, I>, j: ItemId)
    requires Valid(cfg, st) && i in cfg.items && k < |cfg.items[i].attrs|
    requires st.slots[i].count > 0 && st.slots[i].instance.None?
    requires cfg.items[i].attrs[k].compute(ViewOf(cfg, st, st.depth + 1)).NeedsItem?
    requires cfg.items[i].attrs[k].compute(ViewOf(cfg, st, st.depth + 1)).item == j
    requires Resolve(b, cfg, i, k, values, tried, st).Ok?
    ensures j !in tried && j != i
    ensures var st1 := st.(slots := st.slots[i := st.slots[i].(pulled := st.slots[i].pulled + [j])]);
            && LoadItem(b, cfg, j.fixture, j, st1).Ok? && LoadItem(b, cfg, j.fixture, j, st1).value.0.depth == st.depth
            && Resolve(b, cfg, i, k, values, tried, st)
               == Resolve(b, cfg, i, k, values, tried + [j], LoadItem(b, cfg, j.fixture, j, st1).value.0)
  {
  }

  /** Chains the slot changes of a honoured request: recording `j`, loading
      it, and the rest of the attribute loop. */
  lemma PullSlotsCompose<S, I(!new)>(i: ItemId, tried: seq<ItemId>, j: ItemId, inst: I,
                               st: St<S, I>, st1: St<S, I>, st2: St<S, I>, st': St<S, I>)
    requires i in st.slots && j in st.slots && j !in tried && j != i
    requires Tidy(st)
    requires st.slots[i].count > 0 && st.slots[i].instance.None? && st.slots[i].pulled == tried
    requires st1 == st.(slots := st.slots[i := st.slots[i].(pulled := tried + [j])])
    requires LoadSlots(st1, st2, j, inst)
    requires PullSlots(st2, st', i, tried + [j])
    ensures PullSlots(st, st', i, tried)
    ensures |st'.slots[i].pulled| > |tried| && st'.slots[i].pulled[|tried|] == j
    ensures SlotsKept(i, st.slots, st2.slots)
  {
    var pulled := st'.slots[i].pulled;
    // i is still resolving, so loading j leaves its slot alone.
    assert KeptOnLoad(st1.slots[i], st2.slots[i]);
    assert st2.slots[i] == st1.slots[i];
    assert pulled[|tried|] == j;
    assert OthersKeptOnLoad(st, st1, i);
    assert OthersKeptOnLoad(st1, st2, i) by {
      forall k | k in st1.slots && k != i
        ensures KeptOnLoad(st1.slots[k], st2.slots[k])
      {
        if k == j {
          assert st1.slots[j] == st.slots[j];
        }
      }
    }
    OthersKeptTrans(st, st1, st2, i);
    OthersKeptTrans(st, st2, st', i);
    forall p | |tried| <= p < |pulled|
      ensures st'.slots[pulled[p]].count > st.slots[pulled[p]].count
    {
      var q := pulled[p];
      assert q != i by { assert q in Elems(pulled); }
    }
  }
}

=== FILE: loader.dfy ===
/** The reference-counted loader of funfixtures/common.py: `load_item`,
    `unload_item`, the mass `load` / `unload` over a fixture's inheritance
    chain and the decorator, as functions threading an immutable state. */
module Loader {
  import opened Common
  import opened FixtureModel

  /** `load_item`: raises the item's count; only the call that takes it from 0
      to 1 resolves the computed attributes (loading whatever they request)
      and asks the backend for an instance. Returns the new state and the
      item's instance. */
  function LoadItem<S, I(!new)>(b: Backend<S, I>, cfg: Config<I>, fix: FixtureId, i: ItemId, st: St<S, I>): (r: Res<(St<S, I>, I)>)
    requires Valid(cfg, st)
    ensures r.Ok? ==> i.fixture == fix && i in cfg.items && Valid(cfg, r.value.0) && Grows(st, r.value.0)
    ensures r.Ok? ==> r.value.0.depth == st.depth
    decreases Unloaded(st), 0, 0, 0
  {
    if i.fixture != fix then Err(WrongFixture(i, fix))
    else if i !in cfg.items then Err(UnknownItem(i))
    else
      var s := st.slots[i];
      if s.count >= 1 then
        // Re-entry: only the count moves. An item still resolving has no
        // instance to hand back.
        match s.instance
        case Some(inst) => Ok((st.(slots := st.slots[i := s.(count := s.count + 1)]), inst))
        case None => Err(Reentered(i))
      else
        var st1 := st.(slots := st.slots[i := s.(count := 1, pulled := [])]);
        MarkLoadingUnloaded(st, st1, i);
        match Resolve(b, cfg, i, 0, cfg.items[i].fixed, [], st1)
        case Err(e) => Err(e)
        case Ok((st2, values)) =>
          match b.create(st2.store, i, values)
          case CreateRaised => Err(CreateFailed(i))
          case Created(store, inst) =>
            var st3 := st2.(slots := st2.slots[i := st2.slots[i].(instance := Some(inst))],
                            store := store,
                            log := st2.log + [CreateEvent(i, values)]);
            Ok((st3, inst))
  }

  /** The attribute loop of `load_item` from the `k`-th computed attribute on:
      `values` are the values resolved so far and `tried` the items already
      loaded on request during this `load_item` (`loaded_this_time`). Each
      attribute is called in a view one level deeper; a request for an item
      is honoured once, by recording the item among the pulled-in ones,
      loading it and retrying the same attribute. */
  function Resolve<S, I(!new)>(b: Backend<S, I>, cfg: Config<I>, i: ItemId, k: nat, values: map<Name, Value>,
                         tried: seq<ItemId>, st: St<S, I>): (r: Res<(St<S, I>, map<Name, Value>)>)
    requires Valid(cfg, st) && i in cfg.items && k <= |cfg.items[i].attrs|
    ensures r.Ok? ==> Valid(cfg, r.value.0) && Grows(st, r.value.0)
    ensures r.Ok? ==> r.value.0.depth == st.depth
    decreases Unloaded(st), 1, |cfg.items[i].attrs| - k, |cfg.items.Keys - Elems(tried)|
  {
    var attrs := cfg.items[i].attrs;
    if k == |attrs| then Ok((st, values))
    else
      var a := attrs[k];
      match a.compute(ViewOf(cfg, st, st.depth + 1))
      case Ready(v) => Resolve(b, cfg, i, k + 1, values[a.name := v], tried, st)
      case Raised(f) => Err(AttrFailed(i, a.name, f))
      case NeedsItem(j, cause) =>
        if j in tried then Err(Repeated(i, a.name, j, cause))
        else
          var st1 := st.(slots := st.slots[i := st.slots[i].(pulled := st.slots[i].pulled + [j])]);
          RecordPullKeepsCounts(st, i, j);
          match LoadItem(b, cfg, j.fixture, j, st1)
          case Err(e) => Err(e)
          case Ok((st2, _)) =>
            GrowsUnloaded(st1, st2);
            UntriedShrinks(cfg.items.Keys, tried, j);
            Resolve(b, cfg, i, k, values, tried + [j], st2)
  }

  /** `unload_item`: lowers the item's count; only at zero does it destroy the
      instance, unpublish it and then unload the items it pulled in, in the
      order they were recorded. */
  function UnloadItem<S, I(!new)>(b: Backend<S, I>, cfg: Config<I>, fix: FixtureId, i: ItemId, st: St<S, I>): (r: Res<St<S, I>>)
    requires Valid(cfg, st)
    ensures r.Ok? ==> i.fixture == fix && i in cfg.items && Valid(cfg, r.value) && Shrinks(st, r.value)
    ensures r.Ok? ==> r.value.depth == st.depth
    decreases Held(st), 1, 0
  {
    if i.fixture != fix then Err(WrongFixture(i, fix))
    else if i !in cfg.items then Err(UnknownItem(i))
    else
      var s := st.slots[i];
      if s.count == 0 then Err(TooManyUnloads(i))
      else if s.count > 1 then Ok(st.(slots := st.slots[i := s.(count := s.count - 1)]))
      else
        match s.instance
        case None => Err(NotLoaded(i))
        case Some(inst) =>
          match b.destroy(st.store, i, inst)
          case None => Err(DestroyFailed(i))
          case Some(store) =>
            var st1 := st.(slots := st.slots[i := s.(count := 0, instance := None)],
                           store := store,
                           log := st.log + [DestroyEvent(i, inst)]);
            MarkReleasedHeld(st, st1, i);
            match UnloadList(b, cfg, s.pulled, st1)
            case Err(e) => Err(e)
            case Ok(st2) => Ok(st2.(slots := st2.slots[i := st2.slots[i].(pulled := [])]))
  }

  /** Unloads the given items one after the other, each through its own
      fixture. */
  function UnloadList<S, I(!new)>(b: Backend<S, I>, cfg: Config<I>, items: seq<ItemId>, st: St<S, I>): (r: Res<St<S, I>>)
    requires Valid(cfg, st)
    ensures r.Ok? ==> Valid(cfg, r.value) && Shrinks(st, r.value)
    ensures r.Ok? ==> r.value.depth == st.depth
    decreases Held(st), 2, |items|
  {
    if items == [] then Ok(st)
    else
      match UnloadItem(b, cfg, items[0].fixture, items[0], st)
      case Err(e) => Err(e)
      case Ok(st1) =>
        ShrinksHeld(st, st1);
        UnloadList(b, cfg, items[1..], st1)
  }

  /** Recording a pulled-in item touches no count. */
  lemma RecordPullKeepsCounts<S, I(!new)>(st: St<S, I>, i: ItemId, j: ItemId)
    requires i in st.slots
    ensures var st1 := st.(slots := st.slots[i := st.slots[i].(pulled := st.slots[i].pulled + [j])]);
            Grows(st, st1) && Grows(st1, st) && Unloaded(st1) == Unloaded(st)
  {
    var st1 := st.(slots := st.slots[i := st.slots[i].(pulled := st.slots[i].pulled + [j])]);
    GrowsUnloaded(st, st1);
    GrowsUnloaded(st1, st);
  }

  /** Each honoured request takes a declared item out of the untried ones. */
  lemma UntriedShrinks(keys: set<ItemId>, tried: seq<ItemId>, j: ItemId)
    requires j in keys && j !in tried
    ensures |keys - Elems(tried + [j])| < |keys - Elems(tried)|
  {
    ElemsAppend(tried, j);
    assert keys - Elems(tried + [j]) == (keys - Elems(tried)) - {j};
    RemoveOneCard(keys - Elems(tried), j);
  }

  /** `_load_self`: loads the items a fixture class declares directly. */
  function LoadOwn<S, I(!new)>(b: Backend<S, I>, cfg: Config<I>, fix: FixtureId, items: seq<ItemId>, st: St<S, I>): (r: Res<St<S, I>>)
    requires Valid(cfg, st)
    ensures r.Ok? ==> Valid(cfg, r.value) && Grows(st, r.value) && r.value.depth == st.depth
    decreases |items|
  {
    if items == [] then Ok(st)
    else
      match LoadItem(b, cfg, fix, items[0], st)
      case Err(e) => Err(e)
      case Ok((st1, _)) => LoadOwn(b, cfg, fix, items[1..], st1)
  }

  /** `_unload_self`: unloads the items a fixture class declares directly, in
      the same order `_load_self` loads them. */
  function UnloadOwn<S, I(!new)>(b: Backend<S, I>, cfg: Config<I>, fix: FixtureId, items: seq<ItemId>, st: St<S, I>): (r: Res<St<S, I>>)
    requires Valid(cfg, st)
    ensures r.Ok? ==> Valid(cfg, r.value) && Shrinks(st, r.value) && r.value.depth == st.depth
    decreases |items|
  {
    if items == [] then Ok(st)
    else
      match UnloadItem(b, cfg, fix, items[0], st)
      case Err(e) => Err(e)
      case Ok(st1) => UnloadOwn(b, cfg, fix, items[1..], st1)
  }

  /** Runs `_load_self` of every class in `bases` that is a fixture class, in
      the order given; other classes of the chain are skipped. */
  function LoadBases<S, I(!new)>(b: Backend<S, I>, cfg: Config<I>, bases: seq<FixtureId>, st: St<S, I>): (r: Res<St<S, I>>)
    requires Valid(cfg, st)
    ensures r.Ok? ==> Valid(cfg, r.value) && Grows(st, r.value) && r.value.depth == st.depth
    decreases |bases|
  {
    if bases == [] then Ok(st)
    else if bases[0] !in cfg.fixtures then LoadBases(b, cfg, bases[1..], st)
    else
      match LoadOwn(b, cfg, bases[0], cfg.fixtures[bases[0]].own, st)
      case Err(e) => Err(e)
      case Ok(st1) => LoadBases(b, cfg, bases[1..], st1)
  }

  /** Runs `_unload_self` of every fixture class in `bases`, in the order given. */
  function UnloadBases<S, I(!new)>(b: Backend<S, I>, cfg: Config<I>, bases: seq<FixtureId>, st: St<S, I>): (r: Res<St<S, I>>)
    requires Valid(cfg, st)
    ensures r.Ok? ==> Valid(cfg, r.value) && Shrinks(st, r.value) && r.value.depth == st.depth
    decreases |bases|
  {
    if bases == [] then Ok(st)
    else if bases[0] !in cfg.fixtures then UnloadBases(b, cfg, bases[1..], st)
    else
      match UnloadOwn(b, cfg, bases[0], cfg.fixtures[bases[0]].own, st)
      case Err(e) => Err(e)
      case Ok(st1) => UnloadBases(b, cfg, bases[1..], st1)
  }

  /** `load`: the classes of the chain from the most basic to the fixture
      itself. */
  function LoadFixture<S, I(!new)>(b: Backend<S, I>, cfg: Config<I>, fix: FixtureId, st: St<S, I>): (r: Res<St<S, I>>)
    requires Valid(cfg, st) && fix in cfg.fixtures
    ensures r.Ok? ==> Valid(cfg, r.value) && Grows(st, r.value) && r.value.depth == st.depth
  {
    LoadBases(b, cfg, Reverse(cfg.fixtures[fix].mro), st)
  }

  /** `unload`: the classes of the chain from the fixture itself to the most
      basic. */
  function UnloadFixture<S, I(!new)>(b: Backend<S, I>, cfg: Config<I>, fix: FixtureId, st: St<S, I>): (r: Res<St<S, I>>)
    requires Valid(cfg, st) && fix in cfg.fixtures
    ensures r.Ok? ==> Valid(cfg, r.value) && Shrinks(st, r.value) && r.value.depth == st.depth
  {
    UnloadBases(b, cfg, cfg.fixtures[fix].mro, st)
  }

  /** A test procedure: a body that returns or raises without touching the
      fixtures, or a procedure wrapped by a fixture used as a decorator. */
  datatype Proc = Body(raises: bool) | Decorated(fixture: FixtureId, inner: Proc)

  /** How a procedure ended: normally, by an exception of its own (the state is
      still meaningful), or by a loader error (the state is not specified). */
  datatype Outcome<S, I> = Completed(st: St<S, I>) | Threw(st: St<S, I>) | Failed(error: Error)

  /** Every decorator of the procedure is a declared fixture class. */
  predicate Declared<I(!new)>(cfg: Config<I>, p: Proc) {
    match p
    case Body(_) => true
    case Decorated(fix, inner) => fix in cfg.fixtures && Declared(cfg, inner)
  }

  /** `__call__`: load, run the wrapped procedure, and unload whether it
      returned or raised. A failing load skips both. */
  function Run<S, I(!new)>(b: Backend<S, I>, cfg: Config<I>, p: Proc, st: St<S, I>): (o: Outcome<S, I>)
    requires Valid(cfg, st) && Declared(cfg, p)
    ensures !o.Failed? ==> Valid(cfg, o.st) && o.st.depth == st.depth
  {
    match p
    case Body(raises) => if raises then Threw(st) else Completed(st)
    case Decorated(fix, inner) =>
      match LoadFixture(b, cfg, fix, st)
      case Err(e) => Failed(e)
      case Ok(st1) =>
        match Run(b, cfg, inner, st1)
        case Failed(e) => Failed(e)
        case Completed(st2) =>
          (match UnloadFixture(b, cfg, fix, st2)
           case Err(e) => Failed(e)
           case Ok(st3) => Completed(st3))
        case Threw(st2) =>
          (match UnloadFixture(b, cfg, fix, st2)
           case Err(e) => Failed(e)
           case Ok(st3) => Threw(st3))
  }
}

=== FILE: ref_facts.dfy ===
/** The loader keeps reference counts honest: `load_item` adds one external
    reference to the item it is called on and `unload_item` removes one, while
    every reference a pulled-in list takes is matched by a load of its own and
    given back when the list is unwound (funfixtures/common.py:125-170). */
module RefFacts {
  import opened Common
  import opened FixtureModel
  import opened Loader
  import opened LoadFacts
  import opened UnloadFacts
  import opened RefCount

  lemma {:induction false} LoadItemExt<S, I(!new)>(b: Backend<S, I>, cfg: Config<I>, fix: FixtureId, i: ItemId, st: St<S, I>)
    requires Valid(cfg, st) && Tidy(st)
    requires LoadItem(b, cfg, fix, i, st).Ok?
    ensures ExtMoved(st, LoadItem(b, cfg, fix, i, st).value.0, i, 1)
    decreases Unloaded(st), 0, 0, 0, 1
  {
    if st.slots[i].count == 0 {
      FirstLoadExtFacts(b, cfg, fix, i, st);
    } else {
      BumpExt(st, LoadItem(b, cfg, fix, i, st).value.0, i, 1);
    }
  }

  lemma {:induction false} FirstLoadExtFacts<S, I(!new)>(b: Backend<S, I>, cfg: Config<I>, fix: FixtureId, i: ItemId, st: St<S, I>)
    requires Valid(cfg, st) && Tidy(st)
    requires LoadItem(b, cfg, fix, i, st).Ok? && st.slots[i].count == 0
    ensures ExtMoved(st, LoadItem(b, cfg, fix, i, st).value.0, i, 1)
    decreases Unloaded(st), 0, 0, 0, 0
  {
    var s := st.slots[i];
    var st1 := st.(slots := st.slots[i := s.(count := 1, pulled := [])]);
    FirstLoadUnfolds(b, cfg, fix, i, st);
    MarkLoadingUnloaded(st, st1, i);
    MarkLoadingTidy(st, st1, i);
    ResolveExt(b, cfg, i, 0, cfg.items[i].fixed, [], st1);
    var st2 := Resolve(b, cfg, i, 0, cfg.items[i].fixed, [], st1).value.0;
    FirstLoadExt(i, LoadItem(b, cfg, fix, i, st).value.1, st, st1, st2, LoadItem(b, cfg, fix, i, st).value.0);
  }

  lemma FirstLoadExt<S, I(!new)>(i: ItemId, inst: I, st: St<S, I>, st1: St<S, I>, st2: St<S, I>, st3: St<S, I>)
    requires Tidy(st) && i in st.slots && st.slots[i].count == 0
    requires st1.slots == st.slots[i := st.slots[i].(count := 1, pulled := [])]
    requires ExtKept(st1, st2) && i in st2.slots
    requires st3.slots == st2.slots[i := st2.slots[i].(instance := Some(inst))]
    ensures ExtMoved(st, st3, i, 1)
  {
    assert st.slots[i] == Idle();
    MarkLoadingExt(st, st1, i);
    PublishExt(st2, st3, i, inst);
  }

  /** The attribute loop moves no external reference: each item it pulls in
      is referenced by the list exactly as often as it was loaded for it. */
  lemma {:induction false} ResolveExt<S, I(!new)>(b: Backend<S, I>, cfg: Config<I>, i: ItemId, k: nat, values: map<Name, Value>,
                                            tried: seq<ItemId>, st: St<S, I>)
    requires Valid(cfg, st) && Tidy(st) && i in cfg.items && k <= |cfg.items[i].attrs|
    requires st.slots[i].count > 0 && st.slots[i].instance.None?
    requires Resolve(b, cfg, i, k, values, tried, st).Ok?
    ensures ExtKept(st, Resolve(b, cfg, i, k, values, tried, st).value.0)
    decreases Unloaded(st), 1, |cfg.items[i].attrs| - k, |cfg.items.Keys - Elems(tried)|, 1
  {
    var attrs := cfg.items[i].attrs;
    if k < |attrs| {
      var a := attrs[k];
      match a.compute(ViewOf(cfg, st, st.depth + 1))
      case Ready(v) =>
        ResolveExt(b, cfg, i, k + 1, values[a.name := v], tried, st);
      case NeedsItem(j, cause) =>
        ResolvePullExt(b, cfg, i, k, values, tried, st, j);
    }
  }

  lemma {:induction false} ResolvePullExt<S, I(!new)>(b: Backend<S, I>, cfg: Config<I>, i: ItemId, k: nat, values: map<Name, Value>,
                                                tried: seq<ItemId>, st: St<S, I>, j: ItemId)
    requires Valid(cfg, st) && Tidy(st) && i in cfg.items && k < |cfg.items[i].attrs|
    requires st.slots[i].count > 0 && st.slots[i].instance.None?
    requires cfg.items[i].attrs[k].compute(ViewOf(cfg, st, st.depth + 1)).NeedsItem?
    requires cfg.items[i].attrs[k].compute(ViewOf(cfg, st, st.depth + 1)).item == j
    requires Resolve(b, cfg, i, k, values, tried, st).Ok?
    ensures ExtKept(st, Resolve(b, cfg, i, k, values, tried, st).value.0)
    decreases Unloaded(st), 1, |cfg.items[i].attrs| - k, |cfg.items.Keys - Elems(tried)|, 0
  {
    var st1 := st.(slots := st.slots[i := st.slots[i].(pulled := st.slots[i].pulled + [j])]);
    ResolvePullUnfolds(b, cfg, i, k, values, tried, st, j);
    RecordPullKeepsCounts(st, i, j);
    RecordPullTidy(st, st1, i, j);
    LoadItemSlots(b, cfg, j.fixture, j, st1);
    LoadItemExt(b, cfg, j.fixture, j, st1);
    var (st2, inst) := LoadItem(b, cfg, j.fixture, j, st1).value;
    LoadKeepsResolving(st1, st2, i, j, inst);
    GrowsUnloaded(st1, st2);
    UntriedShrinks(cfg.items.Keys, tried, j);
    ResolveExt(b, cfg, i, k, values, tried + [j], st2);
    RecordPullExt(st, st1, i, j);
    PullExt(j, st, st1, st2, Resolve(b, cfg, i, k, values, tried + [j], st2).value.0);
  }

  /** The reference a request records is the one the load of `j` adds. */
  lemma PullExt<S, I(!new)>(j: ItemId, st: St<S, I>, st1: St<S, I>, st2: St<S, I>, st': St<S, I>)
    requires ExtMoved(st, st1, j, -1) && ExtMoved(st1, st2, j, 1) && ExtKept(st2, st')
    ensures ExtKept(st, st')
  {
  }

  lemma {:induction false} UnloadItemExt<S, I(!new)>(b: Backend<S, I>, cfg: Config<I>, fix: FixtureId, i: ItemId, st: St<S, I>)
    requires Valid(cfg, st)
    requires UnloadItem(b, cfg, fix, i, st).Ok?
    ensures ExtMoved(st, UnloadItem(b, cfg, fix, i, st).value, i, -1)
    decreases Held(st), 1, 0, 1
  {
    if st.slots[i].count > 1 {
      BumpExt(st, UnloadItem(b, cfg, fix, i, st).value, i, -1);
    } else {
      ReleaseExtFacts(b, cfg, fix, i, st);
    }
  }

  lemma {:induction false} ReleaseExtFacts<S, I(!new)>(b: Backend<S, I>, cfg: Config<I>, fix: FixtureId, i: ItemId, st: St<S, I>)
    requires Valid(cfg, st)
    requires UnloadItem(b, cfg, fix, i, st).Ok? && st.slots[i].count == 1
    ensures ExtMoved(st, UnloadItem(b, cfg, fix, i, st).value, i, -1)
    decreases Held(st), 1, 0, 0
  {
    var s := st.slots[i];
    ReleaseUnfolds(b, cfg, fix, i, st);
    var inst := s.instance.value;
    var st1 := st.(slots := st.slots[i := s.(count := 0, instance := None)],
                   store := b.destroy(st.store, i, inst).value, log := st.log + [DestroyEvent(i, inst)]);
    MarkReleasedHeld(st, st1, i);
    UnloadListFacts(b, cfg, s.pulled, st1);
    UnloadListExt(b, cfg, s.pulled, st1);
    var st2 := UnloadList(b, cfg, s.pulled, st1).value;
    ReleaseExt(i, st, st1, st2, UnloadItem(b, cfg, fix, i, st).value);
  }

  /** The release gives up the caller's reference; the unwinding of the list
      takes back exactly the references the list held. */
  lemma ReleaseExt<S, I(!new)>(i: ItemId, st: St<S, I>, st1: St<S, I>, st2: St<S, I>, st': St<S, I>)
    requires i in st.slots && st.slots[i].count == 1
    requires st1.slots == st.slots[i := st.slots[i].(count := 0, instance := None)]
    requires AllKeptOnUnload(st1, st2) && ExtDropped(st1, st2, st.slots[i].pulled)
    requires st'.slots == st2.slots[i := st2.slots[i].(pulled := [])]
    ensures ExtMoved(st, st', i, -1)
  {
    PoolKeep(st.slots, i, st.slots[i].(count := 0, instance := None));
    assert KeptOnUnload(st1.slots[i], st2.slots[i]);
    ClearPullExt(st2, st', i);
  }

  /** Unloading a list gives up one external reference per occurrence. */
  lemma {:induction false} UnloadListExt<S, I(!new)>(b: Backend<S, I>, cfg: Config<I>, items: seq<ItemId>, st: St<S, I>)
    requires Valid(cfg, st)
    requires UnloadList(b, cfg, items, st).Ok?
    ensures ExtDropped(st, UnloadList(b, cfg, items, st).value, items)
    decreases Held(st), 2, |items|, 0
  {
    if items != [] {
      var q0 := items[0];
      UnloadItemExt(b, cfg, q0.fixture, q0, st);
      var st1 := UnloadItem(b, cfg, q0.fixture, q0, st).value;
      ShrinksHeld(st, st1);
      UnloadListExt(b, cfg, items[1..], st1);
      assert UnloadList(b, cfg, items, st) == UnloadList(b, cfg, items[1..], st1);
      ListExt(items, st, st1, UnloadList(b, cfg, items, st).value);
    }
  }

  lemma ListExt<S, I(!new)>(items: seq<ItemId>, st: St<S, I>, st1: St<S, I>, st': St<S, I>)
    requires items != []
    requires ExtMoved(st, st1, items[0], -1) && ExtDropped(st1, st', items[1..])
    ensures ExtDropped(st, st', items)
  {
    assert items == [items[0]] + items[1..];
    assert multiset(items) == multiset([items[0]]) + multiset(items[1..]);
  }
}

=== FILE: refcount.dfy ===
/** The reference-counting reading of the loader's state. An item's count is
    made of the references held on it by the pulled-in lists of other items
    (the pool) and of the loads made from outside (the external part). Every
    loader operation moves only the external part of the item it is called
    on. */
module RefCount {
  import opened Common
  import opened FixtureModel

  /** Every entry of every pulled-in list, with multiplicity. */
  ghost function Pool<I(!new)>(slots: map<ItemId, Slot<I>>): multiset<ItemId>
    decreases |slots.Keys|
  {
    if slots.Keys == {} then multiset{}
    else
      var m :| m in slots.Keys;
      RemoveKeyCard(slots, m);
      multiset(slots[m].pulled) + Pool(slots - {m})
  }

  lemma RemoveKeyCard<V>(slots: map<ItemId, V>, m: ItemId)
    requires m in slots
    ensures (slots - {m}).Keys == slots.Keys - {m}
    ensures |(slots - {m}).Keys| == |slots.Keys| - 1
  {
    assert (slots - {m}).Keys == slots.Keys - {m};
    RemoveOneCard(slots.Keys, m);
  }

  /** The pool can be split at any item, not only the one its definition
      picks. */
  lemma {:induction false} PoolRemove<I(!new)>(slots: map<ItemId, Slot<I>>, k: ItemId)
    requires k in slots
    ensures Pool(slots) == multiset(slots[k].pulled) + Pool(slots - {k})
    decreases |slots.Keys|, 1
  {
    var m :| m in slots.Keys && Pool(slots) == multiset(slots[m].pulled) + Pool(slots - {m});
    if m != k {
      PoolRemoveOther(slots, k, m);
    }
  }

  /** `PoolRemove` when the definition picked another item `m`: split the
      rest at `k` and the pool without `k` at `m`, and swap the two lists. */
  lemma {:induction false} PoolRemoveOther<I(!new)>(slots: map<ItemId, Slot<I>>, k: ItemId, m: ItemId)
    requires k in slots && m in slots && m != k
    requires Pool(slots) == multiset(slots[m].pulled) + Pool(slots - {m})
    ensures Pool(slots) == multiset(slots[k].pulled) + Pool(slots - {k})
    decreases |slots.Keys|, 0
  {
    var withoutM, withoutK := slots - {m}, slots - {k};
    RemoveKeyCard(slots, m);
    RemoveKeyCard(slots, k);
    RemoveBoth(slots, m, k);
    PoolRemove(withoutM, k);
    PoolRemove(withoutK, m);
    SwapSums(multiset(slots[m].pulled), multiset(slots[k].pulled), Pool(withoutM - {k}), Pool(withoutM), Pool(withoutK));
  }

  /** Removing two keys in either order gives the same map. */
  lemma RemoveBoth<V>(slots: map<ItemId, V>, m: ItemId, k: ItemId)
    requires k in slots && m in slots && m != k
    ensures k in slots - {m} && (slots - {m})[k] == slots[k]
    ensures m in slots - {k} && (slots - {k})[m] == slots[m]
    ensures (slots - {m}) - {k} == (slots - {k}) - {m}
  {
  }

  lemma SwapSums<T>(a: multiset<T>, b: multiset<T>, c: multiset<T>, x: multiset<T>, y: multiset<T>)
    requires x == b + c && y == a + c
    ensures a + x == b + y
  {
  }

  /** Replacing one slot changes the pool by exactly the difference of the
      two pulled-in lists. */
  lemma PoolUpdate<I(!new)>(slots: map<ItemId, Slot<I>>, k: ItemId, s: Slot<I>)
    requires k in slots
    ensures forall q :: Pool(slots[k := s])[q] == Pool(slots)[q] - Occurrences(slots[k].pulled, q) + Occurrences(s.pulled, q)
  {
    PoolRemove(slots, k);
    PoolRemove(slots[k := s], k);
    assert slots[k := s] - {k} == slots - {k};
  }

  /** Replacing a slot by one with the same pulled-in list keeps the pool. */
  lemma PoolKeep<I(!new)>(slots: map<ItemId, Slot<I>>, k: ItemId, s: Slot<I>)
    requires k in slots && s.pulled == slots[k].pulled
    ensures Pool(slots[k := s]) == Pool(slots)
  {
    PoolRemove(slots, k);
    PoolRemove(slots[k := s], k);
    assert slots[k := s] - {k} == slots - {k};
  }

  /** The loads of `q` made from outside rather than by a pulled-in list. */
  ghost function Ext<S, I(!new)>(st: St<S, I>, q: ItemId): int
    requires q in st.slots
  {
    st.slots[q].count - Pool(st.slots)[q]
  }

  /** The external part of `i`, and of no other item, rose by `up`. */
  ghost predicate ExtMoved<S, I(!new)>(st: St<S, I>, st': St<S, I>, i: ItemId, up: int) {
    && st'.slots.Keys == st.slots.Keys
    && forall q :: q in st.slots ==> Ext(st', q) == Ext(st, q) + (if q == i then up else 0)
  }

  /** No external part moved. */
  ghost predicate ExtKept<S, I(!new)>(st: St<S, I>, st': St<S, I>) {
    && st'.slots.Keys == st.slots.Keys
    && forall q :: q in st.slots ==> Ext(st', q) == Ext(st, q)
  }

  /** The external part of every item fell by the number of its occurrences
      in `items`. */
  ghost predicate ExtDropped<S, I(!new)>(st: St<S, I>, st': St<S, I>, items: seq<ItemId>) {
    && st'.slots.Keys == st.slots.Keys
    && forall q :: q in st.slots ==> Ext(st', q) == Ext(st, q) - Occurrences(items, q)
  }

  /** A count always covers the references the pool holds on the item. */
  ghost predicate Covered<S, I(!new)>(st: St<S, I>) {
    forall q :: q in st.slots ==> Ext(st, q) >= 0
  }

  lemma ExtMovedCompose<S, I(!new)>(st: St<S, I>, st': St<S, I>, st'': St<S, I>, i: ItemId, up: int, up': int)
    requires ExtMoved(st, st', i, up) && ExtMoved(st', st'', i, up')
    ensures ExtMoved(st, st'', i, up + up')
  {
  }

  /** Marking an item at count 0 as loading raises its external part. */
  lemma MarkLoadingExt<S, I(!new)>(st: St<S, I>, st1: St<S, I>, i: ItemId)
    requires i in st.slots && st.slots[i] == Idle()
    requires st1.slots == st.slots[i := Slot(1, None, [])]
    ensures ExtMoved(st, st1, i, 1)
  {
    PoolKeep(st.slots, i, Slot(1, None, []));
  }

  /** Publishing an instance moves nothing. */
  lemma PublishExt<S, I(!new)>(st: St<S, I>, st1: St<S, I>, i: ItemId, inst: I)
    requires i in st.slots
    requires st1.slots == st.slots[i := st.slots[i].(instance := Some(inst))]
    ensures ExtKept(st, st1)
  {
    PoolKeep(st.slots, i, st.slots[i].(instance := Some(inst)));
  }

  /** Re-entering a held item raises only its external part. */
  lemma BumpExt<S, I(!new)>(st: St<S, I>, st1: St<S, I>, i: ItemId, up: int)
    requires i in st.slots && st.slots[i].count + up >= 0
    requires st1.slots == st.slots[i := st.slots[i].(count := st.slots[i].count + up)]
    ensures ExtMoved(st, st1, i, up)
  {
    PoolKeep(st.slots, i, st.slots[i].(count := st.slots[i].count + up));
  }

  /** Recording a pulled-in item moves one reference from outside to the pool. */
  lemma RecordPullExt<S, I(!new)>(st: St<S, I>, st1: St<S, I>, i: ItemId, j: ItemId)
    requires i in st.slots
    requires st1.slots == st.slots[i := st.slots[i].(pulled := st.slots[i].pulled + [j])]
    ensures ExtMoved(st, st1, j, -1)
  {
    PoolUpdate(st.slots, i, st.slots[i].(pulled := st.slots[i].pulled + [j]));
    forall q ensures Occurrences(st.slots[i].pulled + [j], q) == Occurrences(st.slots[i].pulled, q) + (if q == j then 1 else 0) {
      assert multiset(st.slots[i].pulled + [j]) == multiset(st.slots[i].pulled) + multiset{j};
    }
  }

  /** Forgetting a pulled-in list gives its references back to the outside. */
  lemma ClearPullExt<S, I(!new)>(st: St<S, I>, st1: St<S, I>, i: ItemId)
    requires i in st.slots
    requires st1.slots == st.slots[i := st.slots[i].(pulled := [])]
    ensures st1.slots.Keys == st.slots.Keys
    ensures forall q :: q in st.slots ==> Ext(st1, q) == Ext(st, q) + Occurrences(st.slots[i].pulled, q)
  {
    PoolUpdate(st.slots, i, st.slots[i].(pulled := []));
  }
}

=== FILE: sample_backend.dfy ===
/** The test backend of tests/support.py wired to the sample store:
    `create_item_instance` builds an entity from the item's values and
    `put`s it, `destroy_item_instance` `delete`s it, and the default
    `get_primary_key` (funfixtures/common.py:199-201) reads its `id`. */
module SampleBackend {
  import opened Common
  import opened FixtureModel
  import opened Loader
  import opened SampleDb
  import opened SampleDbFacts

  /** The instance handed to the loader: the object and the id `put` gave
      it, which stays fixed while the item is loaded. */
  datatype Handle = Handle(obj: ObjRef, id: Value)

  /** `create_item_instance`: `fix_klass.Entity(**values)` followed by
      `put`; `entity` names each fixture class's `Entity`. */
  function Create(entity: FixtureId -> string, w: World, i: ItemId, values: map<Name, Value>): (r: Created<World, Handle>)
    ensures r.Created? ==> var (w1, o) := Alloc(w, NewAccount(entity(i.fixture), values));
                           && r.instance.obj == o && Put(w1, o) == Success(r.store)
                           && o in r.store.heap && "id" in r.store.heap[o].attrs && r.instance.id == r.store.heap[o].attrs["id"]
  {
    var (w1, o) := Alloc(w, NewAccount(entity(i.fixture), values));
    match Put(w1, o)
    case Success(w2) => Created(w2, Handle(o, w2.heap[o].attrs["id"]))
    case Failure(_) => CreateRaised
  }

  /** `destroy_item_instance`: `delete` of the object. */
  function Destroy(w: World, i: ItemId, h: Handle): (r: Option<World>)
    ensures r.Some? <==> Delete(w, h.obj).Success?
    ensures r.Some? ==> r.value == Delete(w, h.obj).value
  {
    match Delete(w, h.obj)
    case Success(w') => Some(w')
    case Failure(_) => None
  }

  function Backed(entity: FixtureId -> string): Backend<World, Handle> {
    Backend((w: World, i: ItemId, values: map<Name, Value>) => Create(entity, w, i, values),
            (w: World, i: ItemId, h: Handle) => Destroy(w, i, h),
            (i: ItemId, h: Handle) => h.id)
  }

  /** The `x` an entity built from `values` carries. */
  function XOf(values: map<Name, Value>): Value {
    NewAccount("", values).attrs[IndexProp]
  }

  /** `load_item` of an idle item without computed attributes: one create
      call with the item's fixed values, and the item is held once. */
  lemma LoadPlain<S, I(!new)>(b: Backend<S, I>, cfg: Config<I>, i: ItemId, st: St<S, I>)
    requires Valid(cfg, st) && i in cfg.items && cfg.items[i].attrs == [] && st.slots[i] == Idle()
    requires b.create(st.store, i, cfg.items[i].fixed).Created?
    ensures var c := b.create(st.store, i, cfg.items[i].fixed);
            LoadItem(b, cfg, i.fixture, i, st)
            == Ok((st.(slots := st.slots[i := Slot(1, Some(c.instance), [])], store := c.store,
                       log := st.log + [CreateEvent(i, cfg.items[i].fixed)]), c.instance))
  {
    var st1 := st.(slots := st.slots[i := Slot(1, None, [])]);
    assert Resolve(b, cfg, i, 0, cfg.items[i].fixed, [], st1) == Ok((st1, cfg.items[i].fixed));
    var c := b.create(st.store, i, cfg.items[i].fixed);
    assert st1.slots[i := st1.slots[i].(instance := Some(c.instance))] == st.slots[i := Slot(1, Some(c.instance), [])];
  }

  /** `unload_item` of an item held once that pulled nothing in: one destroy
      call, and the item is idle again. */
  lemma UnloadPlain<S, I(!new)>(b: Backend<S, I>, cfg: Config<I>, i: ItemId, st: St<S, I>, inst: I)
    requires Valid(cfg, st) && i in cfg.items && st.slots[i] == Slot(1, Some(inst), [])
    requires b.destroy(st.store, i, inst).Some?
    ensures UnloadItem(b, cfg, i.fixture, i, st)
            == Ok(st.(slots := st.slots[i := Idle()], store := b.destroy(st.store, i, inst).value,
                      log := st.log + [DestroyEvent(i, inst)]))
  {
    var st1 := st.(slots := st.slots[i := Slot(0, None, [])], store := b.destroy(st.store, i, inst).value,
                   log := st.log + [DestroyEvent(i, inst)]);
    assert UnloadList(b, cfg, [], st1) == Ok(st1);
    assert st1.slots[i := st1.slots[i].(pulled := [])] == st.slots[i := Idle()];
  }

  /** The sample backend's create on a consistent store, for values that set
      no id: a new entity, stored under the next id and indexed under its `x`. */
  lemma CreateFresh(entity: FixtureId -> string, w: World, i: ItemId, values: map<Name, Value>)
    requires Consistent(w) && ("id" in values ==> values["id"] == VNone)
    ensures var c := Create(entity, w, i, values);
            && c.Created? && c.instance.id == VInt(Next(w)) && c.instance.obj !in w.heap
            && var w1 := Alloc(w, NewAccount(entity(i.fixture), values)).0;
            && Consistent(w1) && w1.db == w.db
            && c.instance.obj in w1.heap && w1.heap[c.instance.obj].attrs["id"] == VNone
            && IndexProp in w1.heap[c.instance.obj].attrs && w1.heap[c.instance.obj].attrs[IndexProp] == XOf(values)
            && Put(w1, c.instance.obj) == Success(c.store)
  {
    var a := NewAccount(entity(i.fixture), values);
    AllocConsistent(w, a);
    var (w1, o) := Alloc(w, a);
    PutFresh(w1, o);
  }

  /** The sample store's side of a create followed by a destroy of the same
      entity. */
  lemma StoreRoundTrip(entity: FixtureId -> string, w: World, i: ItemId, values: map<Name, Value>)
    requires Consistent(w) && ("id" in values ==> values["id"] == VNone)
    ensures var c := Create(entity, w, i, values);
            && c.Created?
            && FindByX(c.store, XOf(values)) == Success(FindByX(w, XOf(values)).value + [c.instance.obj])
            && Destroy(c.store, i, c.instance).Some?
            && var w' := Destroy(c.store, i, c.instance).value;
            && |w'.db.Keys| == |w.db.Keys|
            && (forall v :: FindByX(w', v) == FindByX(w, v))
            && Consistent(w')
  {
    CreateFresh(entity, w, i, values);
    var c := Create(entity, w, i, values);
    var w1 := Alloc(w, NewAccount(entity(i.fixture), values)).0;
    PutFresh(w1, c.instance.obj);
    PutThenDelete(w1, c.instance.obj);
  }

  lemma SlotBack<I(!new)>(slots: map<ItemId, Slot<I>>, i: ItemId, s: Slot<I>)
    requires i in slots && slots[i] == Idle()
    ensures slots[i := s][i := Idle()] == slots
  {
  }

  /** An item without computed attributes and without an `id` of its own,
      loaded once and unloaded once through the sample store: while it is
      loaded its entity is the last one `find_by_x` returns for its `x`;
      afterwards the item is idle again, the store has its former number of
      top-level keys and every `find_by_x` answers as before. */
  lemma LoadUnloadBaseline(entity: FixtureId -> string, cfg: Config<Handle>, i: ItemId, st: St<World, Handle>)
    requires Valid(cfg, st) && i in cfg.items && cfg.items[i].attrs == [] && st.slots[i] == Idle()
    requires "id" in cfg.items[i].fixed ==> cfg.items[i].fixed["id"] == VNone
    requires Consistent(st.store)
    ensures var b := Backed(entity);
            && LoadItem(b, cfg, i.fixture, i, st).Ok?
            && var (st', h) := LoadItem(b, cfg, i.fixture, i, st).value;
            && FindByX(st'.store, XOf(cfg.items[i].fixed)) == Success(FindByX(st.store, XOf(cfg.items[i].fixed)).value + [h.obj])
            && UnloadItem(b, cfg, i.fixture, i, st').Ok?
            && var st'' := UnloadItem(b, cfg, i.fixture, i, st').value;
            && st''.slots == st.slots
            && |st''.store.db.Keys| == |st.store.db.Keys|
            && (forall v :: FindByX(st''.store, v) == FindByX(st.store, v))
            && Consistent(st''.store)
  {
    var b := Backed(entity);
    var fixed := cfg.items[i].fixed;
    StoreRoundTrip(entity, st.store, i, fixed);
    var c := Create(entity, st.store, i, fixed);
    LoadPlain(b, cfg, i, st);
    var st' := st.(slots := st.slots[i := Slot(1, Some(c.instance), [])], store := c.store,
                   log := st.log + [CreateEvent(i, fixed)]);
    UnloadPlain(b, cfg, i, st', c.instance);
    SlotBack(st.slots, i, Slot(1, Some(c.instance), []));
  }
}

=== FILE: sample_db.dfy ===
/** The in-memory store of tests/sampledb.py: a top-level dictionary holding
    the id counter `'_next'`, the secondary index `'x'` and one entry per
    stored object, and the `Account` objects that `put` and `delete`
    themselves in it. */
module SampleDb {
  import opened Common

  /** The identity of a Python object (what `is` and `list.remove` compare). */
  type ObjRef = nat

  /** An `Account` object: the name of its class and its attribute dictionary. */
  datatype Account = Account(cls: string, attrs: map<Name, Value>)

  /** A value of the top-level dictionary `DB`: the counter under `'_next'`,
      the index under `'x'` (indexed value to the objects carrying it, in
      insertion order), or a stored object. */
  datatype Entry = Counter(n: int) | Index(lists: map<Value, seq<ObjRef>>) | Row(obj: ObjRef)

  /** `DB` together with the objects alive in the interpreter; `nextRef` is
      where the next new object is allocated. */
  datatype World = World(db: map<Value, Entry>, heap: map<ObjRef, Account>, nextRef: ObjRef)

  datatype PyError = AttributeError | KeyError | ValueError | AssertionError | TypeError

  datatype Result<T> = Success(value: T) | Failure(error: PyError)

  const NextKey: Value := VStr("_next")

  /** `INDEXED_PROPS` holds this one name; it is also the index's key in `DB`. */
  const IndexProp: Name := "x"

  const IndexKey: Value := VStr(IndexProp)

  /** `EMPTY_DB`. */
  function EmptyDb(): (db: map<Value, Entry>)
    ensures |db.Keys| == 2
    ensures NextKey in db && db[NextKey] == Counter(1)
    ensures IndexKey in db && db[IndexKey] == Index(map[])
  {
    var db := map[NextKey := Counter(1), IndexKey := Index(map[])];
    assert db.Keys == {NextKey, IndexKey};
    db
  }

  /** The attributes `Account.__init__` sets before applying its keyword
      arguments. */
  function Defaults(): map<Name, Value> {
    map["id" := VNone, "x" := VInt(0), "y" := VInt(1), "model_only_prop" := VInt(555)]
  }

  /** `Account(**data)` of class `cls`: the defaults, each overridden by a
      keyword argument of the same name. */
  function NewAccount(cls: string, data: map<Name, Value>): (a: Account)
    ensures a.cls == cls
    ensures a.attrs.Keys == data.Keys + Defaults().Keys
    ensures forall n :: n in data ==> a.attrs[n] == data[n]
    ensures forall n :: n in Defaults() && n !in data ==> a.attrs[n] == Defaults()[n]
  {
    Account(cls, Defaults() + data)
  }

  /** Allocates a new object. */
  function Alloc(w: World, a: Account): (r: (World, ObjRef))
    ensures r.0.heap == w.heap[r.1 := a] && r.0.db == w.db
    ensures (forall p :: p in w.heap ==> p < w.nextRef) ==>
              r.1 !in w.heap && forall p :: p in r.0.heap ==> p < r.0.nextRef
  {
    (w.(heap := w.heap[w.nextRef := a], nextRef := w.nextRef + 1), w.nextRef)
  }

  // ----- decimal rendering, for the `'%s%d'` key format -----

  function DigitChar(d: nat): char
    requires d < 10
  {
    ('0' as int + d) as char
  }

  function DigitValue(c: char): int {
    c as int - '0' as int
  }

  /** The decimal digits of `n`, most significant first, without leading zeros. */
  function Digits(n: nat): (s: string)
    ensures |s| >= 1 && (n >= 10 ==> s[0] != '0')
    ensures forall p :: 0 <= p < |s| ==> '0' <= s[p] <= '9'
  {
    if n < 10 then [DigitChar(n)] else Digits(n / 10) + [DigitChar(n % 10)]
  }

  function ParseDigits(s: string): int {
    if s == [] then 0 else ParseDigits(s[..|s| - 1]) * 10 + DigitValue(s[|s| - 1])
  }

  /** What `'%d'` prints for an integer. */
  function Decimal(n: int): (s: string)
    ensures |s| >= 1 && (n >= 0 <==> s[0] != '-')
  {
    if n < 0 then "-" + Digits(-n) else Digits(n)
  }

  function ParseDecimal(s: string): int {
    if |s| > 0 && s[0] == '-' then -ParseDigits(s[1..]) else ParseDigits(s)
  }

  lemma {:induction false} DigitsRoundTrip(n: nat)
    ensures ParseDigits(Digits(n)) == n
  {
    if n >= 10 {
      DigitsRoundTrip(n / 10);
      var s := Digits(n);
      assert s[..|s| - 1] == Digits(n / 10);
    }
  }

  /** Reading back what `'%d'` printed gives the number. */
  lemma DecimalRoundTrip(n: int)
    ensures ParseDecimal(Decimal(n)) == n
  {
    if n < 0 {
      DigitsRoundTrip(-n);
      assert Decimal(n)[1..] == Digits(-n);
    } else {
      DigitsRoundTrip(n);
    }
  }

  /** The key `put` gives an object of class `cls` with id `n`. */
  function KeyFor(cls: string, n: int): Value {
    VStr(cls + Decimal(n))
  }

  /** Objects of one class receive different keys for different ids. */
  lemma KeysDistinct(cls: string, m: int, n: int)
    requires m != n
    ensures KeyFor(cls, m) != KeyFor(cls, n)
  {
    if KeyFor(cls, m) == KeyFor(cls, n) {
      var s := cls + Decimal(m);
      assert s[|cls|..] == Decimal(m);
      assert (cls + Decimal(n))[|cls|..] == Decimal(n);
      DecimalRoundTrip(m);
      DecimalRoundTrip(n);
    }
  }

  // ----- attribute access and the index -----

  /** `getattr(obj, n)`; a reference the heap does not hold behaves as an
      object without attributes (consistent worlds hold every reference they
      mention). */
  function GetAttr(w: World, o: ObjRef, n: Name): (r: Result<Value>)
    ensures r.Success? <==> o in w.heap && n in w.heap[o].attrs
    ensures r.Success? ==> r.value == w.heap[o].attrs[n]
    ensures r.Failure? ==> r.error == AttributeError
  {
    if o in w.heap && n in w.heap[o].attrs then Success(w.heap[o].attrs[n]) else Failure(AttributeError)
  }

  function SetAttr(w: World, o: ObjRef, n: Name, v: Value): (w': World)
    requires o in w.heap
    ensures w'.db == w.db && w'.nextRef == w.nextRef && w'.heap.Keys == w.heap.Keys
    ensures w'.heap[o].cls == w.heap[o].cls && w'.heap[o].attrs == w.heap[o].attrs[n := v]
    ensures forall p :: p in w.heap && p != o ==> w'.heap[p] == w.heap[p]
  {
    w.(heap := w.heap[o := w.heap[o].(attrs := w.heap[o].attrs[n := v])])
  }

  /** `DB['x']`, used as a dictionary: a missing key is a `KeyError`, and
      any other entry has no dictionary method. */
  function IndexOf(db: map<Value, Entry>): (r: Result<map<Value, seq<ObjRef>>>)
    ensures r.Success? <==> IndexKey in db && db[IndexKey].Index?
    ensures r.Success? ==> r.value == db[IndexKey].lists
  {
    if IndexKey !in db then Failure(KeyError)
    else match db[IndexKey]
      case Index(lists) => Success(lists)
      case _ => Failure(AttributeError)
  }

  /** `lists.get(v, [])`. */
  function Listed(lists: map<Value, seq<ObjRef>>, v: Value): seq<ObjRef> {
    if v in lists then lists[v] else []
  }

  /** `list.remove`: drops the first occurrence. */
  function RemoveFirst(s: seq<ObjRef>, o: ObjRef): (r: seq<ObjRef>)
    requires o in s
    ensures multiset(r) == multiset(s) - multiset{o}
  {
    assert s == [s[0]] + s[1..];
    if s[0] == o then s[1..] else [s[0]] + RemoveFirst(s[1..], o)
  }

  /** Cutting `s` after position `q + 1` is cutting its tail after `q` and
      putting the head back. */
  lemma CutAfterHead(s: seq<ObjRef>, q: nat)
    requires q + 1 < |s|
    ensures s[..q + 1] == [s[0]] + s[1..][..q]
    ensures [s[0]] + (s[1..][..q] + s[1..][q + 1..]) == s[..q + 1] + s[q + 2..]
  {
    assert s[q + 2..] == s[1..][q + 1..];
  }

  /** `list.remove` cuts out the first occurrence `p` and keeps the order of
      everything else. */
  lemma {:induction false} RemoveFirstKeepsOrder(s: seq<ObjRef>, o: ObjRef) returns (p: nat)
    requires o in s
    ensures p < |s| && s[p] == o && o !in s[..p]
    ensures RemoveFirst(s, o) == s[..p] + s[p + 1..]
  {
    if s[0] == o {
      p := 0;
    } else {
      assert o in s[1..] by { assert s == [s[0]] + s[1..]; }
      var q := RemoveFirstKeepsOrder(s[1..], o);
      p := q + 1;
      CutAfterHead(s, q);
    }
  }

  /** Removing an element just appended to a list that did not hold it gives
      the list back. */
  lemma {:induction false} RemoveFirstAppended(s: seq<ObjRef>, o: ObjRef)
    requires o !in s
    ensures RemoveFirst(s + [o], o) == s
  {
    if s != [] {
      assert (s + [o])[1..] == s[1..] + [o];
      RemoveFirstAppended(s[1..], o);
    }
  }

  /** `add_to_index`: appends the object to the index list of its `x`,
      creating the list when there is none. */
  function AddToIndex(w: World, o: ObjRef): (r: Result<World>)
    ensures r.Success? <==> GetAttr(w, o, IndexProp).Success? && IndexOf(w.db).Success?
    ensures r.Success? ==>
              var v := w.heap[o].attrs[IndexProp];
              var lists := w.db[IndexKey].lists;
              && r.value.heap == w.heap && r.value.nextRef == w.nextRef
              && r.value.db == w.db[IndexKey := Index(lists[v := Listed(lists, v) + [o]])]
  {
    match GetAttr(w, o, IndexProp)
    case Failure(e) => Failure(e)
    case Success(v) =>
      match IndexOf(w.db)
      case Failure(e) => Failure(e)
      case Success(lists) => Success(w.(db := w.db[IndexKey := Index(lists[v := Listed(lists, v) + [o]])]))
  }

  /** `remove_from_index`: removes the object from the index list of its
      current `x`; when that list does not hold it (or does not exist) the
      `list.remove` raises `ValueError`. */
  function RemoveFromIndex(w: World, o: ObjRef): (r: Result<World>)
    ensures r.Success? <==> GetAttr(w, o, IndexProp).Success? && IndexOf(w.db).Success?
                            && o in Listed(w.db[IndexKey].lists, w.heap[o].attrs[IndexProp])
    ensures r.Failure? && GetAttr(w, o, IndexProp).Success? && IndexOf(w.db).Success? ==> r.error == ValueError
    ensures r.Success? ==>
              var v := w.heap[o].attrs[IndexProp];
              var lists := w.db[IndexKey].lists;
              && r.value.heap == w.heap && r.value.nextRef == w.nextRef
              && r.value.db == w.db[IndexKey := Index(lists[v := RemoveFirst(Listed(lists, v), o)])]
  {
    match GetAttr(w, o, IndexProp)
    case Failure(e) => Failure(e)
    case Success(v) =>
      match IndexOf(w.db)
      case Failure(e) => Failure(e)
      case Success(lists) =>
        var l := Listed(lists, v);
        if o !in l then Failure(ValueError)
        else Success(w.(db := w.db[IndexKey := Index(lists[v := RemoveFirst(l, o)])]))
  }

  /** `Account.find_by_x`: the index list for `x`, or an empty list. */
  function FindByX(w: World, x: Value): (r: Result<seq<ObjRef>>)
    ensures r.Success? <==> IndexOf(w.db).Success?
    ensures r.Success? ==> (x in w.db[IndexKey].lists ==> r.value == w.db[IndexKey].lists[x])
    ensures r.Success? ==> (x !in w.db[IndexKey].lists ==> r.value == [])
  {
    match IndexOf(w.db)
    case Failure(e) => Failure(e)
    case Success(lists) => Success(Listed(lists, x))
  }

  // ----- put and delete -----

  /** The first lines of `put`: an object without an id takes the counter's
      value as its id and the key class name + id, and the counter moves on.
      Returns the world and the id. */
  function AssignId(w: World, o: ObjRef, id: Value): (r: Result<(World, Value)>)
    requires GetAttr(w, o, "id") == Success(id)
    ensures r.Success? ==> var (w', id') := r.value;
              id' != VNone && o in w'.heap && "id" in w'.heap[o].attrs && w'.heap[o].attrs["id"] == id'
    ensures id != VNone ==> r == Success((w, id))
    ensures id == VNone && NextKey in w.db && w.db[NextKey].Counter? ==>
              var n := w.db[NextKey].n;
              && r.Success? && r.value.1 == VInt(n)
              && r.value.0.db == w.db[NextKey := Counter(n + 1)]
              && r.value.0.heap == w.heap[o := w.heap[o].(attrs := w.heap[o].attrs["id" := VInt(n)]["key" := KeyFor(w.heap[o].cls, n)])]
              && r.value.0.nextRef == w.nextRef
    ensures id == VNone && NextKey !in w.db ==> r == Failure(KeyError)
    ensures id == VNone && NextKey in w.db && !w.db[NextKey].Counter? ==> r == Failure(TypeError)
  {
    if id != VNone then Success((w, id))
    else if NextKey !in w.db then Failure(KeyError)
    else match w.db[NextKey]
      case Counter(n) =>
        var w1 := SetAttr(SetAttr(w, o, "id", VInt(n)), o, "key", KeyFor(w.heap[o].cls, n));
        Success((w1.(db := w1.db[NextKey := Counter(n + 1)]), VInt(n)))
      case _ => Failure(TypeError)
  }

  /** `old = DB.get(id)` and, when there is one, `old.remove_from_index()`;
      an entry that is not an object has no such method. */
  function DropOld(w: World, id: Value): (r: Result<World>)
    ensures id !in w.db ==> r == Success(w)
    ensures id in w.db && !w.db[id].Row? ==> r == Failure(AttributeError)
    ensures id in w.db && w.db[id].Row? ==> r == RemoveFromIndex(w, w.db[id].obj)
  {
    if id !in w.db then Success(w)
    else match w.db[id]
      case Row(prev) => RemoveFromIndex(w, prev)
      case _ => Failure(AttributeError)
  }

  /** `Account.put`. */
  function Put(w: World, o: ObjRef): (r: Result<World>)
    ensures GetAttr(w, o, "id").Failure? ==> r == Failure(AttributeError)
    ensures r.Success? ==> o in r.value.heap && "id" in r.value.heap[o].attrs && r.value.heap[o].attrs["id"] != VNone
    ensures r.Success? ==> var id := r.value.heap[o].attrs["id"];
                           id in r.value.db && r.value.db[id] == Row(o)
  {
    match GetAttr(w, o, "id")
    case Failure(e) => Failure(e)
    case Success(id0) =>
      match AssignId(w, o, id0)
      case Failure(e) => Failure(e)
      case Success((w1, id)) =>
        match DropOld(w1, id)
        case Failure(e) => Failure(e)
        case Success(w2) =>
          AddToIndex(w2.(db := w2.db[id := Row(o)]), o)
  }

  /** `Account.delete`. */
  function Delete(w: World, o: ObjRef): (r: Result<World>)
    ensures GetAttr(w, o, "id").Failure? ==> r == Failure(AttributeError)
    ensures GetAttr(w, o, "id") == Success(VNone) ==> r == Failure(AssertionError)
    ensures r.Success? ==> var id := w.heap[o].attrs["id"];
                           && id != VNone && id in w.db && id !in r.value.db
                           && o in r.value.heap && r.value.heap[o].attrs == w.heap[o].attrs["id" := VNone]
  {
    match GetAttr(w, o, "id")
    case Failure(e) => Failure(e)
    case Success(id) =>
      if id == VNone then Failure(AssertionError)
      else
        match RemoveFromIndex(w, o)
        case Failure(e) => Failure(e)
        case Success(w1) =>
          if id !in w1.db then Failure(KeyError)
          else Success(SetAttr(w1.(db := w1.db - {id}), o, "id", VNone))
  }
}

=== FILE: sample_db_facts.dfy ===
/** What `put`, `delete` and `find_by_x` of tests/sampledb.py guarantee on a
    store laid out like `EMPTY_DB` and changed only through them: every stored
    object sits under its own id and appears exactly once in the index, under
    its current `x`; a `put` followed by a `delete` returns the store to its
    number of top-level keys (the check of tests/support.py:28-29). */
module SampleDbFacts {
  import opened Common
  import opened SampleDb

  /** The value of `DB['_next']`. */
  ghost function Next(w: World): int
    requires NextKey in w.db && w.db[NextKey].Counter?
  {
    w.db[NextKey].n
  }

  /** The dictionary under `DB['x']`. */
  ghost function Lists(w: World): map<Value, seq<ObjRef>>
    requires IndexKey in w.db && w.db[IndexKey].Index?
  {
    w.db[IndexKey].lists
  }

  ghost predicate Shaped(w: World) {
    && NextKey in w.db && w.db[NextKey].Counter? && Next(w) >= 1
    && IndexKey in w.db && w.db[IndexKey].Index?
  }

  /** The object stored under key `k`: a positive id the counter has already
      handed out, the object's own `id`, an `x` and exactly one index entry. */
  ghost predicate StoredAt(w: World, k: Value)
    requires Shaped(w) && k in w.db
  {
    && k.VInt? && 1 <= k.n < Next(w)
    && w.db[k].Row?
    && var p := w.db[k].obj;
    && p in w.heap && "id" in w.heap[p].attrs && w.heap[p].attrs["id"] == k
    && IndexProp in w.heap[p].attrs
    && Occurrences(Listed(Lists(w), w.heap[p].attrs[IndexProp]), p) == 1
  }

  /** An object in the index list for `v` is stored under its id and its `x`
      is `v`. */
  ghost predicate IndexedAt(w: World, v: Value, p: ObjRef) {
    && p in w.heap && "id" in w.heap[p].attrs && IndexProp in w.heap[p].attrs
    && var id := w.heap[p].attrs["id"];
    && id in w.db && w.db[id] == Row(p) && w.heap[p].attrs[IndexProp] == v
  }

  /** The store invariant `put` and `delete` maintain. */
  ghost predicate Consistent(w: World) {
    && Shaped(w)
    && (forall p :: p in w.heap ==> p < w.nextRef)
    && (forall k :: k in w.db && k != NextKey && k != IndexKey ==> StoredAt(w, k))
    && (forall v, p :: v in Lists(w) && p in Lists(w)[v] ==> IndexedAt(w, v, p))
  }

  /** `EMPTY_DB` satisfies the invariant. */
  lemma EmptyConsistent(heap: map<ObjRef, Account>, nextRef: ObjRef)
    requires forall p :: p in heap ==> p < nextRef
    ensures Consistent(World(EmptyDb(), heap, nextRef))
  {
  }

  /** In a consistent store an object whose `id` is `None` is neither stored
      nor indexed. */
  lemma UnassignedAbsent(w: World, o: ObjRef)
    requires Consistent(w) && o in w.heap && "id" in w.heap[o].attrs && w.heap[o].attrs["id"] == VNone
    ensures forall v :: o !in Listed(Lists(w), v)
    ensures forall k :: k in w.db ==> w.db[k] != Row(o)
  {
    forall v ensures o !in Listed(Lists(w), v) {
      if v in Lists(w) && o in Lists(w)[v] {
        assert false;
      }
    }
    forall k | k in w.db ensures w.db[k] != Row(o) {
      if w.db[k] == Row(o) {
        assert false;
      }
    }
  }

  /** In a consistent store a stored object is indexed once under its `x`
      and under no other value. */
  lemma StoredIndexed(w: World, o: ObjRef, k: Value)
    requires Consistent(w) && k in w.db && w.db[k] == Row(o)
    ensures o in w.heap && "id" in w.heap[o].attrs && w.heap[o].attrs["id"] == k && k.VInt?
    ensures IndexProp in w.heap[o].attrs
    ensures Occurrences(Listed(Lists(w), w.heap[o].attrs[IndexProp]), o) == 1
    ensures forall v :: v != w.heap[o].attrs[IndexProp] ==> o !in Listed(Lists(w), v)
  {
    assert StoredAt(w, k);
    forall v | v != w.heap[o].attrs[IndexProp] ensures o !in Listed(Lists(w), v) {
      if v in Lists(w) && o in Lists(w)[v] {
        assert false;
      }
    }
  }

  /** In a consistent store `find_by_x(x)` lists exactly the stored objects
      whose `x` is `x`, each once. */
  lemma FindByXStored(w: World, x: Value, o: ObjRef)
    requires Consistent(w)
    ensures FindByX(w, x).Success?
    ensures o in FindByX(w, x).value <==>
              && o in w.heap && "id" in w.heap[o].attrs && IndexProp in w.heap[o].attrs
              && w.heap[o].attrs["id"] in w.db && w.db[w.heap[o].attrs["id"]] == Row(o)
              && w.heap[o].attrs[IndexProp] == x
    ensures o in FindByX(w, x).value ==> Occurrences(FindByX(w, x).value, o) == 1
  {
    if o in FindByX(w, x).value {
      assert IndexedAt(w, x, o);
      StoredIndexed(w, o, w.heap[o].attrs["id"]);
    } else if o in w.heap && "id" in w.heap[o].attrs && w.heap[o].attrs["id"] in w.db
              && w.db[w.heap[o].attrs["id"]] == Row(o) {
      StoredIndexed(w, o, w.heap[o].attrs["id"]);
    }
  }

  /** `add_to_index` then `remove_from_index` of an object that was not
      listed under its `x`: the add appends it to that one answer of
      `find_by_x`, and the remove gives every answer back, touching nothing
      else in the store. */
  lemma IndexRoundTrip(w: World, o: ObjRef)
    requires AddToIndex(w, o).Success?
    requires o !in FindByX(w, w.heap[o].attrs[IndexProp]).value
    ensures var x := w.heap[o].attrs[IndexProp];
            var w' := AddToIndex(w, o).value;
            && FindByX(w', x) == Success(FindByX(w, x).value + [o])
            && (forall v :: v != x ==> FindByX(w', v) == FindByX(w, v))
            && RemoveFromIndex(w', o).Success?
            && var w'' := RemoveFromIndex(w', o).value;
            && w''.heap == w.heap && w''.nextRef == w.nextRef && w''.db.Keys == w.db.Keys
            && (forall k :: k in w.db && k != IndexKey ==> w''.db[k] == w.db[k])
            && (forall v :: FindByX(w'', v) == FindByX(w, v))
  {
    AddAppends(w, o);
    RemoveAfterAdd(w, o);
  }

  /** Replacing one list of the index leaves every other answer alone. */
  lemma ListedUpdate(lists: map<Value, seq<ObjRef>>, x: Value, l: seq<ObjRef>)
    ensures Listed(lists[x := l], x) == l
    ensures forall v :: v != x ==> Listed(lists[x := l], v) == Listed(lists, v)
  {
  }

  lemma AddAppends(w: World, o: ObjRef)
    requires AddToIndex(w, o).Success?
    ensures var x := w.heap[o].attrs[IndexProp];
            var w' := AddToIndex(w, o).value;
            && FindByX(w', x) == Success(FindByX(w, x).value + [o])
            && (forall v :: v != x ==> FindByX(w', v) == FindByX(w, v))
  {
    var x := w.heap[o].attrs[IndexProp];
    var lists := w.db[IndexKey].lists;
    ListedUpdate(lists, x, Listed(lists, x) + [o]);
  }

  lemma RemoveAfterAdd(w: World, o: ObjRef)
    requires AddToIndex(w, o).Success?
    requires o !in FindByX(w, w.heap[o].attrs[IndexProp]).value
    ensures var w' := AddToIndex(w, o).value;
            && RemoveFromIndex(w', o).Success?
            && var w'' := RemoveFromIndex(w', o).value;
            && w''.heap == w.heap && w''.nextRef == w.nextRef && w''.db.Keys == w.db.Keys
            && (forall k :: k in w.db && k != IndexKey ==> w''.db[k] == w.db[k])
            && (forall v :: FindByX(w'', v) == FindByX(w, v))
  {
    var x := w.heap[o].attrs[IndexProp];
    var lists := w.db[IndexKey].lists;
    var added := lists[x := Listed(lists, x) + [o]];
    ListedUpdate(lists, x, Listed(lists, x) + [o]);
    RemoveFirstAppended(Listed(lists, x), o);
    ListedUpdate(added, x, Listed(lists, x));
    assert added[x := Listed(lists, x)] == lists[x := Listed(lists, x)];
    ListedUpdate(lists, x, Listed(lists, x));
  }

  /** On a consistent store the counter hands an object without an id a
      fresh one: no key of `DB` holds it, and the store stays consistent. */
  lemma AssignIdFresh(w: World, o: ObjRef)
    requires Consistent(w) && o in w.heap && "id" in w.heap[o].attrs && w.heap[o].attrs["id"] == VNone
    ensures AssignId(w, o, VNone).Success?
    ensures var (w', id) := AssignId(w, o, VNone).value;
            && id == VInt(Next(w)) && id !in w.db
            && (forall k :: k in w.db && k.VInt? ==> k.n < id.n)
            && Next(w') == Next(w) + 1 && Consistent(w')
  {
    var (w', id) := AssignId(w, o, VNone).value;
    UnassignedAbsent(w, o);
    forall k | k in w.db && k.VInt?
      ensures k.n < Next(w)
    {
      assert StoredAt(w, k);
    }
    forall k | k in w'.db && k != NextKey && k != IndexKey
      ensures StoredAt(w', k)
    {
      assert StoredAt(w, k);
    }
    forall v, p | v in Lists(w') && p in Lists(w')[v]
      ensures IndexedAt(w', v, p)
    {
      assert IndexedAt(w, v, p);
    }
  }

  /** The first step of `put` on a consistent store: when `DB` already holds
      an object under the id, it vanishes from every answer of `find_by_x`
      while every other object keeps its number of occurrences. */
  lemma DropOldUnindexes(w: World, id: Value)
    requires Consistent(w) && id in w.db && w.db[id].Row?
    ensures DropOld(w, id).Success?
    ensures var p := w.db[id].obj;
            var w' := DropOld(w, id).value;
            && w'.heap == w.heap && w'.db.Keys == w.db.Keys
            && (forall v :: FindByX(w', v).Success? && p !in FindByX(w', v).value)
            && (forall v, q :: q != p ==> Occurrences(FindByX(w', v).value, q) == Occurrences(FindByX(w, v).value, q))
  {
    var p := w.db[id].obj;
    StoredIndexed(w, p, id);
    var x := w.heap[p].attrs[IndexProp];
    var l := Listed(Lists(w), x);
    assert p in multiset(l);
    var w' := DropOld(w, id).value;
    assert Listed(Lists(w'), x) == RemoveFirst(l, p);
    assert multiset(RemoveFirst(l, p))[p] == 0;
  }

  /** The world `put` leaves behind for an object without an id: it is
      stored under the counter's value, carries that id and the matching key,
      and is appended to the index list of its `x`. */
  ghost function PutFreshWorld(w: World, o: ObjRef): World
    requires Shaped(w) && o in w.heap && IndexProp in w.heap[o].attrs
  {
    var a := w.heap[o];
    var n := Next(w);
    var x := a.attrs[IndexProp];
    World(w.db[NextKey := Counter(n + 1)][VInt(n) := Row(o)]
              [IndexKey := Index(Lists(w)[x := Listed(Lists(w), x) + [o]])],
          w.heap[o := a.(attrs := a.attrs["id" := VInt(n)]["key" := KeyFor(a.cls, n)])],
          w.nextRef)
  }

  /** `put` on an object whose `id` is `None`. */
  lemma PutFresh(w: World, o: ObjRef)
    requires Consistent(w) && o in w.heap && IndexProp in w.heap[o].attrs
    requires "id" in w.heap[o].attrs && w.heap[o].attrs["id"] == VNone
    ensures var n := Next(w);
            var x := w.heap[o].attrs[IndexProp];
            && Put(w, o).Success?
            && var w' := Put(w, o).value;
            && Consistent(w')
            && w'.heap.Keys == w.heap.Keys
            && w'.heap[o].attrs["id"] == VInt(n) && w'.heap[o].attrs["key"] == KeyFor(w.heap[o].cls, n)
            && w'.heap[o].attrs[IndexProp] == x
            && (forall p :: p in w.heap && p != o ==> w'.heap[p] == w.heap[p])
            && VInt(n) !in w.db && w'.db.Keys == w.db.Keys + {VInt(n)} && w'.db[VInt(n)] == Row(o)
            && (forall k :: k in w.db && k != NextKey && k != IndexKey ==> w'.db[k] == w.db[k])
            && Next(w') == n + 1
            && FindByX(w', x) == Success(FindByX(w, x).value + [o])
            && (forall v :: v != x ==> FindByX(w', v) == FindByX(w, v))
  {
    var a := w.heap[o];
    var n := Next(w);
    var x := a.attrs[IndexProp];
    assert VInt(n) !in w.db by {
      if VInt(n) in w.db {
        assert false;
      }
    }
    var w1 := World(w.db[NextKey := Counter(n + 1)],
                    w.heap[o := a.(attrs := a.attrs["id" := VInt(n)]["key" := KeyFor(a.cls, n)])],
                    w.nextRef);
    assert AssignId(w, o, VNone) == Success((w1, VInt(n)));
    assert DropOld(w1, VInt(n)) == Success(w1);
    var w2 := w1.(db := w1.db[VInt(n) := Row(o)]);
    assert Put(w, o) == AddToIndex(w2, o);
    assert Put(w, o) == Success(PutFreshWorld(w, o));
    PutFreshShape(w, o);
    UnassignedAbsent(w, o);
    PutFreshConsistent(w, o);
  }

  /** The shape of the world after `put` of an unassigned object, apart from
      the invariant. */
  lemma PutFreshShape(w: World, o: ObjRef)
    requires Shaped(w) && o in w.heap && IndexProp in w.heap[o].attrs
    ensures var w' := PutFreshWorld(w, o);
            var n := Next(w);
            var x := w.heap[o].attrs[IndexProp];
            && Shaped(w') && Next(w') == n + 1 && w'.nextRef == w.nextRef
            && Lists(w') == Lists(w)[x := Listed(Lists(w), x) + [o]]
            && w'.db.Keys == w.db.Keys + {VInt(n)} && w'.db[VInt(n)] == Row(o)
            && (forall k :: k in w.db && k != NextKey && k != IndexKey && k != VInt(n) ==> w'.db[k] == w.db[k])
            && w'.heap.Keys == w.heap.Keys && (forall p :: p in w.heap && p != o ==> w'.heap[p] == w.heap[p])
            && w'.heap[o].attrs["id"] == VInt(n) && w'.heap[o].attrs[IndexProp] == x
  {
  }

  lemma PutFreshConsistent(w: World, o: ObjRef)
    requires Consistent(w) && o in w.heap && IndexProp in w.heap[o].attrs
    requires "id" in w.heap[o].attrs && w.heap[o].attrs["id"] == VNone
    requires VInt(Next(w)) !in w.db
    requires forall v :: o !in Listed(Lists(w), v)
    requires forall k :: k in w.db ==> w.db[k] != Row(o)
    ensures Consistent(PutFreshWorld(w, o))
  {
    PutFreshShape(w, o);
    var w' := PutFreshWorld(w, o);
    var n := Next(w);
    var x := w.heap[o].attrs[IndexProp];
    forall k | k in w'.db && k != NextKey && k != IndexKey
      ensures StoredAt(w', k)
    {
      if k == VInt(n) {
        assert Listed(Lists(w'), x) == Listed(Lists(w), x) + [o];
        assert Occurrences(Listed(Lists(w), x), o) == 0;
      } else {
        assert StoredAt(w, k);
        PutKeepsStored(w, o, k);
      }
    }
    forall v, p | v in Lists(w') && p in Lists(w')[v]
      ensures IndexedAt(w', v, p)
    {
      if v == x && p == o {
      } else {
        PutListed(w, o, v, p);
        assert IndexedAt(w, v, p);
        PutKeepsIndexed(w, o, v, p);
      }
    }
  }

  /** A stored object keeps its place when another is added. */
  lemma PutKeepsStored(w: World, o: ObjRef, k: Value)
    requires Shaped(w) && o in w.heap && IndexProp in w.heap[o].attrs
    requires k in w.db && k != NextKey && k != IndexKey && k != VInt(Next(w)) && StoredAt(w, k) && w.db[k].obj != o
    ensures StoredAt(PutFreshWorld(w, o), k)
  {
    PutFreshShape(w, o);
    var w' := PutFreshWorld(w, o);
    var x := w.heap[o].attrs[IndexProp];
    var p := w.db[k].obj;
    var xp := w.heap[p].attrs[IndexProp];
    assert Listed(Lists(w'), xp) == if xp == x then Listed(Lists(w), x) + [o] else Listed(Lists(w), xp);
  }

  /** After adding `o`, the index holds what it held before plus `o`. */
  lemma PutListed(w: World, o: ObjRef, v: Value, p: ObjRef)
    requires Shaped(w) && o in w.heap && IndexProp in w.heap[o].attrs
    requires p in Listed(Lists(PutFreshWorld(w, o)), v) && !(v == w.heap[o].attrs[IndexProp] && p == o)
    ensures v in Lists(w) && p in Lists(w)[v]
  {
    PutFreshShape(w, o);
    var w' := PutFreshWorld(w, o);
    var x := w.heap[o].attrs[IndexProp];
    if v == x {
      assert Listed(Lists(w'), v) == Listed(Lists(w), x) + [o];
    } else {
      assert Listed(Lists(w'), v) == Listed(Lists(w), v);
    }
  }

  /** An indexed object stays indexed when another is added. */
  lemma PutKeepsIndexed(w: World, o: ObjRef, v: Value, p: ObjRef)
    requires Shaped(w) && o in w.heap && IndexProp in w.heap[o].attrs && VInt(Next(w)) !in w.db
    requires IndexedAt(w, v, p) && p != o
    ensures IndexedAt(PutFreshWorld(w, o), v, p)
  {
    PutFreshShape(w, o);
  }

  /** Rearranging index lists without changing what each holds keeps the
      invariant. */
  lemma SameIndexContents(w: World, w': World)
    requires Consistent(w) && w'.heap == w.heap && w'.nextRef == w.nextRef
    requires w'.db.Keys == w.db.Keys && IndexKey in w'.db && w'.db[IndexKey].Index?
    requires forall k :: k in w.db && k != IndexKey ==> w'.db[k] == w.db[k]
    requires forall v :: multiset(Listed(Lists(w'), v)) == multiset(Listed(Lists(w), v))
    ensures Consistent(w')
  {
    forall k | k in w'.db && k != NextKey && k != IndexKey
      ensures StoredAt(w', k)
    {
      assert StoredAt(w, k);
      var p := w.db[k].obj;
      assert multiset(Listed(Lists(w'), w.heap[p].attrs[IndexProp])) == multiset(Listed(Lists(w), w.heap[p].attrs[IndexProp]));
    }
    forall v, p | v in Lists(w') && p in Lists(w')[v]
      ensures IndexedAt(w', v, p)
    {
      assert p in multiset(Listed(Lists(w'), v));
      assert p in Listed(Lists(w), v);
      assert IndexedAt(w, v, p);
    }
  }

  /** The world `put` leaves behind for an object already stored: its index
      entry moved to the end of its list. */
  ghost function RePutWorld(w: World, o: ObjRef): World
    requires Shaped(w) && o in w.heap && IndexProp in w.heap[o].attrs
    requires o in Listed(Lists(w), w.heap[o].attrs[IndexProp])
  {
    var x := w.heap[o].attrs[IndexProp];
    w.(db := w.db[IndexKey := Index(Lists(w)[x := RemoveFirst(Listed(Lists(w), x), o) + [o]])])
  }

  lemma PutStoredRun(w: World, o: ObjRef, k: Value)
    requires Shaped(w) && k in w.db && w.db[k] == Row(o) && k != IndexKey && k != VNone
    requires o in w.heap && "id" in w.heap[o].attrs && w.heap[o].attrs["id"] == k && IndexProp in w.heap[o].attrs
    requires o in Listed(Lists(w), w.heap[o].attrs[IndexProp])
    ensures Put(w, o) == Success(RePutWorld(w, o))
  {
    var x := w.heap[o].attrs[IndexProp];
    var r := RemoveFirst(Listed(Lists(w), x), o);
    var l1 := Lists(w)[x := r];
    var w2 := w.(db := w.db[IndexKey := Index(l1)]);
    assert DropOld(w, k) == Success(w2);
    var w3 := w2.(db := w2.db[k := Row(o)]);
    assert Put(w, o) == AddToIndex(w3, o);
    assert l1[x := r + [o]] == Lists(w)[x := r + [o]];
    assert w.db[k := Row(o)] == w.db;
    assert w3.db[IndexKey := Index(l1[x := r + [o]])] == RePutWorld(w, o).db;
  }

  /** `put` on an object already stored under its id (with the `x` it was
      indexed under): the store keeps its keys and counter, and the object's
      index entry moves to the end of its list, still exactly once. */
  lemma PutStored(w: World, o: ObjRef, k: Value)
    requires Consistent(w) && k in w.db && w.db[k] == Row(o)
    ensures o in w.heap && IndexProp in w.heap[o].attrs
    ensures var x := w.heap[o].attrs[IndexProp];
            var l := Listed(Lists(w), x);
            && Put(w, o).Success?
            && var w' := Put(w, o).value;
            && Consistent(w')
            && w'.heap == w.heap && w'.db.Keys == w.db.Keys && Next(w') == Next(w)
            && o in l
            && FindByX(w', x) == Success(RemoveFirst(l, o) + [o])
            && Occurrences(FindByX(w', x).value, o) == 1
            && (forall v :: v != x ==> FindByX(w', v) == FindByX(w, v))
  {
    StoredIndexed(w, o, k);
    var x := w.heap[o].attrs[IndexProp];
    var l := Listed(Lists(w), x);
    assert o in multiset(l);
    var r := RemoveFirst(l, o);
    PutStoredRun(w, o, k);
    var w' := RePutWorld(w, o);
    assert multiset(r + [o]) == multiset(l);
    forall v ensures multiset(Listed(Lists(w'), v)) == multiset(Listed(Lists(w), v)) {
    }
    SameIndexContents(w, w');
  }

  /** The world `delete` leaves behind for the object stored under `k`. */
  ghost function DeleteWorld(w: World, o: ObjRef, k: Value): World
    requires Shaped(w) && o in w.heap && IndexProp in w.heap[o].attrs
    requires o in Listed(Lists(w), w.heap[o].attrs[IndexProp])
  {
    var a := w.heap[o];
    var x := a.attrs[IndexProp];
    World(w.db[IndexKey := Index(Lists(w)[x := RemoveFirst(Listed(Lists(w), x), o)])] - {k},
          w.heap[o := a.(attrs := a.attrs["id" := VNone])],
          w.nextRef)
  }

  /** `delete` of a stored object: its key leaves `DB`, its index entry goes,
      its `id` becomes `None` (so a second `delete` fails its assertion), and
      the invariant holds again. */
  lemma DeleteStored(w: World, o: ObjRef, k: Value)
    requires Consistent(w) && k in w.db && w.db[k] == Row(o)
    ensures o in w.heap && IndexProp in w.heap[o].attrs
    ensures var x := w.heap[o].attrs[IndexProp];
            var l := Listed(Lists(w), x);
            && Delete(w, o).Success?
            && var w' := Delete(w, o).value;
            && Consistent(w')
            && w'.db.Keys == w.db.Keys - {k} && |w'.db.Keys| == |w.db.Keys| - 1
            && (forall k' :: k' in w'.db && k' != IndexKey ==> w'.db[k'] == w.db[k'])
            && w'.heap.Keys == w.heap.Keys && w'.heap[o].attrs == w.heap[o].attrs["id" := VNone]
            && (forall p :: p in w.heap && p != o ==> w'.heap[p] == w.heap[p])
            && Next(w') == Next(w)
            && o in l && FindByX(w', x) == Success(RemoveFirst(l, o))
            && (forall v :: v != x ==> FindByX(w', v) == FindByX(w, v))
            && (forall v :: o !in FindByX(w', v).value)
            && Delete(w', o) == Failure(AssertionError)
  {
    StoredIndexed(w, o, k);
    var a := w.heap[o];
    var x := a.attrs[IndexProp];
    var l := Listed(Lists(w), x);
    assert o in multiset(l);
    var r := RemoveFirst(l, o);
    var w1 := w.(db := w.db[IndexKey := Index(Lists(w)[x := r])]);
    assert RemoveFromIndex(w, o) == Success(w1);
    assert Delete(w, o) == Success(DeleteWorld(w, o, k));
    var w' := DeleteWorld(w, o, k);
    assert w'.db.Keys == w.db.Keys - {k};
    RemoveOneCard(w.db.Keys, k);
    assert Occurrences(r, o) == 0;
    DeleteWorldShape(w, o, k);
    DeleteConsistent(w, o, k);
  }

  /** The shape of the world after `delete`, apart from the invariant. */
  lemma DeleteWorldShape(w: World, o: ObjRef, k: Value)
    requires Shaped(w) && o in w.heap && IndexProp in w.heap[o].attrs && k != NextKey && k != IndexKey
    requires o in Listed(Lists(w), w.heap[o].attrs[IndexProp])
    ensures var w' := DeleteWorld(w, o, k);
            var x := w.heap[o].attrs[IndexProp];
            && Shaped(w') && Next(w') == Next(w) && w'.nextRef == w.nextRef
            && Lists(w') == Lists(w)[x := RemoveFirst(Listed(Lists(w), x), o)]
            && w'.db.Keys == w.db.Keys - {k}
            && (forall k' :: k' in w'.db && k' != IndexKey ==> w'.db[k'] == w.db[k'])
            && w'.heap.Keys == w.heap.Keys && (forall p :: p in w.heap && p != o ==> w'.heap[p] == w.heap[p])
  {
  }

  lemma DeleteConsistent(w: World, o: ObjRef, k: Value)
    requires Consistent(w) && k in w.db && w.db[k] == Row(o)
    requires o in w.heap && "id" in w.heap[o].attrs && w.heap[o].attrs["id"] == k && IndexProp in w.heap[o].attrs
    requires var l := Listed(Lists(w), w.heap[o].attrs[IndexProp]); o in l && Occurrences(RemoveFirst(l, o), o) == 0
    requires forall v :: v != w.heap[o].attrs[IndexProp] ==> o !in Listed(Lists(w), v)
    ensures Consistent(DeleteWorld(w, o, k))
  {
    assert k != NextKey && k != IndexKey;
    DeleteWorldShape(w, o, k);
    var w' := DeleteWorld(w, o, k);
    forall k' | k' in w'.db && k' != NextKey && k' != IndexKey
      ensures StoredAt(w', k')
    {
      assert StoredAt(w, k');
      DeleteKeepsStored(w, o, k, k');
    }
    forall v, p | v in Lists(w') && p in Lists(w')[v]
      ensures IndexedAt(w', v, p)
    {
      DeleteListed(w, o, k, v, p);
      assert IndexedAt(w, v, p);
      DeleteKeepsIndexed(w, o, k, v, p);
    }
  }

  /** A stored object other than the deleted one keeps its place. */
  lemma DeleteKeepsStored(w: World, o: ObjRef, k: Value, k': Value)
    requires Shaped(w) && o in w.heap && IndexProp in w.heap[o].attrs && k != NextKey && k != IndexKey
    requires o in Listed(Lists(w), w.heap[o].attrs[IndexProp])
    requires k' in w.db && k' != k && k' != NextKey && k' != IndexKey && StoredAt(w, k') && w.db[k'].obj != o
    ensures StoredAt(DeleteWorld(w, o, k), k')
  {
    DeleteWorldShape(w, o, k);
    var w' := DeleteWorld(w, o, k);
    var x := w.heap[o].attrs[IndexProp];
    var l := Listed(Lists(w), x);
    var r := RemoveFirst(l, o);
    var p := w.db[k'].obj;
    var xp := w.heap[p].attrs[IndexProp];
    if xp == x {
      assert Occurrences(r, p) == Occurrences(l, p);
    } else {
      assert Listed(Lists(w'), xp) == Listed(Lists(w), xp);
    }
  }

  /** What the index holds after `delete` it held before, and the deleted
      object is no longer in it. */
  lemma DeleteListed(w: World, o: ObjRef, k: Value, v: Value, p: ObjRef)
    requires Shaped(w) && o in w.heap && IndexProp in w.heap[o].attrs && k != NextKey && k != IndexKey
    requires o in Listed(Lists(w), w.heap[o].attrs[IndexProp])
    requires Occurrences(RemoveFirst(Listed(Lists(w), w.heap[o].attrs[IndexProp]), o), o) == 0
    requires forall v :: v != w.heap[o].attrs[IndexProp] ==> o !in Listed(Lists(w), v)
    requires p in Listed(Lists(DeleteWorld(w, o, k)), v)
    ensures v in Lists(w) && p in Lists(w)[v] && p != o
  {
    DeleteWorldShape(w, o, k);
    var x := w.heap[o].attrs[IndexProp];
    var l := Listed(Lists(w), x);
    var r := RemoveFirst(l, o);
    var w' := DeleteWorld(w, o, k);
    if v == x {
      assert Listed(Lists(w'), v) == r;
      assert Occurrences(r, p) > 0;
      assert Occurrences(l, p) > 0;
    } else {
      assert Listed(Lists(w'), v) == Listed(Lists(w), v);
    }
  }

  /** An indexed object other than the deleted one stays indexed. */
  lemma DeleteKeepsIndexed(w: World, o: ObjRef, k: Value, v: Value, p: ObjRef)
    requires Shaped(w) && o in w.heap && IndexProp in w.heap[o].attrs && k != NextKey && k != IndexKey
    requires o in Listed(Lists(w), w.heap[o].attrs[IndexProp])
    requires IndexedAt(w, v, p) && p != o && k in w.db && w.db[k] == Row(o)
    ensures IndexedAt(DeleteWorld(w, o, k), v, p)
  {
    DeleteWorldShape(w, o, k);
  }

  /** A new object `put` and then `delete`d: the store is back to its number
      of top-level keys and every `find_by_x` answers as before; only the
      counter has moved on. */
  lemma PutThenDelete(w: World, o: ObjRef)
    requires Consistent(w) && o in w.heap && IndexProp in w.heap[o].attrs
    requires "id" in w.heap[o].attrs && w.heap[o].attrs["id"] == VNone
    ensures Put(w, o).Success? && Delete(Put(w, o).value, o).Success?
    ensures var w'' := Delete(Put(w, o).value, o).value;
            && Consistent(w'')
            && |w''.db.Keys| == |w.db.Keys|
            && (forall v :: FindByX(w'', v) == FindByX(w, v))
            && Next(w'') == Next(w) + 1
            && w''.heap[o].attrs["id"] == VNone
  {
    var n := Next(w);
    var x := w.heap[o].attrs[IndexProp];
    PutFresh(w, o);
    UnassignedAbsent(w, o);
    var w' := Put(w, o).value;
    DeleteStored(w', o, VInt(n));
    var w'' := Delete(w', o).value;
    IndexBack(w, w', w'', o, x);
    CountBack(w.db.Keys, w'.db.Keys, w''.db.Keys, VInt(n));
  }

  lemma CountBack(a: set<Value>, b: set<Value>, c: set<Value>, k: Value)
    requires k !in a && b == a + {k} && c == b - {k}
    ensures |c| == |a|
  {
    assert c == a;
  }

  /** Appending an object to one index list and then removing it again
      leaves every `find_by_x` answer as it was. */
  lemma IndexBack(w: World, w': World, w'': World, o: ObjRef, x: Value)
    requires FindByX(w, x).Success? && o !in FindByX(w, x).value
    requires FindByX(w', x) == Success(FindByX(w, x).value + [o])
    requires forall v :: v != x ==> FindByX(w', v) == FindByX(w, v)
    requires o in FindByX(w', x).value && FindByX(w'', x) == Success(RemoveFirst(FindByX(w', x).value, o))
    requires forall v :: v != x ==> FindByX(w'', v) == FindByX(w', v)
    ensures forall v :: FindByX(w'', v) == FindByX(w, v)
  {
    RemoveFirstAppended(FindByX(w, x).value, o);
  }

  /** `put` again after changing the `x` of a stored object: `remove_from_index`
      looks for the object under the new `x`, where it is not, and raises. */
  lemma PutAfterMoveFails(w: World, o: ObjRef, k: Value, x': Value)
    requires Consistent(w) && k in w.db && w.db[k] == Row(o)
    requires o in w.heap && IndexProp in w.heap[o].attrs && x' != w.heap[o].attrs[IndexProp]
    ensures Put(SetAttr(w, o, IndexProp, x'), o) == Failure(ValueError)
  {
    StoredIndexed(w, o, k);
    assert o !in Listed(Lists(w), x');
  }

  /** Creating an object touches neither `DB` nor any existing object. */
  lemma AllocConsistent(w: World, a: Account)
    requires Consistent(w)
    ensures var (w', o) := Alloc(w, a);
            o !in w.heap && w'.heap == w.heap[o := a] && w'.db == w.db && Consistent(w')
  {
    var (w', o) := Alloc(w, a);
    forall k | k in w'.db && k != NextKey && k != IndexKey
      ensures StoredAt(w', k)
    {
      assert StoredAt(w, k);
    }
    forall v, p | v in Lists(w') && p in Lists(w')[v]
      ensures IndexedAt(w', v, p)
    {
      assert IndexedAt(w, v, p);
    }
  }
}

=== FILE: teardown.dfy ===
/** Whether a decorated call cleans up after itself
    (funfixtures/common.py:104-120, 125-170, 176-184): started with every
    item unloaded, a call that gets past the loader ends with every item
    unloaded again. The argument needs two invariants of the loader's state
    besides the reference counts: an item held is published, and an item
    published was created after every item it pulled in, so the pulled-in
    lists never form a cycle. */
module Teardown {
  import opened Common
  import opened FixtureModel
  import opened Loader
  import opened LoadFacts
  import opened UnloadFacts
  import opened RefCount
  import opened RefFacts
  import opened ItemTheorems
  import opened FixtureTheorems

  /** The position in `log` of the last `create_item_instance` call for
      `q`, or -1 when there is none. */
  ghost function LastCreate<I(!new)>(log: seq<Event<I>>, q: ItemId): (r: int)
    ensures -1 <= r < |log|
    ensures r >= 0 ==> log[r].CreateEvent? && log[r].item == q
    ensures forall p :: r < p < |log| ==> !(log[p].CreateEvent? && log[p].item == q)
    decreases |log|
  {
    if log == [] then -1
    else if log[|log| - 1].CreateEvent? && log[|log| - 1].item == q then |log| - 1
    else LastCreate(log[..|log| - 1], q)
  }

  /** Appending calls that create nothing keeps every item's last creation. */
  lemma {:induction false} LastCreateNoCreates<I(!new)>(log: seq<Event<I>>, log': seq<Event<I>>, q: ItemId)
    requires log <= log'
    requires forall p :: |log| <= p < |log'| ==> !log'[p].CreateEvent?
    ensures LastCreate(log', q) == LastCreate(log, q)
    decreases |log'|
  {
    if |log'| > |log| {
      assert log'[..|log'| - 1] == log'[..|log'| - 1];
      assert log <= log'[..|log'| - 1];
      LastCreateNoCreates(log, log'[..|log'| - 1], q);
    }
  }

  /** Appending one create for `i` makes `i` the latest item created and
      keeps every other item's last creation. */
  lemma LastCreateAppend<I(!new)>(log: seq<Event<I>>, i: ItemId, values: map<Name, Value>, q: ItemId)
    ensures LastCreate(log + [CreateEvent(i, values)], i) == |log|
    ensures q != i ==> LastCreate(log + [CreateEvent(i, values)], q) == LastCreate(log, q)
  {
    assert (log + [CreateEvent(i, values)])[..|log|] == log;
  }

  // ---------------------------------------------------------------------
  // The invariants

  /** Every item held is published (outside a running `load_item`). */
  ghost predicate Settled<S, I(!new)>(st: St<S, I>) {
    forall q :: q in st.slots && st.slots[q].count > 0 ==> st.slots[q].instance.Some?
  }

  /** Every item a published item pulled in is published and was created
      before it. */
  ghost predicate Ranked<S, I(!new)>(st: St<S, I>) {
    forall q, j :: q in st.slots && st.slots[q].instance.Some? && j in st.slots[q].pulled ==>
      && j in st.slots && st.slots[j].instance.Some?
      && LastCreate(st.log, j) < LastCreate(st.log, q)
  }

  /** Every item `i` has pulled in so far is published. */
  ghost predicate PulledLive<S, I(!new)>(st: St<S, I>, i: ItemId)
    requires i in st.slots
  {
    forall j :: j in st.slots[i].pulled ==> j in st.slots && st.slots[j].instance.Some?
  }

  /** All four invariants a decorated call keeps. */
  ghost predicate Sound<S, I(!new)>(st: St<S, I>) {
    Tidy(st) && Covered(st) && Settled(st) && Ranked(st)
  }

  // ---------------------------------------------------------------------
  // Loads keep the ranking

  /** `load_item` keeps every published item ranked after what it pulled in. */
  lemma {:induction false} LoadItemRanked<S, I(!new)>(b: Backend<S, I>, cfg: Config<I>, fix: FixtureId, i: ItemId, st: St<S, I>)
    requires Valid(cfg, st) && Tidy(st) && Ranked(st)
    requires LoadItem(b, cfg, fix, i, st).Ok?
    ensures Ranked(LoadItem(b, cfg, fix, i, st).value.0)
    decreases Unloaded(st), 0, 0, 0, 1
  {
    if st.slots[i].count == 0 {
      FirstLoadRanked(b, cfg, fix, i, st);
    } else {
      LoadItemSlots(b, cfg, fix, i, st);
      var st' := LoadItem(b, cfg, fix, i, st).value.0;
      assert st'.log == st.log;
      assert forall q :: q in st.slots ==> st'.slots[q].instance == st.slots[q].instance
                                            && st'.slots[q].pulled == st.slots[q].pulled;
    }
  }

  lemma {:induction false} FirstLoadRanked<S, I(!new)>(b: Backend<S, I>, cfg: Config<I>, fix: FixtureId, i: ItemId, st: St<S, I>)
    requires Valid(cfg, st) && Tidy(st) && Ranked(st)
    requires LoadItem(b, cfg, fix, i, st).Ok? && st.slots[i].count == 0
    ensures Ranked(LoadItem(b, cfg, fix, i, st).value.0)
    decreases Unloaded(st), 0, 0, 0, 0
  {
    var s := st.slots[i];
    var st1 := st.(slots := st.slots[i := s.(count := 1, pulled := [])]);
    FirstLoadUnfolds(b, cfg, fix, i, st);
    MarkLoadingUnloaded(st, st1, i);
    MarkLoadingTidy(st, st1, i);
    MarkRanked(st, st1, i);
    ResolveRanked(b, cfg, i, 0, cfg.items[i].fixed, [], st1);
    var (st2, values) := Resolve(b, cfg, i, 0, cfg.items[i].fixed, [], st1).value;
    var _, _, _, _ := ResolveFacts(b, cfg, i, 0, cfg.items[i].fixed, [], st1);
    var c := b.create(st2.store, i, values);
    PublishRanked(st2, i, values, c.store, c.instance);
  }

  /** Marking an idle item as loading touches no published item. */
  lemma MarkRanked<S, I(!new)>(st: St<S, I>, st1: St<S, I>, i: ItemId)
    requires Tidy(st) && Ranked(st) && i in st.slots && st.slots[i].count == 0
    requires st1 == st.(slots := st.slots[i := st.slots[i].(count := 1, pulled := [])])
    ensures Ranked(st1)
  {
    assert st.slots[i] == Idle();
  }

  /** Publishing `i`, whose pulled-in items are all published, with a create
      at the end of the log ranks it after all of them. */
  lemma PublishRanked<S, I(!new)>(st2: St<S, I>, i: ItemId, values: map<Name, Value>, store: S, inst: I)
    requires Ranked(st2) && i in st2.slots && st2.slots[i].instance.None? && PulledLive(st2, i)
    ensures Ranked(st2.(slots := st2.slots[i := st2.slots[i].(instance := Some(inst))],
                        store := store, log := st2.log + [CreateEvent(i, values)]))
  {
    var st3 := st2.(slots := st2.slots[i := st2.slots[i].(instance := Some(inst))],
                    store := store, log := st2.log + [CreateEvent(i, values)]);
    forall q, j | q in st3.slots && st3.slots[q].instance.Some? && j in st3.slots[q].pulled
      ensures j in st3.slots && st3.slots[j].instance.Some?
      ensures LastCreate(st3.log, j) < LastCreate(st3.log, q)
    {
      LastCreateAppend(st2.log, i, values, j);
      LastCreateAppend(st2.log, i, values, q);
      if q != i {
        assert st2.slots[q].instance.Some? && j in st2.slots[q].pulled;
      }
    }
  }

  /** The attribute loop keeps the ranking and leaves every item it pulled
      in published. */
  lemma {:induction false} ResolveRanked<S, I(!new)>(b: Backend<S, I>, cfg: Config<I>, i: ItemId, k: nat, values: map<Name, Value>,
                                               tried: seq<ItemId>, st: St<S, I>)
    requires Valid(cfg, st) && Tidy(st) && i in cfg.items && k <= |cfg.items[i].attrs|
    requires st.slots[i].count > 0 && st.slots[i].instance.None?
    requires st.slots[i].pulled == tried && Distinct(tried) && Elems(tried) <= cfg.items.Keys
    requires Ranked(st) && PulledLive(st, i)
    requires Resolve(b, cfg, i, k, values, tried, st).Ok?
    ensures var st' := Resolve(b, cfg, i, k, values, tried, st).value.0;
            i in st'.slots && Ranked(st') && PulledLive(st', i)
    decreases Unloaded(st), 1, |cfg.items[i].attrs| - k, |cfg.items.Keys - Elems(tried)|, 1
  {
    var attrs := cfg.items[i].attrs;
    if k < |attrs| {
      var a := attrs[k];
      match a.compute(ViewOf(cfg, st, st.depth + 1))
      case Ready(v) =>
        ResolveRanked(b, cfg, i, k + 1, values[a.name := v], tried, st);
      case NeedsItem(j, cause) =>
        ResolvePullRanked(b, cfg, i, k, values, tried, st, j);
    }
  }

  lemma {:induction false} ResolvePullRanked<S, I(!new)>(b: Backend<S, I>, cfg: Config<I>, i: ItemId, k: nat, values: map<Name, Value>,
                                                   tried: seq<ItemId>, st: St<S, I>, j: ItemId)
    requires Valid(cfg, st) && Tidy(st) && i in cfg.items && k < |cfg.items[i].attrs|
    requires st.slots[i].count > 0 && st.slots[i].instance.None?
    requires st.slots[i].pulled == tried && Distinct(tried) && Elems(tried) <= cfg.items.Keys
    requires Ranked(st) && PulledLive(st, i)
    requires cfg.items[i].attrs[k].compute(ViewOf(cfg, st, st.depth + 1)).NeedsItem?
    requires cfg.items[i].attrs[k].compute(ViewOf(cfg, st, st.depth + 1)).item == j
    requires Resolve(b, cfg, i, k, values, tried, st).Ok?
    ensures var st' := Resolve(b, cfg, i, k, values, tried, st).value.0;
            i in st'.slots && Ranked(st') && PulledLive(st', i)
    decreases Unloaded(st), 1, |cfg.items[i].attrs| - k, |cfg.items.Keys - Elems(tried)|, 0
  {
    var st1 := st.(slots := st.slots[i := st.slots[i].(pulled := st.slots[i].pulled + [j])]);
    ResolvePullUnfolds(b, cfg, i, k, values, tried, st, j);
    RecordPullKeepsCounts(st, i, j);
    RecordPullTidy(st, st1, i, j);
    RecordPullRanked(st, st1, i, j);
    LoadItemSlots(b, cfg, j.fixture, j, st1);
    LoadItemRanked(b, cfg, j.fixture, j, st1);
    var (st2, inst) := LoadItem(b, cfg, j.fixture, j, st1).value;
    LoadKeepsResolving(st1, st2, i, j, inst);
    GrowsUnloaded(st1, st2);
    UntriedShrinks(cfg.items.Keys, tried, j);
    ElemsAppend(tried, j);
    DistinctAppend(tried, j);
    PulledStillLive(st, st1, st2, i, j, inst);
    ResolveRanked(b, cfg, i, k, values, tried + [j], st2);
  }

  /** Recording a request in the pulled-in list of the unpublished item
      being loaded touches no published item. */
  lemma RecordPullRanked<S, I(!new)>(st: St<S, I>, st1: St<S, I>, i: ItemId, j: ItemId)
    requires Ranked(st) && i in st.slots && st.slots[i].instance.None?
    requires st1 == st.(slots := st.slots[i := st.slots[i].(pulled := st.slots[i].pulled + [j])])
    ensures Ranked(st1)
  {
  }

  /** After the requested item's load, everything `i` pulled in, the new
      request included, is published. */
  lemma PulledStillLive<S, I(!new)>(st: St<S, I>, st1: St<S, I>, st2: St<S, I>, i: ItemId, j: ItemId, inst: I)
    requires Tidy(st) && i in st.slots && st.slots[i].count > 0 && st.slots[i].instance.None? && PulledLive(st, i)
    requires st1 == st.(slots := st.slots[i := st.slots[i].(pulled := st.slots[i].pulled + [j])])
    requires j != i && LoadSlots(st1, st2, j, inst)
    ensures i in st2.slots && st2.slots[i] == st1.slots[i] && PulledLive(st2, i)
  {
    assert KeptOnLoad(st1.slots[i], st2.slots[i]);
    forall q | q in st2.slots[i].pulled
      ensures q in st2.slots && st2.slots[q].instance.Some?
    {
      if q != j {
        assert q in st.slots[i].pulled;
        assert q != i;
        assert st1.slots[q].count > 0;
        if q != j {
          assert KeptOnLoad(st1.slots[q], st2.slots[q]);
        }
      }
    }
  }

  // ---------------------------------------------------------------------
  // Unloads keep the ranking

  /** An entry of a pulled-in list is in the pool. */
  lemma InPool<I(!new)>(slots: map<ItemId, Slot<I>>, k: ItemId, j: ItemId)
    requires k in slots && j in slots[k].pulled
    ensures Pool(slots)[j] >= 1
  {
    PoolRemove(slots, k);
  }

  /** An item in the pool is in some pulled-in list. */
  lemma {:induction false} PoolHolder<I(!new)>(slots: map<ItemId, Slot<I>>, j: ItemId) returns (k: ItemId)
    requires Pool(slots)[j] >= 1
    ensures k in slots && j in slots[k].pulled
    decreases |slots.Keys|
  {
    var m :| m in slots;
    PoolRemove(slots, m);
    if j in slots[m].pulled {
      k := m;
    } else {
      RemoveKeyCard(slots, m);
      k := PoolHolder(slots - {m}, j);
    }
  }

  /** A step that only unloads keeps the invariants when the counts still
      cover the pool afterwards. */
  lemma UnloadSound<S, I(!new)>(st: St<S, I>, st': St<S, I>)
    requires Sound(st) && AllKeptOnUnload(st, st') && DestroysExactly(st, st') && Covered(st')
    ensures Sound(st')
  {
    UnloadKeepsTidy(st, st');
    DestroysNoCreates(st, st');
    UnloadRanked(st, st');
  }

  /** An unload's backend calls are destroys only. */
  lemma DestroysNoCreates<S, I(!new)>(st: St<S, I>, st': St<S, I>)
    requires DestroysExactly(st, st')
    ensures st.log <= st'.log && forall p :: |st.log| <= p < |st'.log| ==> !st'.log[p].CreateEvent?
  {
    forall p | |st.log| <= p < |st'.log|
      ensures !st'.log[p].CreateEvent?
    {
      assert st'.log[p] == st'.log[|st.log|..][p - |st.log|];
    }
  }

  /** An unload that creates nothing and leaves every count covering the
      pool keeps the ranking. */
  lemma UnloadRanked<S, I(!new)>(st: St<S, I>, st': St<S, I>)
    requires Ranked(st) && AllKeptOnUnload(st, st') && Covered(st')
    requires st.log <= st'.log && forall p :: |st.log| <= p < |st'.log| ==> !st'.log[p].CreateEvent?
    ensures Ranked(st')
  {
    forall q, j | q in st'.slots && st'.slots[q].instance.Some? && j in st'.slots[q].pulled
      ensures j in st'.slots && st'.slots[j].instance.Some?
      ensures LastCreate(st'.log, j) < LastCreate(st'.log, q)
    {
      assert KeptOnUnload(st.slots[q], st'.slots[q]);
      PublishedKept(st.slots[q], st'.slots[q]);
      InPool(st'.slots, q, j);
      assert Ext(st', j) >= 0;
      assert KeptOnUnload(st.slots[j], st'.slots[j]);
      PublishedKept(st.slots[j], st'.slots[j]);
      LastCreateNoCreates(st.log, st'.log, j);
      LastCreateNoCreates(st.log, st'.log, q);
    }
  }

  /** An unload keeps the instance and pulled-in list of an item that is
      still counted or still published. */
  lemma PublishedKept<I(!new)>(s: Slot<I>, s': Slot<I>)
    requires KeptOnUnload(s, s')
    ensures s'.count > 0 || s'.instance.Some? ==> s'.instance == s.instance && s'.pulled == s.pulled
  {
  }

  /** `unload_item` on an item the caller holds a reference for keeps the
      invariants. */
  lemma UnloadItemSound<S, I(!new)>(b: Backend<S, I>, cfg: Config<I>, fix: FixtureId, i: ItemId, st: St<S, I>)
    requires Valid(cfg, st) && Sound(st) && i in st.slots && Ext(st, i) >= 1
    requires UnloadItem(b, cfg, fix, i, st).Ok?
    ensures Sound(UnloadItem(b, cfg, fix, i, st).value)
  {
    UnloadItemFacts(b, cfg, fix, i, st);
    CoveredKept(b, cfg, fix, i, st);
    UnloadSound(st, UnloadItem(b, cfg, fix, i, st).value);
  }

  /** `load_item` keeps the invariants. */
  lemma LoadItemSound<S, I(!new)>(b: Backend<S, I>, cfg: Config<I>, fix: FixtureId, i: ItemId, st: St<S, I>)
    requires Valid(cfg, st) && Sound(st)
    requires LoadItem(b, cfg, fix, i, st).Ok?
    ensures Sound(LoadItem(b, cfg, fix, i, st).value.0)
  {
    LoadItemSlots(b, cfg, fix, i, st);
    LoadItemRanked(b, cfg, fix, i, st);
    CoveredKept(b, cfg, fix, i, st);
    var (st', inst) := LoadItem(b, cfg, fix, i, st).value;
    forall q | q in st'.slots && st'.slots[q].count > 0
      ensures st'.slots[q].instance.Some?
    {
      if q != i {
        assert KeptOnLoad(st.slots[q], st'.slots[q]);
      }
    }
  }

  // ---------------------------------------------------------------------
  // Over a fixture's chain and the decorator

  /** The external references cover one unload of each entry of `items`. */
  ghost predicate Owed<S, I(!new)>(st: St<S, I>, items: seq<ItemId>) {
    forall q :: q in st.slots ==> Ext(st, q) >= Occurrences(items, q)
  }

  lemma {:induction false} LoadOwnSound<S, I(!new)>(b: Backend<S, I>, cfg: Config<I>, fix: FixtureId, items: seq<ItemId>, st: St<S, I>)
    requires Valid(cfg, st) && Sound(st)
    requires LoadOwn(b, cfg, fix, items, st).Ok?
    ensures Sound(LoadOwn(b, cfg, fix, items, st).value)
    decreases |items|
  {
    if items != [] {
      LoadItemSound(b, cfg, fix, items[0], st);
      LoadOwnSound(b, cfg, fix, items[1..], LoadItem(b, cfg, fix, items[0], st).value.0);
    }
  }

  lemma {:induction false} LoadBasesSound<S, I(!new)>(b: Backend<S, I>, cfg: Config<I>, bases: seq<FixtureId>, st: St<S, I>)
    requires Valid(cfg, st) && Sound(st)
    requires LoadBases(b, cfg, bases, st).Ok?
    ensures Sound(LoadBases(b, cfg, bases, st).value)
    decreases |bases|
  {
    if bases != [] {
      if bases[0] !in cfg.fixtures {
        LoadBasesSound(b, cfg, bases[1..], st);
      } else {
        var own := cfg.fixtures[bases[0]].own;
        LoadOwnSound(b, cfg, bases[0], own, st);
        LoadBasesSound(b, cfg, bases[1..], LoadOwn(b, cfg, bases[0], own, st).value);
      }
    }
  }

  /** `_unload_self` keeps the invariants when every item it gives back was
      loaded from outside at least that often. */
  lemma {:induction false} UnloadOwnSound<S, I(!new)>(b: Backend<S, I>, cfg: Config<I>, fix: FixtureId, items: seq<ItemId>, st: St<S, I>)
    requires Valid(cfg, st) && Sound(st) && Owed(st, items)
    requires UnloadOwn(b, cfg, fix, items, st).Ok?
    ensures Sound(UnloadOwn(b, cfg, fix, items, st).value)
    decreases |items|
  {
    if items != [] {
      var i := items[0];
      UnloadItemFacts(b, cfg, fix, i, st);
      UnloadItemExt(b, cfg, fix, i, st);
      var st1 := UnloadItem(b, cfg, fix, i, st).value;
      OwedTail(st, st1, items);
      UnloadItemSound(b, cfg, fix, i, st);
      UnloadOwnSound(b, cfg, fix, items[1..], st1);
    }
  }

  /** Giving back the first entry of `items` leaves the rest owed. */
  lemma OwedTail<S, I(!new)>(st: St<S, I>, st1: St<S, I>, items: seq<ItemId>)
    requires items != [] && items[0] in st.slots && Owed(st, items) && ExtMoved(st, st1, items[0], -1)
    ensures Ext(st, items[0]) >= 1 && Owed(st1, items[1..])
  {
    assert items == [items[0]] + items[1..];
    assert multiset(items) == multiset{items[0]} + multiset(items[1..]);
  }

  lemma {:induction false} UnloadBasesSound<S, I(!new)>(b: Backend<S, I>, cfg: Config<I>, bases: seq<FixtureId>, st: St<S, I>)
    requires Valid(cfg, st) && Sound(st) && Owed(st, OwnItems(cfg, bases))
    requires UnloadBases(b, cfg, bases, st).Ok?
    ensures Sound(UnloadBases(b, cfg, bases, st).value)
    decreases |bases|
  {
    if bases != [] {
      if bases[0] !in cfg.fixtures {
        assert OwnItems(cfg, bases) == [] + OwnItems(cfg, bases[1..]);
        UnloadBasesSound(b, cfg, bases[1..], st);
      } else {
        var own := cfg.fixtures[bases[0]].own;
        var rest := OwnItems(cfg, bases[1..]);
        assert multiset(own + rest) == multiset(own) + multiset(rest);
        UnloadOwnSound(b, cfg, bases[0], own, st);
        UnloadOwnExt(b, cfg, bases[0], own, st);
        UnloadBasesSound(b, cfg, bases[1..], UnloadOwn(b, cfg, bases[0], own, st).value);
      }
    }
  }

  /** The external references a `load` took cover the `unload` of the same
      fixture. */
  lemma LoadOwes<S, I(!new)>(cfg: Config<I>, fix: FixtureId, st: St<S, I>, st1: St<S, I>, st2: St<S, I>)
    requires fix in cfg.fixtures && Covered(st)
    requires ExtRaised(st, st1, OwnItems(cfg, Reverse(cfg.fixtures[fix].mro))) && ExtKept(st1, st2)
    ensures Owed(st2, OwnItems(cfg, cfg.fixtures[fix].mro))
  {
    OwnItemsReverse(cfg, cfg.fixtures[fix].mro);
  }

  /** A decorated call that gets past the loader keeps the invariants. */
  lemma {:induction false} RunSound<S, I(!new)>(b: Backend<S, I>, cfg: Config<I>, p: Proc, st: St<S, I>)
    requires Valid(cfg, st) && Sound(st) && Declared(cfg, p)
    ensures !Run(b, cfg, p, st).Failed? ==> Sound(Run(b, cfg, p, st).st)
    decreases p
  {
    match p
    case Body(_) =>
    case Decorated(fix, inner) =>
      if LoadFixture(b, cfg, fix, st).Ok? {
        var st1 := LoadFixture(b, cfg, fix, st).value;
        LoadBasesSound(b, cfg, Reverse(cfg.fixtures[fix].mro), st);
        LoadBasesExt(b, cfg, Reverse(cfg.fixtures[fix].mro), st);
        RunSound(b, cfg, inner, st1);
        RunExt(b, cfg, inner, st1);
        var o := Run(b, cfg, inner, st1);
        if !o.Failed? && UnloadFixture(b, cfg, fix, o.st).Ok? {
          LoadOwes(cfg, fix, st, st1, o.st);
          UnloadBasesSound(b, cfg, cfg.fixtures[fix].mro, o.st);
        }
      }
  }

  // ---------------------------------------------------------------------
  // Back to idle

  /** Among finitely many items, one was created last. */
  lemma {:induction false} LatestCreated<I(!new)>(log: seq<Event<I>>, items: set<ItemId>) returns (m: ItemId)
    requires items != {}
    ensures m in items && forall q :: q in items ==> LastCreate(log, q) <= LastCreate(log, m)
    decreases |items|
  {
    var x :| x in items;
    if items == {x} {
      m := x;
    } else {
      RemoveOneCard(items, x);
      m := LatestCreated(log, items - {x});
      if LastCreate(log, m) < LastCreate(log, x) {
        m := x;
      }
    }
  }

  /** With no external reference left, nothing is held: the pulled-in lists
      alone cannot keep an item loaded, since the item created last among
      those held would have to be pulled in by one created after it. */
  lemma NoExtAllIdle<S, I(!new)>(st: St<S, I>)
    requires Sound(st) && forall q :: q in st.slots ==> Ext(st, q) == 0
    ensures forall q :: q in st.slots ==> st.slots[q] == Idle()
  {
    var held := set q | q in st.slots && st.slots[q].count > 0;
    if held != {} {
      var m := LatestCreated(st.log, held);
      assert Pool(st.slots)[m] >= 1;
      var k := PoolHolder(st.slots, m);
      HolderLater(st, m, k);
      assert false;
    }
    forall q | q in st.slots ensures st.slots[q] == Idle() {
      assert q !in held;
    }
  }

  /** An item pulled in by another is held and was created before it. */
  lemma HolderLater<S, I(!new)>(st: St<S, I>, j: ItemId, k: ItemId)
    requires Sound(st) && k in st.slots && j in st.slots[k].pulled
    ensures st.slots[k].count > 0 && LastCreate(st.log, j) < LastCreate(st.log, k)
  {
  }

  /** An empty pool when no item pulled anything in. */
  lemma EmptyPool<I(!new)>(slots: map<ItemId, Slot<I>>, q: ItemId)
    requires forall k :: k in slots ==> slots[k].pulled == []
    ensures Pool(slots)[q] == 0
  {
    if Pool(slots)[q] >= 1 {
      var k := PoolHolder(slots, q);
    }
  }

  /** A decorated call made with every item unloaded, and that gets past the
      loader, leaves every item unloaded: every instance it created was
      destroyed, whether the body returned or raised. */
  lemma RunFromIdle<S, I(!new)>(b: Backend<S, I>, cfg: Config<I>, p: Proc, st: St<S, I>)
    requires Valid(cfg, st) && Declared(cfg, p)
    requires forall q :: q in st.slots ==> st.slots[q] == Idle()
    ensures var o := Run(b, cfg, p, st);
            !o.Failed? ==> o.st.slots.Keys == st.slots.Keys && forall q :: q in o.st.slots ==> o.st.slots[q] == Idle()
  {
    forall q | q in st.slots ensures Ext(st, q) == 0 {
      EmptyPool(st.slots, q);
    }
    RunSound(b, cfg, p, st);
    RunExt(b, cfg, p, st);
    var o := Run(b, cfg, p, st);
    if !o.Failed? {
      NoExtAllIdle(o.st);
    }
  }
}

=== FILE: unload_facts.dfy ===
/** What `unload_item` guarantees (funfixtures/common.py:156-170), proved by
    induction along the unloader's own recursion. */
module UnloadFacts {
  import opened Common
  import opened FixtureModel
  import opened Loader
  import opened LoadFacts

  /** How an unload may change one item's slot: its count never rises; an
      item at zero is not touched; an item still held keeps its instance and
      pulled-in list; an item released goes back to its initial state. */
  ghost predicate KeptOnUnload<I(!new)>(s: Slot<I>, s': Slot<I>) {
    && s'.count <= s.count
    && (s.count == 0 ==> s' == s)
    && (s'.count > 0 ==> s'.instance == s.instance && s'.pulled == s.pulled)
    && (s.count > 0 && s'.count == 0 ==> s' == Idle())
  }

  ghost predicate AllKeptOnUnload<S, I(!new)>(st: St<S, I>, st': St<S, I>) {
    && st'.slots.Keys == st.slots.Keys
    && forall k :: k in st.slots ==> KeptOnUnload(st.slots[k], st'.slots[k])
  }

  /** Items this step took from a positive count to zero. */
  ghost function Released<S, I(!new)>(st: St<S, I>, st': St<S, I>): set<ItemId> {
    set k | k in st.slots && k in st'.slots && st.slots[k].count > 0 && st'.slots[k].count == 0
  }

  /** The log grew by `destroy_item_instance` calls only, one for each item
      this step released and for no other, each on the instance the item
      held when the step began. */
  ghost predicate DestroysExactly<S, I(!new)>(st: St<S, I>, st': St<S, I>) {
    && st.log <= st'.log
    && var d := st'.log[|st.log|..];
    && DestroysHeld(st, d)
    && Distinct(EventItems(d))
    && Elems(EventItems(d)) == Released(st, st')
  }

  /** Every event of `d` destroys an instance some item held in `st`. */
  ghost predicate DestroysHeld<S, I(!new)>(st: St<S, I>, d: seq<Event<I>>) {
    forall p :: 0 <= p < |d| ==> DestroysHeldAt(st, d[p])
  }

  ghost predicate DestroysHeldAt<S, I(!new)>(st: St<S, I>, e: Event<I>) {
    e.DestroyEvent? && e.item in st.slots && st.slots[e.item].instance == Some(e.instance)
  }

  /** Unloading `items` lowered every item by at least the number of times
      it occurs there. */
  ghost predicate ListDrops<S, I(!new)>(st: St<S, I>, st': St<S, I>, items: seq<ItemId>)
    requires st'.slots.Keys == st.slots.Keys
  {
    forall q :: q in st.slots ==> st'.slots[q].count + Occurrences(items, q) <= st.slots[q].count
  }

  lemma KeptOnUnloadTrans<I(!new)>(s: Slot<I>, s': Slot<I>, s'': Slot<I>)
    requires KeptOnUnload(s, s') && KeptOnUnload(s', s'')
    ensures KeptOnUnload(s, s'')
  {
  }

  lemma AllKeptTrans<S, I(!new)>(st: St<S, I>, st': St<S, I>, st'': St<S, I>)
    requires AllKeptOnUnload(st, st') && AllKeptOnUnload(st', st'')
    ensures AllKeptOnUnload(st, st'')
  {
    forall k | k in st.slots
      ensures KeptOnUnload(st.slots[k], st''.slots[k])
    {
      KeptOnUnloadTrans(st.slots[k], st'.slots[k], st''.slots[k]);
    }
  }

  /** A step that moves no count and calls no backend destroys nothing. */
  lemma DestroysNothing<S, I(!new)>(st: St<S, I>)
    ensures DestroysExactly(st, st)
  {
    assert st.log[|st.log|..] == [];
  }

  lemma DestroysCompose<S, I(!new)>(st: St<S, I>, st': St<S, I>, st'': St<S, I>)
    requires AllKeptOnUnload(st, st') && AllKeptOnUnload(st', st'')
    requires DestroysExactly(st, st') && DestroysExactly(st', st'')
    ensures DestroysExactly(st, st'')
  {
    var d1 := st'.log[|st.log|..];
    var d2 := st''.log[|st'.log|..];
    assert st''.log[|st.log|..] == d1 + d2;
    EventItemsAppend(d1, d2);
    AllKeptTrans(st, st', st'');
    ReleasedCompose(st, st', st'');
    DisjointDistinct(EventItems(d1), EventItems(d2));
    DestroyedInstances(st, st', d1, d2);
  }

  lemma ReleasedCompose<S, I(!new)>(st: St<S, I>, st': St<S, I>, st'': St<S, I>)
    requires AllKeptOnUnload(st, st') && AllKeptOnUnload(st', st'') && AllKeptOnUnload(st, st'')
    ensures Released(st, st') !! Released(st', st'')
    ensures Released(st, st'') == Released(st, st') + Released(st', st'')
  {
  }

  /** Every destroy of the later step is on an instance the item already held
      before the earlier step. */
  lemma DestroyedInstances<S, I(!new)>(st: St<S, I>, st': St<S, I>, d1: seq<Event<I>>, d2: seq<Event<I>>)
    requires AllKeptOnUnload(st, st') && DestroysHeld(st, d1) && DestroysHeld(st', d2)
    ensures DestroysHeld(st, d1 + d2)
  {
    forall p | |d1| <= p < |d1 + d2|
      ensures DestroysHeldAt(st, (d1 + d2)[p])
    {
      var q := d2[p - |d1|].item;
      assert DestroysHeldAt(st', d2[p - |d1|]);
      assert KeptOnUnload(st.slots[q], st'.slots[q]);
    }
  }

  /** Every step that does not fail releases only what it lowers to zero. */
  lemma UnloadKeepsTidy<S, I(!new)>(st: St<S, I>, st': St<S, I>)
    requires Tidy(st) && AllKeptOnUnload(st, st')
    ensures Tidy(st')
  {
    forall k | k in st'.slots && st'.slots[k].count == 0
      ensures st'.slots[k] == Idle()
    {
      assert KeptOnUnload(st.slots[k], st'.slots[k]);
    }
  }

  /** Every `unload_item` call lowers the count by exactly one and otherwise
      only releases items. An item still held afterwards is left without a
      backend call. An item released is destroyed first, on the instance it
      held, and each item it pulled in is then lowered once for each time it
      was pulled in. */
  lemma {:induction false} UnloadItemFacts<S, I(!new)>(b: Backend<S, I>, cfg: Config<I>, fix: FixtureId, i: ItemId, st: St<S, I>)
    requires Valid(cfg, st)
    requires UnloadItem(b, cfg, fix, i, st).Ok?
    ensures i.fixture == fix
    ensures var st' := UnloadItem(b, cfg, fix, i, st).value;
            && i in st.slots && AllKeptOnUnload(st, st') && DestroysExactly(st, st')
            && st'.slots[i].count == st.slots[i].count - 1
    ensures var st' := UnloadItem(b, cfg, fix, i, st).value;
            st.slots[i].count > 1 ==> st'.log == st.log && st'.store == st.store
    ensures var st' := UnloadItem(b, cfg, fix, i, st).value;
            st.slots[i].count == 1 ==>
              && st.slots[i].instance.Some?
              && |st'.log| > |st.log| && st'.log[|st.log|] == DestroyEvent(i, st.slots[i].instance.value)
              && forall q :: q in st.slots && q != i ==>
                   st'.slots[q].count + Occurrences(st.slots[i].pulled, q) <= st.slots[q].count
    decreases Held(st), 1, 0, 1
  {
    var s := st.slots[i];
    if s.count > 1 {
      DestroysNothing(st);
      var st' := UnloadItem(b, cfg, fix, i, st).value;
      assert st'.log == st.log;
    } else {
      ReleaseFacts(b, cfg, fix, i, st);
    }
  }

  /** `unload_item` on an item held once: destroy, unpublish, unload the
      pulled-in items, forget them. */
  lemma {:induction false} ReleaseFacts<S, I(!new)>(b: Backend<S, I>, cfg: Config<I>, fix: FixtureId, i: ItemId, st: St<S, I>)
    requires Valid(cfg, st)
    requires UnloadItem(b, cfg, fix, i, st).Ok? && st.slots[i].count == 1
    ensures var st' := UnloadItem(b, cfg, fix, i, st).value;
            && AllKeptOnUnload(st, st') && DestroysExactly(st, st') && st'.slots[i].count == 0
            && st.slots[i].instance.Some?
            && |st'.log| > |st.log| && st'.log[|st.log|] == DestroyEvent(i, st.slots[i].instance.value)
            && forall q :: q in st.slots && q != i ==>
                 st'.slots[q].count + Occurrences(st.slots[i].pulled, q) <= st.slots[q].count
    decreases Held(st), 1, 0, 0
  {
    var s := st.slots[i];
    ReleaseUnfolds(b, cfg, fix, i, st);
    var inst := s.instance.value;
    var store := b.destroy(st.store, i, inst).value;
    var st1 := st.(slots := st.slots[i := s.(count := 0, instance := None)],
                   store := store, log := st.log + [DestroyEvent(i, inst)]);
    MarkReleasedHeld(st, st1, i);
    UnloadListFacts(b, cfg, s.pulled, st1);
    var st2 := UnloadList(b, cfg, s.pulled, st1).value;
    ReleaseStep(i, inst, st, st1, st2);
  }

  /** The successful path of a release, step by step. */
  lemma ReleaseUnfolds<S, I(!new)>(b: Backend<S, I>, cfg: Config<I>, fix: FixtureId, i: ItemId, st: St<S, I>)
    requires Valid(cfg, st)
    requires UnloadItem(b, cfg, fix, i, st).Ok? && st.slots[i].count == 1
    ensures i in cfg.items && st.slots[i].instance.Some?
    ensures var s := st.slots[i];
            && b.destroy(st.store, i, s.instance.value).Some?
            && var st1 := st.(slots := st.slots[i := s.(count := 0, instance := None)],
                              store := b.destroy(st.store, i, s.instance.value).value,
                              log := st.log + [DestroyEvent(i, s.instance.value)]);
            && UnloadList(b, cfg, s.pulled, st1).Ok?
            && var st2 := UnloadList(b, cfg, s.pulled, st1).value;
            && UnloadItem(b, cfg, fix, i, st).value == st2.(slots := st2.slots[i := st2.slots[i].(pulled := [])])
  {
  }

  /** Chains the destroy of `i`, the unloading of its pulled-in items and
      the clearing of its list. */
  lemma ReleaseStep<S, I(!new)>(i: ItemId, inst: I, st: St<S, I>, st1: St<S, I>, st2: St<S, I>)
    requires i in st.slots && st.slots[i].count == 1 && st.slots[i].instance == Some(inst)
    requires st1.slots == st.slots[i := st.slots[i].(count := 0, instance := None)]
    requires st1.log == st.log + [DestroyEvent(i, inst)]
    requires AllKeptOnUnload(st1, st2) && DestroysExactly(st1, st2) && ListDrops(st1, st2, st.slots[i].pulled)
    ensures var st' := st2.(slots := st2.slots[i := st2.slots[i].(pulled := [])]);
            && AllKeptOnUnload(st, st') && DestroysExactly(st, st') && st'.slots[i].count == 0
            && st'.log[|st.log|] == DestroyEvent(i, inst)
            && forall q :: q in st.slots && q != i ==>
                 st'.slots[q].count + Occurrences(st.slots[i].pulled, q) <= st.slots[q].count
  {
    var st' := st2.(slots := st2.slots[i := st2.slots[i].(pulled := [])]);
    ReleaseSlots(i, st, st1, st2, st');
    ReleaseDestroys(i, inst, st, st1, st2, st');
  }

  lemma ReleaseSlots<S, I(!new)>(i: ItemId, st: St<S, I>, st1: St<S, I>, st2: St<S, I>, st': St<S, I>)
    requires i in st.slots && st.slots[i].count == 1
    requires st1.slots == st.slots[i := st.slots[i].(count := 0, instance := None)]
    requires AllKeptOnUnload(st1, st2)
    requires st'.slots == st2.slots[i := st2.slots[i].(pulled := [])]
    ensures AllKeptOnUnload(st, st')
  {
    assert KeptOnUnload(st1.slots[i], st2.slots[i]);
    forall k | k in st.slots
      ensures KeptOnUnload(st.slots[k], st'.slots[k])
    {
      if k != i {
        assert KeptOnUnload(st1.slots[k], st2.slots[k]);
      }
    }
  }

  lemma ReleaseDestroys<S, I(!new)>(i: ItemId, inst: I, st: St<S, I>, st1: St<S, I>, st2: St<S, I>, st': St<S, I>)
    requires i in st.slots && st.slots[i].count == 1 && st.slots[i].instance == Some(inst)
    requires st1.slots == st.slots[i := st.slots[i].(count := 0, instance := None)]
    requires st1.log == st.log + [DestroyEvent(i, inst)]
    requires AllKeptOnUnload(st1, st2) && DestroysExactly(st1, st2)
    requires st'.slots == st2.slots[i := st2.slots[i].(pulled := [])] && st'.log == st2.log
    ensures DestroysExactly(st, st')
  {
    var d := st2.log[|st1.log|..];
    var e: seq<Event<I>> := [DestroyEvent(i, inst)];
    assert st'.log[|st.log|..] == e + d;
    EventItemsAppend(e, d);
    assert EventItems(e) == [i];
    assert KeptOnUnload(st1.slots[i], st2.slots[i]);
    assert i !in Elems(EventItems(d));
    assert Released(st, st') == {i} + Released(st1, st2);
    assert Elems([i] + EventItems(d)) == {i} + Elems(EventItems(d));
    var all := e + d;
    forall p | 0 <= p < |all|
      ensures DestroysHeldAt(st, all[p])
    {
      if p > 0 {
        assert all[p] == d[p - 1] && DestroysHeldAt(st1, d[p - 1]);
        assert all[p].item in Elems(EventItems(d));
      }
    }
  }

  /** Unloading a list lowers each item once per occurrence and otherwise
      only releases items. */
  lemma {:induction false} UnloadListFacts<S, I(!new)>(b: Backend<S, I>, cfg: Config<I>, items: seq<ItemId>, st: St<S, I>)
    requires Valid(cfg, st)
    requires UnloadList(b, cfg, items, st).Ok?
    ensures var st' := UnloadList(b, cfg, items, st).value;
            AllKeptOnUnload(st, st') && DestroysExactly(st, st') && ListDrops(st, st', items)
    decreases Held(st), 2, |items|, 0
  {
    if items == [] {
      DestroysNothing(st);
      assert AllKeptOnUnload(st, st);
    } else {
      var q0 := items[0];
      UnloadItemFacts(b, cfg, q0.fixture, q0, st);
      var st1 := UnloadItem(b, cfg, q0.fixture, q0, st).value;
      ShrinksHeld(st, st1);
      UnloadListFacts(b, cfg, items[1..], st1);
      var st' := UnloadList(b, cfg, items, st).value;
      assert st' == UnloadList(b, cfg, items[1..], st1).value;
      ListStep(items, st, st1, st');
    }
  }

  lemma ListStep<S, I(!new)>(items: seq<ItemId>, st: St<S, I>, st1: St<S, I>, st': St<S, I>)
    requires items != [] && items[0] in st.slots
    requires AllKeptOnUnload(st, st1) && DestroysExactly(st, st1)
    requires st1.slots[items[0]].count == st.slots[items[0]].count - 1
    requires AllKeptOnUnload(st1, st') && DestroysExactly(st1, st') && ListDrops(st1, st', items[1..])
    ensures AllKeptOnUnload(st, st') && DestroysExactly(st, st') && ListDrops(st, st', items)
  {
    AllKeptTrans(st, st1, st');
    DestroysCompose(st, st1, st');
    assert items == [items[0]] + items[1..];
    assert multiset(items) == multiset([items[0]]) + multiset(items[1..]);
    forall q | q in st.slots
      ensures st'.slots[q].count + Occurrences(items, q) <= st.slots[q].count
    {
      assert KeptOnUnload(st.slots[q], st1.slots[q]);
    }
  }

  /** Every item of `items` is held exactly once, published, and pulled
      nothing in: unloading it is one destroy and nothing more. */
  ghost predicate FlatHeld<S, I(!new)>(st: St<S, I>, items: seq<ItemId>) {
    forall p :: 0 <= p < |items| ==>
      && items[p] in st.slots && st.slots[items[p]].count == 1
      && st.slots[items[p]].instance.Some? && st.slots[items[p]].pulled == []
  }

  /** The destroy calls for `items`, in list order, each on the instance its
      item holds in `slots`. */
  function DestroysInOrder<I(!new)>(slots: map<ItemId, Slot<I>>, items: seq<ItemId>): (d: seq<Event<I>>)
    requires forall p :: 0 <= p < |items| ==> items[p] in slots && slots[items[p]].instance.Some?
    ensures |d| == |items|
    decreases |items|
  {
    if items == [] then []
    else [DestroyEvent(items[0], slots[items[0]].instance.value)] + DestroysInOrder(slots, items[1..])
  }

  /** `unload_item` is called on the items of a list one after the other
      (funfixtures/common.py:168-169): when each is held once and pulled
      nothing in, the backend sees exactly one destroy per item, in list
      order, and every item ends idle. */
  lemma {:induction false} UnloadListInOrder<S, I(!new)>(b: Backend<S, I>, cfg: Config<I>, items: seq<ItemId>, st: St<S, I>)
    requires Valid(cfg, st) && UnloadList(b, cfg, items, st).Ok?
    requires Distinct(items) && FlatHeld(st, items)
    ensures var st' := UnloadList(b, cfg, items, st).value;
            && st'.log == st.log + DestroysInOrder(st.slots, items)
            && forall p :: 0 <= p < |items| ==> items[p] in st'.slots && st'.slots[items[p]] == Idle()
    decreases |items|
  {
    if items != [] {
      var i := items[0];
      UnloadListCons(b, cfg, items, st);
      var st1 := UnloadItem(b, cfg, i.fixture, i, st).value;
      UnloadFlatOne(b, cfg, i, st);
      FlatHeldTail(st, st1, items);
      UnloadListInOrder(b, cfg, items[1..], st1);
      UnloadListFacts(b, cfg, items[1..], st1);
      var st' := UnloadList(b, cfg, items[1..], st1).value;
      InOrderLog(items, st.slots, st1.slots, st.log, st1.log, st'.log);
      InOrderIdle(items, st1.slots, st'.slots);
    }
  }

  /** `UnloadList` on a non-empty list is `UnloadItem` on its head, then the rest. */
  lemma UnloadListCons<S, I(!new)>(b: Backend<S, I>, cfg: Config<I>, items: seq<ItemId>, st: St<S, I>)
    requires Valid(cfg, st) && items != [] && UnloadList(b, cfg, items, st).Ok?
    ensures UnloadItem(b, cfg, items[0].fixture, items[0], st).Ok?
    ensures var st1 := UnloadItem(b, cfg, items[0].fixture, items[0], st).value;
            UnloadList(b, cfg, items, st) == UnloadList(b, cfg, items[1..], st1)
  {
  }

  /** After the head of a flat list is released, the rest is still flat and
      its slots are those it had before. */
  lemma FlatHeldTail<S, I(!new)>(st: St<S, I>, st1: St<S, I>, items: seq<ItemId>)
    requires items != [] && Distinct(items) && FlatHeld(st, items)
    requires st1.slots == st.slots[items[0] := Idle()]
    ensures Distinct(items[1..]) && FlatHeld(st1, items[1..])
    ensures forall p :: 0 <= p < |items[1..]| ==> items[1..][p] in st1.slots && st1.slots[items[1..][p]] == st.slots[items[1..][p]]
  {
    forall p | 0 <= p < |items[1..]|
      ensures items[1..][p] != items[0] && items[1..][p] == items[p + 1]
    {
    }
  }

  /** The head released first and the rest released after it leave them all idle. */
  lemma InOrderIdle<I(!new)>(items: seq<ItemId>, slots1: map<ItemId, Slot<I>>, slots': map<ItemId, Slot<I>>)
    requires items != [] && items[0] in slots1 && slots1[items[0]] == Idle()
    requires forall p :: 0 <= p < |items[1..]| ==> items[1..][p] in slots' && slots'[items[1..][p]] == Idle()
    requires items[0] in slots' && KeptOnUnload(slots1[items[0]], slots'[items[0]])
    ensures forall p :: 0 <= p < |items| ==> items[p] in slots' && slots'[items[p]] == Idle()
  {
    forall p | 0 < p < |items|
      ensures items[p] in slots' && slots'[items[p]] == Idle()
    {
      assert items[p] == items[1..][p - 1];
    }
  }

  /** The destroy of the head followed by the destroys of the rest, in order. */
  lemma InOrderLog<I(!new)>(items: seq<ItemId>, slots: map<ItemId, Slot<I>>, slots1: map<ItemId, Slot<I>>,
                            log: seq<Event<I>>, log1: seq<Event<I>>, log': seq<Event<I>>)
    requires items != []
    requires forall p :: 0 <= p < |items| ==> items[p] in slots && slots[items[p]].instance.Some?
    requires log1 == log + [DestroyEvent(items[0], slots[items[0]].instance.value)]
    requires forall p :: 0 <= p < |items[1..]| ==> items[1..][p] in slots1 && slots1[items[1..][p]] == slots[items[1..][p]]
    requires log' == log1 + DestroysInOrder(slots1, items[1..])
    ensures log' == log + DestroysInOrder(slots, items)
  {
    assert forall p :: 0 <= p < |items[1..]| ==> items[1..][p] == items[p + 1];
    DestroysInOrderFrame(slots, slots1, items[1..]);
    var e := DestroyEvent(items[0], slots[items[0]].instance.value);
    assert DestroysInOrder(slots, items) == [e] + DestroysInOrder(slots, items[1..]);
  }

  /** Unloading an item held once that pulled nothing in destroys it and
      leaves it idle. */
  lemma UnloadFlatOne<S, I(!new)>(b: Backend<S, I>, cfg: Config<I>, i: ItemId, st: St<S, I>)
    requires Valid(cfg, st) && UnloadItem(b, cfg, i.fixture, i, st).Ok?
    requires i in st.slots && st.slots[i].count == 1 && st.slots[i].instance.Some? && st.slots[i].pulled == []
    ensures var st1 := UnloadItem(b, cfg, i.fixture, i, st).value;
            st1.slots == st.slots[i := Idle()] && st1.log == st.log + [DestroyEvent(i, st.slots[i].instance.value)]
  {
    var s := st.slots[i];
    var inst := s.instance.value;
    assert UnloadList(b, cfg, s.pulled, st.(slots := st.slots[i := s.(count := 0, instance := None)],
                                            store := b.destroy(st.store, i, inst).value,
                                            log := st.log + [DestroyEvent(i, inst)])).Ok?;
  }

  lemma {:induction false} DestroysInOrderFrame<I(!new)>(slots: map<ItemId, Slot<I>>, slots': map<ItemId, Slot<I>>, items: seq<ItemId>)
    requires forall p :: 0 <= p < |items| ==> items[p] in slots && slots[items[p]].instance.Some?
    requires forall p :: 0 <= p < |items| ==> items[p] in slots' && slots'[items[p]] == slots[items[p]]
    ensures DestroysInOrder(slots', items) == DestroysInOrder(slots, items)
    decreases |items|
  {
    if items != [] {
      DestroysInOrderFrame(slots, slots', items[1..]);
    }
  }
}
